=== FILE: README.md ===
# Stock analysis platform: scoring and analysis engine

A Dafny model of the numeric core of the stock analysis platform backend:

- the composite stock score. Four sub-scores (capital, technical, fundamental and risk) are each clamped to [0, 100]. Their weighted total is mapped to a banded buy/sell signal and to canned strengths and weaknesses;
- the holding-cost analyser: buy and sell VWAP, cost pressure, the ten-bin volume concentration, multi-window averages, the cost trend gated on R², and the support/resistance levels built from a clustering of the daily buy VWAPs;
- the capital-flow analyser: per-block grouping, inflow ratio, the trailing run of inflow days, ranking by average ratio, and the per-stock continuity, stability and trend;
- the series utilities: MA, EMA, RSI, MACD, Bollinger bands, ATR, volume ratio and OBV, VWAP, price metrics, normalisation, correlation, anomaly masks and missing-value filling;
- the three capital-flow alert rules;
- the post-processing of the strategy endpoints: top scoring, capital-flow picks, breakout and the screener;
- the `ScoringWeights` dictionary round trip.

Every service method runs one query and then computes on the row it gets back. The model keeps only the computation: the fetched rows are records passed in as arguments.

How values are represented:

- A nullable column, or a NaN, is an `Option<real>`.
- Python truthiness is reproduced exactly: `Truthy(o)` holds when the value is present and non-zero. So a zero amplitude, ratio or amount takes the same branch as a NULL one.
- `sqrt` and `log10` are function parameters. Where a property needs the square root to be non-negative, the lemma requires `IsSqrt(sqrt)`.
- `np.polyfit(arange(n), y, 1)` is replaced by closed-form least squares (module `Regression`).

Modules follow the source files:

| module | source file |
|---|---|
| `ScoringModel` | `models/scoring_model.py` |
| `Scoring` | `services/scoring_service.py` |
| `CostAnalysis` | `services/cost_analysis_service.py` |
| `CapitalFlow` | `services/analysis_service.py` |
| `Indicators` | `utils/indicators.py` |
| `DataProcessor` | `utils/data_processor.py` |
| `Alerts` | `services/alert_service.py` |
| `Strategy` | `api/v1/strategy.py` |

`Wrappers`, `Numeric`, `Sorting` and `Regression` are shared helpers:

- `Option`/`Result`;
- sums, means, min/max, population variance, clamping and Python `int()`;
- a stable sort by a real key, standing in for Python's `sort`;
- the least-squares fit.

## Model

All source paths below are under `stock-analysis-platform/backend/app/`, written out in full.

| member | source | states |
|---|---|---|
| ScoringModel.Default | stock-analysis-platform/backend/app/models/scoring_model.py:9-12 | the default weights 0.40/0.30/0.20/0.10 sum to exactly 1 |
| ScoringModel.DefaultNormalized | stock-analysis-platform/backend/app/models/scoring_model.py:9-12 | the default weights are non-negative and sum to 1 |
| ScoringModel.ToDict | stock-analysis-platform/backend/app/models/scoring_model.py:14-21 | the dictionary has exactly the keys capital, technical, fundamental and risk, each equal to its field |
| ScoringModel.FromDict | stock-analysis-platform/backend/app/models/scoring_model.py:23-31 | each field is the dictionary's value for its key, or its default when the key is missing |
| ScoringModel.RoundTrip | stock-analysis-platform/backend/app/models/scoring_model.py:14-31 | from_dict(to_dict(w)) == w for every weight record |
| ScoringModel.FromEmptyIsDefault | stock-analysis-platform/backend/app/models/scoring_model.py:23-31 | from_dict of an empty dictionary gives the default weights |
| ScoringModel.FromDictIgnoresExtraKeys | stock-analysis-platform/backend/app/models/scoring_model.py:23-31 | a key other than the four names does not change the result |
| Scoring.InflowTerm | stock-analysis-platform/backend/app/services/scoring_service.py:103-108 | the inflow bonus is 0 unless the inflow is positive; it is at most 25, and equals ratio·2 below that cap |
| Scoring.ContinuityTerm | stock-analysis-platform/backend/app/services/scoring_service.py:111-112 | min(positive_days·4, 20): 4·days up to five days, 20 from then on |
| Scoring.AmountAdjust | stock-analysis-platform/backend/app/services/scoring_service.py:115 | the amount adjustment never exceeds +10 |
| Scoring.CapitalScore | stock-analysis-platform/backend/app/services/scoring_service.py:97-118 | the capital score lies in [0, 100]; no row gives 50 |
| Scoring.CapitalMonotoneInDays | stock-analysis-platform/backend/app/services/scoring_service.py:111-118 | more positive days never lower the capital score |
| Scoring.MaTerm | stock-analysis-platform/backend/app/services/scoring_service.py:147-156 | the MA term is in {0, 10, 20, 30}; it is non-zero only when ma5, ma20 and ma60 are all truthy; it is 30 exactly when they are also strictly decreasing |
| Scoring.VolumeTerm | stock-analysis-platform/backend/app/services/scoring_service.py:159-164 | the volume term is in {0, 10, 20} and non-zero only on a rising day with truthy volume and vma5 |
| Scoring.TrendTerm | stock-analysis-platform/backend/app/services/scoring_service.py:167-169 | the trend term lies in [0, 15] and is 0 unless ma5 and ma20 are truthy |
| Scoring.ChangeTerm | stock-analysis-platform/backend/app/services/scoring_service.py:173-177 | −10 exactly above +9 %, +5 exactly below −9 %, 0 exactly within [−9, 9] |
| Scoring.TechnicalScore | stock-analysis-platform/backend/app/services/scoring_service.py:141-179 | the technical score lies in [0, 100]; no row gives 50 |
| Scoring.TechnicalNonDecreasingInVolume | stock-analysis-platform/backend/app/services/scoring_service.py:159-164 | with the other columns fixed, a larger volume never lowers the technical score |
| Scoring.BlockInflowTerm | stock-analysis-platform/backend/app/services/scoring_service.py:211-212 | the block inflow bonus is at most 25 and 0 for a falsy ratio |
| Scoring.RankTerm | stock-analysis-platform/backend/app/services/scoring_service.py:215-217 | max(0, 20 − rank/5): never negative; 0 for a falsy rank; at most 20 for a non-negative rank; 0 from rank 100 on |
| Scoring.BlockContinuityTerm | stock-analysis-platform/backend/app/services/scoring_service.py:220-221 | the continuity bonus is at most 15 and 0 for falsy days |
| Scoring.BlockTypeTerm | stock-analysis-platform/backend/app/services/scoring_service.py:224-227 | +5 exactly for "concept", +10 exactly for "industry", otherwise 0 |
| Scoring.FundamentalScore | stock-analysis-platform/backend/app/services/scoring_service.py:205-229 | the fundamental score lies in [0, 100]; no row gives 50 |
| Scoring.FundamentalNonDecreasingInInflow | stock-analysis-platform/backend/app/services/scoring_service.py:211-212 | a larger block inflow ratio never lowers the fundamental score |
| Scoring.FundamentalNonIncreasingInRank | stock-analysis-platform/backend/app/services/scoring_service.py:215-217 | starting from a non-zero rank, a larger rank never raises the fundamental score |
| Scoring.FundamentalNonDecreasingInContinuity | stock-analysis-platform/backend/app/services/scoring_service.py:220-221 | more continuity days never lower the fundamental score |
| Scoring.RankZeroEarnsNothing | stock-analysis-platform/backend/app/services/scoring_service.py:215-217 | rank 0 is falsy and earns 0 while rank 1 earns 19.8, so the rank lemma needs a non-zero start |
| Scoring.AmplitudeDeduction | stock-analysis-platform/backend/app/services/scoring_service.py:259-265 | the amplitude deduction is one of the tiers 0, 10, 20, 30 |
| Scoring.TurnoverDeduction | stock-analysis-platform/backend/app/services/scoring_service.py:268-274 | the turnover deduction is one of the tiers 0, 5, 15, 25 |
| Scoring.LiquidityDeduction | stock-analysis-platform/backend/app/services/scoring_service.py:277-281 | the liquidity deduction is one of 0, 10, 20, and 0 for a falsy amount |
| Scoring.VolatilityDeduction | stock-analysis-platform/backend/app/services/scoring_service.py:284-288 | the volatility deduction is one of the tiers 0, 10, 15 |
| Scoring.RiskScore | stock-analysis-platform/backend/app/services/scoring_service.py:253-290 | the risk score lies in [0, 100]; no row gives 50 although the computed path starts at 100; a row never scores below 10 |
| Scoring.AllNullRiskRowIsPerfect | stock-analysis-platform/backend/app/services/scoring_service.py:253-290 | a row of NULLs scores 100, while no row scores 50 |
| Scoring.RiskNonIncreasingInAmplitude | stock-analysis-platform/backend/app/services/scoring_service.py:259-265 | a larger amplitude never raises the risk score |
| Scoring.RiskNonIncreasingInTurnover | stock-analysis-platform/backend/app/services/scoring_service.py:268-274 | a larger turnover never raises the risk score |
| Scoring.RiskNonIncreasingInVolatility | stock-analysis-platform/backend/app/services/scoring_service.py:284-288 | a larger 20-day volatility never raises the risk score |
| Scoring.RiskNonDecreasingInAmount | stock-analysis-platform/backend/app/services/scoring_service.py:277-281 | starting from a non-zero amount, a larger amount never lowers the risk score |
| Scoring.ZeroAmountTakesNoDeduction | stock-analysis-platform/backend/app/services/scoring_service.py:277-281 | an amount of 0 is falsy, so it scores strictly better than an amount of 1 |
| Scoring.NeutralTotal | stock-analysis-platform/backend/app/services/scoring_service.py:41-46 | four neutral scores of 50 give 50 times the sum of the weights |
| Scoring.WeightedTerm | stock-analysis-platform/backend/app/services/scoring_service.py:41-46 | a score in [0, 100] times a non-negative weight w lies in [0, 100·w] |
| Scoring.BoundedSum | stock-analysis-platform/backend/app/services/scoring_service.py:41-46 | four such terms whose weights sum to 1 add up to a value in [0, 100] |
| Scoring.TotalScore | stock-analysis-platform/backend/app/services/scoring_service.py:41-46 | with non-negative weights summing to 1 and sub-scores in [0, 100], the weighted total lies in [0, 100]; four equal sub-scores give that same score as total |
| Scoring.ScanBands | stock-analysis-platform/backend/app/services/scoring_service.py:307-311 | the loop with its break returns the first band containing the total, or "hold" when none does |
| Scoring.SignalTypeIsBand | stock-analysis-platform/backend/app/services/scoring_service.py:296-311 | scanning the band table equals the interval-by-interval mapping; a total below 0 or of at least 100, 100 included, keeps "hold" |
| Scoring.BaseStrength | stock-analysis-platform/backend/app/services/scoring_service.py:314-320 | the strength before the penalty lies in [0, 3] |
| Scoring.GenerateSignal | stock-analysis-platform/backend/app/services/scoring_service.py:292-330 | the type is the band of the total; the strength is the group strength less 1 (floored at 0) when abs(capital − technical)/100 > 0.3, so it lies in [0, 3]; confidence = min(100, total) |
| Scoring.SignalExamples | stock-analysis-platform/backend/app/services/scoring_service.py:296-330 | 85/80/80 gives strong_buy with strength 3; 55/90/20 gives hold with strength 0; a total of 100 gives hold |
| Scoring.OrderedAppend | stock-analysis-platform/backend/app/services/scoring_service.py:343-367 | joining two factor-ordered lists, where all of the first come before all of the second, stays factor-ordered |
| Scoring.Strengths | stock-analysis-platform/backend/app/services/scoring_service.py:343-357 | a strength statement is listed exactly when its score condition holds; at most 4 strengths; no weakness among them |
| Scoring.StrengthsOrdered | stock-analysis-platform/backend/app/services/scoring_service.py:343-357 | strengths come in the order capital, technical, block, risk, at most one per factor |
| Scoring.Weaknesses | stock-analysis-platform/backend/app/services/scoring_service.py:360-367 | a weakness is listed exactly when its score is at most 40; at most 3 weaknesses, and only weaknesses |
| Scoring.WeaknessesOrdered | stock-analysis-platform/backend/app/services/scoring_service.py:360-367 | weaknesses come in the order capital, technical, risk, at most one per factor |
| Scoring.GenerateAnalysis | stock-analysis-platform/backend/app/services/scoring_service.py:339-367 | a statement is listed as a strength exactly when it is a strength the sub-scores call for, and as a weakness exactly when it is a weakness they call for (the block score never produces a weakness); at most four strengths and three weaknesses |
| Scoring.AnalysisConsistent | stock-analysis-platform/backend/app/services/scoring_service.py:339-367 | no factor is both a strength and a weakness, and no factor gives two strengths |
| Scoring.NoFactorBothWays | stock-analysis-platform/backend/app/services/scoring_service.py:343-367 | the score bands of a strength and a weakness of the same factor are disjoint |
| Scoring.ScoreStock | stock-analysis-platform/backend/app/services/scoring_service.py:24-71 | the report echoes code, date and weights; every sub-score is in [0, 100]; the total is the weighted sum, and lies in [0, 100] for normalised weights; the signal is the total's band; all-missing rows give 50·Σweights |
| CostAnalysis.SideVwap | stock-analysis-platform/backend/app/services/cost_analysis_service.py:77-84 | one side's VWAP times its total volume is its total amount; 0 when the total volume is ≤ 0 |
| CostAnalysis.MedianOpt | stock-analysis-platform/backend/app/services/cost_analysis_service.py:87 | the median is undefined exactly for no prices, and otherwise lies between min and max |
| CostAnalysis.PressureOverMedian | stock-analysis-platform/backend/app/services/cost_analysis_service.py:92 | pressure·median = (buy − sell)·100 for a positive median, 0 otherwise |
| CostAnalysis.DiffFrom | stock-analysis-platform/backend/app/services/cost_analysis_service.py:88-89 | the difference from the median plus the median gives back the VWAP; undefined with the median |
| CostAnalysis.Level | stock-analysis-platform/backend/app/services/cost_analysis_service.py:138-139 | the bin index is always in [0, 9] |
| CostAnalysis.LevelMonotone | stock-analysis-platform/backend/app/services/cost_analysis_service.py:138-139 | a higher price never falls in a lower bin |
| CostAnalysis.SumAddAt | stock-analysis-platform/backend/app/services/cost_analysis_service.py:140 | adding to one bin raises the bin total by the amount |
| CostAnalysis.Bins | stock-analysis-platform/backend/app/services/cost_analysis_service.py:133-140 | there are ten bins; with a price range ≤ 0 no bin receives volume |
| CostAnalysis.BinsCoverVolume | stock-analysis-platform/backend/app/services/cost_analysis_service.py:133-140 | with a positive range the bins sum to the total buy plus sell volume |
| CostAnalysis.BinsNonneg | stock-analysis-platform/backend/app/services/cost_analysis_service.py:133-140 | non-negative volumes give non-negative bins |
| CostAnalysis.TopTwoDominates | stock-analysis-platform/backend/app/services/cost_analysis_service.py:143-145 | the two largest bins hold at least as much as any other two bins |
| CostAnalysis.MaxAtMostSum | stock-analysis-platform/backend/app/services/cost_analysis_service.py:143-145 | with non-negative bins the largest is at most the total |
| CostAnalysis.SumRemoveAt | stock-analysis-platform/backend/app/services/cost_analysis_service.py:143-145 | the total is the removed bin plus the rest |
| CostAnalysis.TopTwoBounds | stock-analysis-platform/backend/app/services/cost_analysis_service.py:143-145 | with non-negative bins, the top-two volume lies between 0 and the total |
| CostAnalysis.TopTwoOfZeros | stock-analysis-platform/backend/app/services/cost_analysis_service.py:143-145 | ten empty bins have a top-two volume of 0 |
| CostAnalysis.TopTwoWithinVolume | stock-analysis-platform/backend/app/services/cost_analysis_service.py:133-145 | the top-two volume of the bins lies between 0 and the buy plus sell volume |
| CostAnalysis.ConcentrationOf | stock-analysis-platform/backend/app/services/cost_analysis_service.py:116-151 | zero total volume gives three zeros; the computation fails exactly when the volume is non-zero but there are no prices; top20_price_range is 0.2 otherwise |
| CostAnalysis.Dispersion | stock-analysis-platform/backend/app/services/cost_analysis_service.py:150 | dispersion·mean = price range for a positive mean, 0 otherwise |
| CostAnalysis.FlatPricesHaveNoConcentration | stock-analysis-platform/backend/app/services/cost_analysis_service.py:133-149 | equal prices leave all bins empty, so volume_concentration is 0 |
| CostAnalysis.FlatBinsAreEmpty | stock-analysis-platform/backend/app/services/cost_analysis_service.py:137-149 | with equal prices and non-zero volume the concentration quotient is 0 |
| CostAnalysis.NoRangeNoTop | stock-analysis-platform/backend/app/services/cost_analysis_service.py:137-145 | a price range ≤ 0 gives a top-two volume of 0 |
| CostAnalysis.ConcentrationIsFraction | stock-analysis-platform/backend/app/services/cost_analysis_service.py:143-149 | with non-negative volumes, volume_concentration lies in [0, 1] |
| CostAnalysis.AnalyzeDailyCost | stock-analysis-platform/backend/app/services/cost_analysis_service.py:65-114 | the record fails exactly when the concentration does; otherwise its concentration fields are those of `ConcentrationOf` on the day's prices and volumes, the price median is the numpy median of the prices (None for no prices), and the buy and sell median differences are each VWAP's relative distance from that median; buy/sell VWAPs, spread, pressure and totals follow the VWAP definitions above |
| CostAnalysis.DetermineCostTrend | stock-analysis-platform/backend/app/services/cost_analysis_service.py:177-198 | "stable" below 2 points; "rising" iff R² > 0.5 and slope > 0.01; "falling" iff R² > 0.5 and slope < −0.01 |
| CostAnalysis.ConstantCostIsStable | stock-analysis-platform/backend/app/services/cost_analysis_service.py:177-212 | a constant series has sstot = 0, hence R² = 0, and is "stable" |
| CostAnalysis.ClimbingCostIsRising | stock-analysis-platform/backend/app/services/cost_analysis_service.py:177-212 | 10, 11, 12, 13, 14 is "rising" |
| CostAnalysis.WindowAverageOf | stock-analysis-platform/backend/app/services/cost_analysis_service.py:166-173 | the averages are the arithmetic means of the window's buy VWAPs, sell VWAPs and cost pressures, each between that column's extremes; the trend is that of the window's buy VWAPs |
| CostAnalysis.ConstantHistoryAverages | stock-analysis-platform/backend/app/services/cost_analysis_service.py:153-175 | a history with the same buy VWAP, sell VWAP and cost pressure every day averages to those values in every window, with a stable trend |
| CostAnalysis.MultiDayCost | stock-analysis-platform/backend/app/services/cost_analysis_service.py:153-175 | empty input gives an empty map; window w is present iff w ∈ {2, 5, 20, 60} and w ≤ days, and it averages the first w days |
| CostAnalysis.AnalyzeCostTrend | stock-analysis-platform/backend/app/services/cost_analysis_service.py:216-222 | "insufficient_data" exactly below 5 days; otherwise the buy-VWAP and pressure series the helpers receive |
| CostAnalysis.ClusterCount | stock-analysis-platform/backend/app/services/cost_analysis_service.py:254 | at most 3 clusters, and no more than the distinct costs |
| CostAnalysis.LevelOf | stock-analysis-platform/backend/app/services/cost_analysis_service.py:266-277 | a level's price is the mean of its members; its sample count is the cluster size; it is "support" exactly for the argmin centre |
| CostAnalysis.LevelsFrom | stock-analysis-platform/backend/app/services/cost_analysis_service.py:262-277 | one level per non-empty cluster, each with frequency weight = sample count / n |
| CostAnalysis.FindCostLevels | stock-analysis-platform/backend/app/services/cost_analysis_service.py:236-283 | empty below 3 days; at most min(3, distinct costs) levels, sorted ascending by price level |
| CostAnalysis.CountsCoverAll | stock-analysis-platform/backend/app/services/cost_analysis_service.py:262-266 | when every label names a cluster, the cluster sizes add up to n |
| CostAnalysis.LevelsFromCounts | stock-analysis-platform/backend/app/services/cost_analysis_service.py:262-277 | the levels' sample counts sum to the sizes of the clusters visited |
| CostAnalysis.SampleCountsCoverHistory | stock-analysis-platform/backend/app/services/cost_analysis_service.py:262-279 | the sample counts of the cost levels sum to the number of days |
| CostAnalysis.WeightsAreShares | stock-analysis-platform/backend/app/services/cost_analysis_service.py:268 | frequency weights that are shares of n sum to (sample counts)/n |
| CostAnalysis.SharesSurviveSort | stock-analysis-platform/backend/app/services/cost_analysis_service.py:279 | sorting by price level keeps every level's weight a share of n |
| CostAnalysis.FrequencyWeightsSumToOne | stock-analysis-platform/backend/app/services/cost_analysis_service.py:262-279 | the frequency weights of the cost levels sum to 1 |
| CostAnalysis.SharesSumToOne | stock-analysis-platform/backend/app/services/cost_analysis_service.py:268 | shares of n whose counts sum to n sum to 1 |
| CostAnalysis.LevelAboveSupport | stock-analysis-platform/backend/app/services/cost_analysis_service.py:266-276 | when the centres are the cluster means, a level's price is at least the lowest centre |
| CostAnalysis.LevelsFromAboveSupport | stock-analysis-platform/backend/app/services/cost_analysis_service.py:262-277 | every level built lies at or above the lowest centre |
| CostAnalysis.SupportIsLowest | stock-analysis-platform/backend/app/services/cost_analysis_service.py:262-279 | the "support" level has the lowest price level of all levels |
| CapitalFlow.InflowRatio | stock-analysis-platform/backend/app/services/analysis_service.py:62-63 | ratio·total_amount = net_inflow·100 for a positive amount, 0 otherwise; a positive ratio means a positive inflow |
| CapitalFlow.Codes | stock-analysis-platform/backend/app/services/analysis_service.py:51-60 | the block codes, each once: every row's code appears, and only codes of rows |
| CapitalFlow.ContinuityDays | stock-analysis-platform/backend/app/services/analysis_service.py:80-85 | the trailing run of strictly positive inflows: it is no longer than the series, and the day before it is not positive |
| CapitalFlow.ContinuityExample | stock-analysis-platform/backend/app/services/analysis_service.py:80-85 | [5, −1, 3, 4, 2] gives 3 |
| CapitalFlow.BlockOf | stock-analysis-platform/backend/app/services/analysis_service.py:76-95 | the block's flows are its rows, sorted by date; latest_flow is the last and latest of them; continuity is the trailing run; the average ratio is the arithmetic mean of the daily ratios, between the smallest and largest of them |
| CapitalFlow.LastIsLatest | stock-analysis-platform/backend/app/services/analysis_service.py:77-94 | in a date-sorted list the last flow has the latest date |
| CapitalFlow.CalculateBlockCapitalFlow | stock-analysis-platform/backend/app/services/analysis_service.py:97-100 | min(blocks, 20) results, sorted non-increasing by average ratio, each the summary of a block of the input, no two with the same block code |
| CapitalFlow.RankingDrawsFromBlocks | stock-analysis-platform/backend/app/services/analysis_service.py:97-100 | the ranking is a sub-multiset of the block summaries: none is reported twice |
| CapitalFlow.SortedBlocksAreBlocks | stock-analysis-platform/backend/app/services/analysis_service.py:98 | sorting keeps only block summaries of the input |
| CapitalFlow.NoBetterBlockLeftOut | stock-analysis-platform/backend/app/services/analysis_service.py:98-100 | a block is listed unless 20 blocks with at least its average ratio are |
| CapitalFlow.CountPositive | stock-analysis-platform/backend/app/services/analysis_service.py:166 | the number of positive days: all days iff all are positive, none iff none is |
| CapitalFlow.CountNegative | stock-analysis-platform/backend/app/services/analysis_service.py:167 | the number of negative days: all days iff all are negative, none iff none is |
| CapitalFlow.SignedDaysDisjoint | stock-analysis-platform/backend/app/services/analysis_service.py:166-167 | zero days count on neither side, so positive + negative days ≤ days |
| CapitalFlow.CalculateContinuity | stock-analysis-platform/backend/app/services/analysis_service.py:164-173 | the two counts, their sum within the length, and continuity_score = positive/len in [0, 1], 0 on empty input |
| CapitalFlow.Share | stock-analysis-platform/backend/app/services/analysis_service.py:172 | p/n lies in [0, 1] and times n gives back p |
| CapitalFlow.CalculateStability | stock-analysis-platform/backend/app/services/analysis_service.py:175-183 | 1.0 below 2 points or for mean 0; otherwise (1 − r)·abs(mean) = std, so r ≤ 1 |
| CapitalFlow.SteadyFlowIsStable | stock-analysis-platform/backend/app/services/analysis_service.py:175-183 | a constant flow has stability 1 |
| CapitalFlow.AnalyzeTrend | stock-analysis-platform/backend/app/services/analysis_service.py:185-203 | "stable" below 2 points; "improving" iff slope > 0.1; "deteriorating" iff slope < −0.1 |
| CapitalFlow.ConstantFlowIsSteady | stock-analysis-platform/backend/app/services/analysis_service.py:185-203 | a constant flow has slope 0 and is "stable" |
| CapitalFlow.AnalyzeStockCapitalFlow | stock-analysis-platform/backend/app/services/analysis_service.py:129-162 | no rows gives no result; otherwise the sum, the mean, a max and min attained by some row and bounding every row, the continuity, the stability, the trend of the last 5 flows, and the rows themselves as the daily details (every column, not only the five the source keeps) |
| Indicators.MovingAverage | stock-analysis-platform/backend/app/utils/indicators.py:10-23 | same length; all NaN when len < period; NaN before index period−1; otherwise the mean of the window |
| Indicators.MovingAverageInWindow | stock-analysis-platform/backend/app/utils/indicators.py:17-21 | a defined MA lies between the window's min and max |
| Indicators.MovingAverageOfConstant | stock-analysis-platform/backend/app/utils/indicators.py:17-21 | a constant series has that constant as its MA |
| Indicators.Alpha | stock-analysis-platform/backend/app/utils/indicators.py:31 | α = 2/(period+1) lies in (0, 1] |
| Indicators.EmaStep | stock-analysis-platform/backend/app/utils/indicators.py:34-36 | one EMA step is defined exactly when the price and the previous value are |
| Indicators.EmaPrefix | stock-analysis-platform/backend/app/utils/indicators.py:32-36 | the first value is prices[0]; each later value is one step from the one before |
| Indicators.Ema | stock-analysis-platform/backend/app/utils/indicators.py:26-38 | same length; all NaN when len < period; otherwise ema[0] = prices[0] and ema[i] = α·p[i] + (1 − α)·ema[i−1] |
| Indicators.EmaUndefinedSticks | stock-analysis-platform/backend/app/utils/indicators.py:34-36 | after a NaN price every later EMA is NaN |
| Indicators.EmaWithin | stock-analysis-platform/backend/app/utils/indicators.py:32-36 | the EMA of prices within [lo, hi] stays within [lo, hi] |
| Indicators.Gains | stock-analysis-platform/backend/app/utils/indicators.py:48 | summed gains are non-negative |
| Indicators.Losses | stock-analysis-platform/backend/app/utils/indicators.py:49 | summed losses are non-negative |
| Indicators.LossesOfRising | stock-analysis-platform/backend/app/utils/indicators.py:49 | non-negative differences carry no loss |
| Indicators.GainsOfFalling | stock-analysis-platform/backend/app/utils/indicators.py:48 | non-positive differences carry no gain |
| Indicators.Smooth | stock-analysis-platform/backend/app/utils/indicators.py:70-71 | Wilder smoothing keeps non-negative averages non-negative and zeros at zero |
| Indicators.Seed | stock-analysis-platform/backend/app/utils/indicators.py:46-47 | the first period+1 differences |
| Indicators.SeedAverages | stock-analysis-platform/backend/app/utils/indicators.py:47-50 | the seed averages are non-negative |
| Indicators.SeedAveragesOverPeriod | stock-analysis-platform/backend/app/utils/indicators.py:47-50 | the seed averages times period give the seed window's gains and losses: the sums are divided by period, not by the window's length |
| Indicators.SmoothAverages | stock-analysis-platform/backend/app/utils/indicators.py:62-71 | a smoothing step keeps both averages non-negative |
| Indicators.AveragesAt | stock-analysis-platform/backend/app/utils/indicators.py:60-71 | the averages at every index are non-negative |
| Indicators.RsiValue | stock-analysis-platform/backend/app/utils/indicators.py:52-55 | the value lies in [0, 100); it is 0, not 100, when the average loss is 0; it is 0 when the average gain is 0; it is positive when both are |
| Indicators.RsiAt | stock-analysis-platform/backend/app/utils/indicators.py:57-78 | every RSI value lies in [0, 100) |
| Indicators.Rsi | stock-analysis-platform/backend/app/utils/indicators.py:41-80 | same length; all NaN when len < period+1; otherwise every value is defined, lies in [0, 100), and the first period values equal the seed value |
| Indicators.NoLossesStayZero | stock-analysis-platform/backend/app/utils/indicators.py:57-78 | a non-falling series has average loss 0 at every index |
| Indicators.SeedOfRisingHasNoLoss | stock-analysis-platform/backend/app/utils/indicators.py:47-50 | the seed loss of a non-falling series is 0 |
| Indicators.NoGainsStayZero | stock-analysis-platform/backend/app/utils/indicators.py:57-78 | a non-rising series has average gain 0 at every index |
| Indicators.SeedOfFallingHasNoGain | stock-analysis-platform/backend/app/utils/indicators.py:47-50 | the seed gain of a non-rising series is 0 |
| Indicators.RsiOfNonFallingSeries | stock-analysis-platform/backend/app/utils/indicators.py:52-78 | a series that never falls has RSI 0 everywhere, because the zero loss sets rs to 0 |
| Indicators.RsiOfNonRisingSeries | stock-analysis-platform/backend/app/utils/indicators.py:52-78 | a series that never rises has RSI 0 everywhere |
| Indicators.OptSub | stock-analysis-platform/backend/app/utils/indicators.py:93-96 | a difference is defined where both operands are, and adding back the subtrahend gives the minuend |
| Indicators.MacdOf | stock-analysis-platform/backend/app/utils/indicators.py:83-107 | the line is EMA_fast − EMA_slow; the signal is the EMA of the line; the histogram is line − signal, pointwise |
| Indicators.EmaDefined | stock-analysis-platform/backend/app/utils/indicators.py:32-36 | the EMA of a fully defined series of sufficient length is defined everywhere |
| Indicators.MacdDefinedness | stock-analysis-platform/backend/app/utils/indicators.py:91-105 | the line is defined iff both EMAs have enough points; the histogram also needs the signal period |
| Indicators.Offset | stock-analysis-platform/backend/app/utils/indicators.py:126-127 | a band is defined where the middle and the std are |
| Indicators.BollingerBands | stock-analysis-platform/backend/app/utils/indicators.py:110-129 | middle is the MA; the bands are defined exactly where it is; where defined, upper = middle + num_std·σ and lower = middle − num_std·σ, σ the population standard deviation of the trailing window, so upper − middle = middle − lower |
| Indicators.BollingerOrdered | stock-analysis-platform/backend/app/utils/indicators.py:125-127 | with num_std ≥ 0, lower ≤ middle ≤ upper |
| Indicators.TrueRange | stock-analysis-platform/backend/app/utils/indicators.py:141-146 | TR ≥ high − low and ≥ 0, and it is one of the three candidate ranges |
| Indicators.TrueRanges | stock-analysis-platform/backend/app/utils/indicators.py:140-146 | one TR per bar after the first; lows and closes are needed only from two bars on |
| Indicators.AtrTail | stock-analysis-platform/backend/app/utils/indicators.py:148-154 | the first defined value is the mean of the first period true ranges; each later one is the previous value smoothed with the next true range, (atr·(period−1) + tr)/period |
| Indicators.Atr | stock-analysis-platform/backend/app/utils/indicators.py:132-156 | all NaN when len < period, whatever the other inputs, which are needed only from two bars on; the first period outputs are NaN; the length is len when len ≥ period+1, and period+1 otherwise; the rest is defined, starting with the mean of the first period true ranges |
| Indicators.AtrOfOneBar | stock-analysis-platform/backend/app/utils/indicators.py:137-150 | one bar with period 1 gives [NaN, NaN] whatever the lows and closes |
| Indicators.AtrRecurrence | stock-analysis-platform/backend/app/utils/indicators.py:152-154 | atr[i] = (atr[i−1]·(period−1) + tr)/period |
| Indicators.AtrAtNonneg | stock-analysis-platform/backend/app/utils/indicators.py:148-154 | non-negative true ranges give a non-negative ATR |
| Indicators.AtrValueAt | stock-analysis-platform/backend/app/utils/indicators.py:148-154 | a defined ATR entry is either the mean of the fewer-than-period true ranges, or the smoothed value after true range i−1 |
| Indicators.AtrNonneg | stock-analysis-platform/backend/app/utils/indicators.py:132-156 | every defined ATR is non-negative |
| Indicators.VolumeRatioAt | stock-analysis-platform/backend/app/utils/indicators.py:165-170 | a defined ratio times the volume MA gives the volume, and exists only from index period−1 |
| Indicators.Obv | stock-analysis-platform/backend/app/utils/indicators.py:173-176 | obv[0] = 0 and obv[i] = obv[i−1] + volumes[i]; an empty input gives [0] |
| Indicators.ObvNondecreasing | stock-analysis-platform/backend/app/utils/indicators.py:173-176 | with non-negative volumes OBV never decreases |
| Indicators.VolumeRatios | stock-analysis-platform/backend/app/utils/indicators.py:165-170 | undefined before index period−1; defined exactly where the MA is defined and non-zero; every defined ratio times the MA gives the volume |
| Indicators.VolumeIndicatorsOf | stock-analysis-platform/backend/app/utils/indicators.py:159-182 | vma and volume_ratio have one entry per volume; vma is the window mean from index period−1 on; a ratio is defined exactly where the MA is defined and non-zero, and times the MA gives the volume; OBV starts at 0 and adds each later volume |
| DataProcessor.Vwap | stock-analysis-platform/backend/app/utils/data_processor.py:28-39 | 0 for empty prices or volumes and for zero volume; otherwise VWAP·Σvolume = Σprice·volume |
| DataProcessor.DotBounds | stock-analysis-platform/backend/app/utils/data_processor.py:33-39 | with prices in [lo, hi] and non-negative volumes, lo·Σv ≤ Σp·v ≤ hi·Σv |
| DataProcessor.VwapWithin | stock-analysis-platform/backend/app/utils/data_processor.py:33-39 | prices within [lo, hi] give a VWAP within [lo, hi] |
| DataProcessor.VwapIsQuotient | stock-analysis-platform/backend/app/utils/data_processor.py:33-39 | VWAP is Σp·v / Σv when Σv ≠ 0 |
| DataProcessor.VwapBetween | stock-analysis-platform/backend/app/utils/data_processor.py:33-39 | with non-negative volumes and positive total, min(prices) ≤ VWAP ≤ max(prices) |
| DataProcessor.Median | stock-analysis-platform/backend/app/utils/data_processor.py:49 | the median lies between min and max |
| DataProcessor.PriceMetricsOf | stock-analysis-platform/backend/app/utils/data_processor.py:42-55 | empty input gives nothing; otherwise min ≤ median, mean ≤ max; range = max − min ≥ 0; every price within [min, max], and min and max are prices; mean, median and std are numpy's mean, median and population std; std ≥ 0 for a non-negative square root; cv = std/mean, or 0 for mean 0 |
| DataProcessor.ConstantPriceMetrics | stock-analysis-platform/backend/app/utils/data_processor.py:42-55 | a constant series of c has mean, median, min and max c, range 0 and std sqrt(0) |
| DataProcessor.CostPressure | stock-analysis-platform/backend/app/utils/data_processor.py:58-65 | 0 at price 0; otherwise pressure·price = (buy − sell)·100 |
| DataProcessor.CostPressureAntisymmetric | stock-analysis-platform/backend/app/utils/data_processor.py:58-65 | swapping buy and sell negates the pressure |
| DataProcessor.MinMaxScale | stock-analysis-platform/backend/app/utils/data_processor.py:80 | the scaled value is in [0, 1], maps back to x, and sends min to 0 and max to 1 |
| DataProcessor.ScaleAll | stock-analysis-platform/backend/app/utils/data_processor.py:80 | scaling every value pointwise keeps these facts |
| DataProcessor.MinMax | stock-analysis-platform/backend/app/utils/data_processor.py:75-80 | same length; all 0.5 for equal values; otherwise every value is in [0, 1], the minimum maps to 0 and the maximum to 1 |
| DataProcessor.ZScore | stock-analysis-platform/backend/app/utils/data_processor.py:82-87 | all zeros for std 0; otherwise mean + z·std gives back each value |
| DataProcessor.Normalize | stock-analysis-platform/backend/app/utils/data_processor.py:68-90 | same length; [] for empty input; an unknown method returns the input unchanged |
| DataProcessor.CoDevSymmetric | stock-analysis-platform/backend/app/utils/data_processor.py:98 | the co-deviation sum is symmetric |
| DataProcessor.Correlation | stock-analysis-platform/backend/app/utils/data_processor.py:93-102 | lies in [−1, 1]; 0 for different lengths or fewer than 2 points, and 0 (for the NaN) when a series is constant |
| DataProcessor.CorrelationSymmetric | stock-analysis-platform/backend/app/utils/data_processor.py:93-102 | corr(x, y) = corr(y, x) |
| DataProcessor.DetectAnomalies | stock-analysis-platform/backend/app/utils/data_processor.py:105-118 | same length; all false below 3 points or for std 0; otherwise flagged iff abs(z) > threshold |
| DataProcessor.ConstantHasNoAnomalies | stock-analysis-platform/backend/app/utils/data_processor.py:105-118 | a constant series has no anomalies |
| DataProcessor.Lerp | stock-analysis-platform/backend/app/utils/data_processor.py:135 | an interpolated value lies between its two ends |
| DataProcessor.Interpolate | stock-analysis-platform/backend/app/utils/data_processor.py:132-135 | an interior gap is filled with a value between its neighbours |
| DataProcessor.FillMissingAsWritten | stock-analysis-platform/backend/app/utils/data_processor.py:121-147 | [] on empty input; unchanged when nothing is missing; linear and mean keep present values; linear interpolates and mean writes the mean into every gap; forward/backward with a gap fail |
| DataProcessor.FillForward | stock-analysis-platform/backend/app/utils/data_processor.py:136-138 | same length, present values kept, each gap takes the value before it |
| DataProcessor.FillBackward | stock-analysis-platform/backend/app/utils/data_processor.py:139-141 | same length, present values kept, each gap takes the value after it |
| DataProcessor.ForwardFillTakesPrevious | stock-analysis-platform/backend/app/utils/data_processor.py:136-138 | a gap gets the nearest present value to its left, or stays missing |
| DataProcessor.BackwardFillTakesNext | stock-analysis-platform/backend/app/utils/data_processor.py:139-141 | a gap gets the nearest present value to its right, or stays missing |
| DataProcessor.FillMissing | stock-analysis-platform/backend/app/utils/data_processor.py:121-147 | fails exactly for linear with no present value and a gap; keeps present values; forward and backward fill as intended |
| DataProcessor.ForwardFillFinding | stock-analysis-platform/backend/app/utils/data_processor.py:136-138 | [1, None] forward fails as written and gives [1, 1] as intended |
| DataProcessor.MeanFillCompletes | stock-analysis-platform/backend/app/utils/data_processor.py:142-145 | with a present value, mean filling leaves no gap |
| Alerts.OutflowAlert | stock-analysis-platform/backend/app/services/alert_service.py:53-59 | one outflow warning iff net_inflow < −10,000,000, reporting abs(net_inflow)/10,000 |
| Alerts.CheckCapitalAlerts | stock-analysis-platform/backend/app/services/alert_service.py:49-77 | no row, no alerts; at most 3, in the order outflow, divergence, acceleration; each fires iff its rule holds |
| Alerts.OutflowExcludesDivergence | stock-analysis-platform/backend/app/services/alert_service.py:53-68 | outflow and divergence never fire together |
| Alerts.NoPreviousNoAcceleration | stock-analysis-platform/backend/app/services/alert_service.py:71 | a NULL or zero previous inflow never triggers acceleration |
| Alerts.AlertExamples | stock-analysis-platform/backend/app/services/alert_service.py:53-77 | a 20-million outflow gives exactly one outflow alert of 2000 (ten-thousands); an inflow of 300 against a large-order outflow and a previous 100 gives divergence then acceleration |
| Strategy.TopScoring | stock-analysis-platform/backend/app/api/v1/strategy.py:37-48 | every result reaches min_score; sorted non-increasing by total; at most max_count; drawn from the reports without repeats (a sub-multiset) |
| Strategy.NoBetterReportLeftOut | stock-analysis-platform/backend/app/api/v1/strategy.py:41-48 | a qualifying report is listed unless max_count reports scoring at least as much are |
| Strategy.FlowTrendOf | stock-analysis-platform/backend/app/api/v1/strategy.py:139 | "improving" iff the previous ratio is truthy and exceeded |
| Strategy.FlowPickOf | stock-analysis-platform/backend/app/api/v1/strategy.py:130-140 | the pick's fields are the row's, with falsy values as 0 |
| Strategy.VolumeRatioValue | stock-analysis-platform/backend/app/api/v1/strategy.py:207-208 | 0 when vma is missing or ≤ 0; otherwise ratio·vma = volume |
| Strategy.BreakRatio | stock-analysis-platform/backend/app/api/v1/strategy.py:209-212 | 0 when ma is missing or ≤ 0; otherwise ratio·ma = (close − ma)·100, positive iff close > ma |
| Strategy.SignalStrength | stock-analysis-platform/backend/app/api/v1/strategy.py:221 | min(10, int(abs(break)·2 + volume)): never above 10, the integer part below 10 |
| Strategy.BreakoutPickOf | stock-analysis-platform/backend/app/api/v1/strategy.py:207-222 | the pick's fields as defined, strength at most 10 |
| Strategy.BreakoutOfSelectedRow | stock-analysis-platform/backend/app/api/v1/strategy.py:192-221 | a row the query selects has a positive break ratio and strength in [0, 10] |
| Strategy.MaTrendOf | stock-analysis-platform/backend/app/api/v1/strategy.py:295 | "up" iff ma5 and ma20 are truthy and ma5 > ma20 |
| Strategy.ScreenerInflowBonus | stock-analysis-platform/backend/app/api/v1/strategy.py:337-338 | min(ratio·10, 20) for a truthy ratio, 0 otherwise |
| Strategy.ScreenerAmountBonus | stock-analysis-platform/backend/app/api/v1/strategy.py:341-342 | the amount adjustment of the capital score for a truthy amount, 0 otherwise |
| Strategy.TurnoverBonus | stock-analysis-platform/backend/app/api/v1/strategy.py:345-346 | +5 exactly when 2 ≤ turnover ≤ 10 |
| Strategy.TrendBonus | stock-analysis-platform/backend/app/api/v1/strategy.py:349-351 | +10 exactly when the MA trend is up |
| Strategy.ScreenerRaw | stock-analysis-platform/backend/app/api/v1/strategy.py:334-351 | the unclamped score never exceeds 50 + 20 + 10 + 5 + 10 = 95 |
| Strategy.ScreenerScore | stock-analysis-platform/backend/app/api/v1/strategy.py:332-353 | the clamp of the raw score into [0, 100], hence into [0, 95] |
| Strategy.EmptyRowScoresFifty | stock-analysis-platform/backend/app/api/v1/strategy.py:334-353 | a row of NULLs scores the base 50 |
| Strategy.UpTrendAddsTen | stock-analysis-platform/backend/app/api/v1/strategy.py:349-353 | an up trend adds exactly 10 |
| Strategy.ScreenerStockOf | stock-analysis-platform/backend/app/api/v1/strategy.py:295-308 | the row's fields with falsy values as 0, its MA trend and its score |
| Strategy.ScreenerAsWritten | stock-analysis-platform/backend/app/api/v1/strategy.py:294-308 | succeeds, with an empty list, only when no row is selected |
| Strategy.ScreenerAsWrittenFailsOnAnyRow | stock-analysis-platform/backend/app/api/v1/strategy.py:307 | one selected row already fails on the undefined `self` |
| Strategy.Screener | stock-analysis-platform/backend/app/api/v1/strategy.py:293-311 | a permutation of the scored rows, sorted non-increasing by score, every score in [0, 95] |
| Strategy.ScreenerKeepsEveryRow | stock-analysis-platform/backend/app/api/v1/strategy.py:293-311 | every selected row is in the result |
| Regression.RSquared | stock-analysis-platform/backend/app/services/cost_analysis_service.py:200-212 | ssreg/sstot is non-negative, and 0 when sstot = 0 |
| Regression.ConstantSeriesFlat | stock-analysis-platform/backend/app/services/cost_analysis_service.py:183-212 | a constant series has slope 0 and R² 0 |

## Left out

- The SQL queries and `db.execute`: every fetched row is an argument, and "no row" is `None`.
- The HTTP handlers, their response wrapping and `HTTPException`: the strategy functions return the computed list only.
- Scheduling, sessions, security and the SQLAlchemy models, except the rising/falling/stable enum.
- JSON decoding of the price distribution: the parsed sequences are inputs.
- k-means clustering: `FindCostLevels` takes the labels and the cluster centres as inputs and models only what is done with them. The `SupportIsLowest` lemma requires that the centres are the cluster means.
- `np.polyfit`: replaced by the closed-form least-squares slope.
- `sqrt` and `log10`: function parameters. The bounds that need `sqrt ≥ 0` require it.
- Float rounding, `round(..., 2)` and IEEE overflow/NaN propagation: numbers are exact reals.
- The helpers that are called but not part of this model:
  - `_get_signal_description`, `_generate_recommendation` and `_get_key_considerations`;
  - `_calculate_trend_strength`, `_determine_trend_direction`, `_detect_reversal_signals` and `_find_support_levels`;
  - `_check_technical_alerts` and `_check_risk_alerts`.
- CostAnalysis.AnalyzeCostTrend: `_analyze_cost_trend` calls four helpers that its class does not define, so it raises for 5 days or more. The model stops at the guard and returns the two series those helpers would receive.
- `print`, and the `except: continue` batch loops: the top-scoring list takes the reports of the stocks whose scoring succeeded.
- CostAnalysis.MultiDayCost: assumes every day's analysis succeeded. A failed day, an empty dict in the source, would raise `KeyError` there.
- NULL in a column that the source compares without a truthiness guard: the model makes it a plain `real`, where the source would raise `TypeError`.
- Different lengths in the `zip` and numpy broadcasting:
  - `Vwap` requires equal lengths when both inputs are non-empty.
  - `Bins` stops at the shortest input.
  - The bin-total lemmas require equal lengths.
  - `Atr` requires `lows` and `closes` to cover `highs` once `highs` holds at least `period` bars and at least two bars; shorter `lows` or `closes` then raise `IndexError` in the source.
- Indicators.VolumeRatioAt: is undefined when the volume MA is 0, where numpy gives inf or NaN.
- Indicators.Rsi, Indicators.Atr: require `period ≥ 1`, since the source divides by the period.
- Indicators.Ema: requires a non-empty series or a positive period, since the source reads `prices[0]`.
- DataProcessor.Correlation: reads the NaN of a constant series as the 0 the source returns, and does not relate the value to `np.corrcoef` beyond the bounds, the guards and symmetry.
- CapitalFlow.Codes: does not state the first-appearance order of the block codes, only that each block appears once.
- CostAnalysis.LevelOf: does not state that the volume weights sum to 1.
- The date window of the per-stock analysis belongs to the query: the rows are given.
- Missing imports of annotation names: the model assumes the imports exist. `alert_service.py` imports nothing, yet its signatures name `Session` (line 5) and `List` and `Dict` (line 8). `indicators.py` imports only `List`, `Tuple` and `Optional` (line 3), yet its signature at line 160 names `Dict`. Without `from __future__ import annotations`, Python before 3.14 evaluates these annotations when the `def` runs, so importing either module raises `NameError`. Because `services/__init__.py` and `utils/__init__.py` (line 2) import them, every import of `app.services` or `app.utils` would then fail, including the one in `strategy.py` (line 8). This depends on the interpreter version and was not executed.
- CapitalFlow.AnalyzeStockCapitalFlow: the daily details are the rows with every column, where the source keeps five of them (date, net_inflow, inflow_ratio, large_net_inflow, total_amount, lines 150-159); the five kept values are those of the rows.

## Findings

| source | as written | input that shows it | evidently intended | confidence | as-written member | corrected member |
|---|---|---|---|---|---|---|
| stock-analysis-platform/backend/app/api/v1/strategy.py:307 | the module-level screener handler scores each row with `self._calculate_screener_score(row)`, but it has no `self`, and the scoring `def` is nested after the function's `return` | any trade date for which the query selects one row: `NameError`, reported as HTTP 500. Even with the call fixed, strategy.py never imports numpy (its imports are lines 2-8), so the scoring raises `NameError` on `np.log10` at line 342 for any row with a truthy amount | each row is scored by the screener formula and the list sorted by score, best first; Strategy.Screener takes `log10` as a parameter, standing for the missing numpy import | not executed | Strategy.ScreenerAsWritten, Strategy.ScreenerAsWrittenFailsOnAnyRow | Strategy.Screener, Strategy.ScreenerKeepsEveryRow |
| stock-analysis-platform/backend/app/utils/data_processor.py:136-141 | the forward and backward methods call `pd.Series`, but `pandas` is never imported (lines 1-5) | `fill_missing_values([1.0, None], "forward")`: `NameError` | forward fill copies the previous present value into a gap, backward fill the next one | not executed | DataProcessor.FillMissingAsWritten, DataProcessor.ForwardFillFinding | DataProcessor.FillMissing, DataProcessor.ForwardFillTakesPrevious, DataProcessor.BackwardFillTakesNext |

=== FILE: alerts.dfy ===
/** The capital-flow alert rules: a large outflow, a divergence between
    the total and the large-order flow, and an acceleration against the
    previous day, checked in that order on the fetched row of the day. */
module Alerts {
  import opened Wrappers
  import opened Numeric

  /** The fetched row. `prevInflow` comes from a sub-query and may be NULL;
      the other fields are compared without a guard. */
  datatype AlertRow = AlertRow(netInflow: real, largeNetInflow: real, inflowRatio: Option<real>, prevInflow: Option<real>)

  datatype AlertLevel = Warning | Info

  /** An alert; the outflow alert carries the amount its message reports,
      in units of ten thousand. */
  datatype Alert = CapitalOutflow(amountWan: real) | CapitalDivergence | CapitalAcceleration

  function LevelOf(a: Alert): AlertLevel {
    if a.CapitalAcceleration? then Info else Warning
  }

  /** The position of each rule in the checking order. */
  function Order(a: Alert): nat {
    match a
    case CapitalOutflow(_) => 0
    case CapitalDivergence => 1
    case CapitalAcceleration => 2
  }

  /** A net outflow of more than ten million. */
  const OutflowLimit: real := -10000000.0

  predicate OutflowFires(row: AlertRow) {
    row.netInflow < OutflowLimit
  }

  predicate DivergenceFires(row: AlertRow) {
    row.netInflow > 0.0 && row.largeNetInflow < 0.0
  }

  /** Needs a truthy previous inflow that today's inflow more than doubles. */
  predicate AccelerationFires(row: AlertRow) {
    Truthy(row.prevInflow) && row.netInflow > row.prevInflow.value * 2.0
  }

  predicate HasOutflow(alerts: seq<Alert>) {
    exists i :: 0 <= i < |alerts| && alerts[i].CapitalOutflow?
  }

  function OutflowAlert(row: AlertRow): (r: seq<Alert>)
    ensures |r| <= 1
    ensures forall a :: a in r ==> a.CapitalOutflow? && a.amountWan * 10000.0 == Abs(row.netInflow)
    ensures |r| == 1 <==> OutflowFires(row)
  {
    if OutflowFires(row) then [CapitalOutflow(Abs(row.netInflow / 10000.0))] else []
  }

  /** The capital alerts of one stock and day; no row, no alerts. */
  function CheckCapitalAlerts(row: Option<AlertRow>): (r: seq<Alert>)
    ensures row.None? ==> r == []
    ensures |r| <= 3
    ensures forall i, j :: 0 <= i < j < |r| ==> Order(r[i]) < Order(r[j])
    ensures HasOutflow(r) <==> row.Some? && OutflowFires(row.value)
    ensures CapitalDivergence in r <==> row.Some? && DivergenceFires(row.value)
    ensures CapitalAcceleration in r <==> row.Some? && AccelerationFires(row.value)
    ensures forall a :: a in r && a.CapitalOutflow? ==> a.amountWan * 10000.0 == -row.value.netInflow
  {
    if row.None? then []
    else
      var x := row.value;
      var o := OutflowAlert(x);
      assert HasOutflow(o) <==> OutflowFires(x) by {
        if OutflowFires(x) { assert o[0].CapitalOutflow?; }
      }
      var t := (if DivergenceFires(x) then [CapitalDivergence] else [])
        + (if AccelerationFires(x) then [CapitalAcceleration] else []);
      assert HasOutflow(o + t) <==> HasOutflow(o) by {
        if HasOutflow(o + t) {
          var i :| 0 <= i < |o + t| && (o + t)[i].CapitalOutflow?;
          if |o| <= i { assert (o + t)[i] == t[i - |o|]; }
        }
        if HasOutflow(o) {
          var i :| 0 <= i < |o| && o[i].CapitalOutflow?;
          assert (o + t)[i] == o[i];
        }
      }
      o + t
  }

  /** An outflow day has a negative net inflow, so the two warnings never
      fire together. */
  lemma OutflowExcludesDivergence(row: AlertRow)
    ensures var r := CheckCapitalAlerts(Some(row));
      !(HasOutflow(r) && CapitalDivergence in r)
  {
  }

  /** The acceleration rule looks at the previous day only when it is
      known and non-zero. */
  lemma NoPreviousNoAcceleration(net: real, large: real, ratio: Option<real>)
    ensures CapitalAcceleration !in CheckCapitalAlerts(Some(AlertRow(net, large, ratio, None)))
    ensures CapitalAcceleration !in CheckCapitalAlerts(Some(AlertRow(net, large, ratio, Some(0.0))))
  {
  }

  lemma AlertExamples()
    ensures CheckCapitalAlerts(Some(AlertRow(-20000000.0, -5.0, None, Some(-1.0))))
      == [CapitalOutflow(2000.0)]
    ensures CheckCapitalAlerts(Some(AlertRow(300.0, -5.0, None, Some(100.0))))
      == [CapitalDivergence, CapitalAcceleration]
  {
  }
}

=== FILE: capital_flow_analysis.dfy ===
/** The capital-flow analyzer: per-block daily flows grouped, ordered by
    date and ranked by their average inflow ratio; and the per-stock flow
    summary with its continuity, stability and recent trend. The SQL that
    produces the rows is outside the model; its result rows are inputs. */
module CapitalFlow {
  import opened Wrappers
  import opened Numeric
  import opened Sorting
  import opened Regression

  // ---------------------------------------------------------- block flows

  /** One row of the block aggregation: a block on a trade day. Dates are
      day numbers, ordered as the `YYYY-MM-DD` strings are. */
  datatype BlockRow = BlockRow(
    blockCode: string,
    blockName: string,
    blockType: string,
    date: int,
    netInflow: real,
    totalAmount: real,
    stockCount: nat,
    inflowStocks: nat)

  datatype DailyFlow = DailyFlow(date: int, netInflow: real, inflowRatio: real, totalAmount: real,
                                 stockCount: nat, inflowStocks: nat)

  /** Net inflow as a percentage of the traded amount, 0 unless the amount
      is positive. */
  function InflowRatio(netInflow: real, totalAmount: real): (r: real)
    ensures totalAmount <= 0.0 ==> r == 0.0
    ensures 0.0 < totalAmount ==> r * totalAmount == netInflow * 100.0
    ensures 0.0 < totalAmount ==> (0.0 < r <==> 0.0 < netInflow)
  {
    if totalAmount > 0.0 then netInflow / totalAmount * 100.0 else 0.0
  }

  function FlowOf(row: BlockRow): DailyFlow {
    DailyFlow(row.date, row.netInflow, InflowRatio(row.netInflow, row.totalAmount), row.totalAmount,
              row.stockCount, row.inflowStocks)
  }

  ghost predicate Appears(rows: seq<BlockRow>, code: string) {
    exists i :: 0 <= i < |rows| && rows[i].blockCode == code
  }

  /** The block codes in order of first appearance, each once. */
  function Codes(rows: seq<BlockRow>): (c: seq<string>)
    ensures forall i, j :: 0 <= i < j < |c| ==> c[i] != c[j]
    ensures forall i :: 0 <= i < |rows| ==> rows[i].blockCode in c
    ensures forall x :: x in c ==> Appears(rows, x)
  {
    if |rows| == 0 then []
    else
      var init := rows[..|rows| - 1];
      var c := Codes(init);
      var last := rows[|rows| - 1].blockCode;
      assert forall x :: x in c ==> Appears(rows, x) by {
        forall x | x in c ensures Appears(rows, x) {
          var i :| 0 <= i < |init| && init[i].blockCode == x;
          assert rows[i].blockCode == x;
        }
      }
      assert forall i :: 0 <= i < |init| ==> rows[i].blockCode in c by {
        forall i | 0 <= i < |init| ensures rows[i].blockCode in c {
          assert rows[i] == init[i];
        }
      }
      if last in c then c else c + [last]
  }

  /** Number of rows of block `code`. */
  function CountCode(rows: seq<BlockRow>, code: string): nat {
    if |rows| == 0 then 0 else (if rows[0].blockCode == code then 1 else 0) + CountCode(rows[1..], code)
  }

  lemma {:induction false} AppearsCounted(rows: seq<BlockRow>, code: string)
    requires Appears(rows, code)
    ensures 0 < CountCode(rows, code)
  {
    if rows[0].blockCode != code {
      var i :| 0 <= i < |rows| && rows[i].blockCode == code;
      assert rows[1..][i - 1].blockCode == code;
      AppearsCounted(rows[1..], code);
    }
  }

  /** The rows of block `code`, in row order. */
  function RowsOf(rows: seq<BlockRow>, code: string): (r: seq<BlockRow>)
    ensures |r| == CountCode(rows, code)
    ensures forall row :: row in r ==> row in rows && row.blockCode == code
  {
    if |rows| == 0 then []
    else (if rows[0].blockCode == code then [rows[0]] else []) + RowsOf(rows[1..], code)
  }

  /** The daily flows of block `code`, in row order. */
  function FlowsOf(rows: seq<BlockRow>, code: string): (r: seq<DailyFlow>)
    ensures |r| == CountCode(rows, code)
  {
    var rs := RowsOf(rows, code);
    seq(|rs|, i requires 0 <= i < |rs| => FlowOf(rs[i]))
  }

  /** Position of the first row of block `code`: its name and type are
      taken from there. */
  function FirstIndex(rows: seq<BlockRow>, code: string): (i: nat)
    requires Appears(rows, code)
    ensures i < |rows| && rows[i].blockCode == code
    ensures forall j :: 0 <= j < i ==> rows[j].blockCode != code
  {
    if rows[0].blockCode == code then 0
    else
      assert Appears(rows[1..], code) by {
        var i :| 0 <= i < |rows| && rows[i].blockCode == code;
        assert rows[1..][i - 1].blockCode == code;
      }
      1 + FirstIndex(rows[1..], code)
  }

  function DateKey(f: DailyFlow): real {
    f.date as real
  }

  function NetInflows(flows: seq<DailyFlow>): (r: seq<real>)
    ensures |r| == |flows| && forall i :: 0 <= i < |flows| ==> r[i] == flows[i].netInflow
  {
    seq(|flows|, i requires 0 <= i < |flows| => flows[i].netInflow)
  }

  function InflowRatios(flows: seq<DailyFlow>): (r: seq<real>)
    ensures |r| == |flows| && forall i :: 0 <= i < |flows| ==> r[i] == flows[i].inflowRatio
  {
    seq(|flows|, i requires 0 <= i < |flows| => flows[i].inflowRatio)
  }

  /** The number of consecutive days of net inflow at the end of the series. */
  function ContinuityDays(s: seq<real>): (n: nat)
    ensures n <= |s|
    ensures forall i :: |s| - n <= i < |s| ==> 0.0 < s[i]
    ensures n < |s| ==> s[|s| - 1 - n] <= 0.0
  {
    if |s| == 0 || s[|s| - 1] <= 0.0 then 0
    else 1 + ContinuityDays(s[..|s| - 1])
  }

  lemma ContinuityExample()
    ensures ContinuityDays([5.0, -1.0, 3.0, 4.0, 2.0]) == 3
  {
    var s := [5.0, -1.0, 3.0, 4.0, 2.0];
    assert s[..4] == [5.0, -1.0, 3.0, 4.0];
    assert s[..4][..3] == [5.0, -1.0, 3.0];
    assert s[..4][..3][..2] == [5.0, -1.0];
    assert ContinuityDays([5.0, -1.0]) == 0;
    assert ContinuityDays([5.0, -1.0, 3.0]) == 1;
    assert ContinuityDays([5.0, -1.0, 3.0, 4.0]) == 2;
  }

  datatype BlockFlow = BlockFlow(
    blockCode: string,
    blockName: string,
    blockType: string,
    dailyFlows: seq<DailyFlow>,
    continuityDays: nat,
    avgInflowRatio: real,
    latestFlow: DailyFlow)

  /** The summary of one block: its flows ordered by date, the trailing
      inflow run, the mean inflow ratio and the latest day. */
  function BlockOf(rows: seq<BlockRow>, code: string): (b: BlockFlow)
    requires Appears(rows, code)
    ensures b.blockCode == code
    ensures b.blockName == rows[FirstIndex(rows, code)].blockName
    ensures b.blockType == rows[FirstIndex(rows, code)].blockType
    ensures multiset(b.dailyFlows) == multiset(FlowsOf(rows, code))
    ensures SortedBy(b.dailyFlows, DateKey)
    ensures 0 < |b.dailyFlows| && b.latestFlow == b.dailyFlows[|b.dailyFlows| - 1]
    ensures forall k :: 0 <= k < |b.dailyFlows| ==> b.dailyFlows[k].date <= b.latestFlow.date
    ensures b.continuityDays == ContinuityDays(NetInflows(b.dailyFlows))
    ensures b.avgInflowRatio == Mean(InflowRatios(b.dailyFlows))
    ensures MinOf(InflowRatios(b.dailyFlows)) <= b.avgInflowRatio <= MaxOf(InflowRatios(b.dailyFlows))
  {
    AppearsCounted(rows, code);
    var flows := SortBy(FlowsOf(rows, code), DateKey);
    var ratios := InflowRatios(flows);
    MeanBetween(ratios);
    LastIsLatest(flows);
    var first := rows[FirstIndex(rows, code)];
    BlockFlow(code, first.blockName, first.blockType, flows, ContinuityDays(NetInflows(flows)),
              Mean(ratios), flows[|flows| - 1])
  }

  lemma LastIsLatest(flows: seq<DailyFlow>)
    requires 0 < |flows| && SortedBy(flows, DateKey)
    ensures forall k :: 0 <= k < |flows| ==> flows[k].date <= flows[|flows| - 1].date
  {
    forall k | 0 <= k < |flows|
      ensures flows[k].date <= flows[|flows| - 1].date
    {
      if k < |flows| - 1 {
        assert DateKey(flows[k]) <= DateKey(flows[|flows| - 1]);
      }
    }
  }

  /** The key of the descending sort on the average inflow ratio. */
  function NegAvg(b: BlockFlow): real {
    -b.avgInflowRatio
  }

  function Blocks(rows: seq<BlockRow>): (r: seq<BlockFlow>)
    ensures |r| == |Codes(rows)|
    ensures forall i :: 0 <= i < |r| ==> r[i] == BlockOf(rows, Codes(rows)[i])
  {
    var c := Codes(rows);
    seq(|c|, i requires 0 <= i < |c| => BlockOf(rows, c[i]))
  }

  /** The limit on the number of blocks reported. */
  const TopBlocks: nat := 20

  /** The block ranking: blocks in descending order of average inflow
      ratio (ties in first-appearance order), at most twenty. */
  function CalculateBlockCapitalFlow(rows: seq<BlockRow>): (r: seq<BlockFlow>)
    ensures |r| == if |Codes(rows)| < TopBlocks then |Codes(rows)| else TopBlocks
    ensures forall i, j :: 0 <= i < j < |r| ==> r[j].avgInflowRatio <= r[i].avgInflowRatio
    ensures forall b :: b in r ==> Appears(rows, b.blockCode) && b == BlockOf(rows, b.blockCode)
    ensures forall i, j :: 0 <= i < j < |r| ==> r[i].blockCode != r[j].blockCode
  {
    var all := Blocks(rows);
    var sorted := SortBy(all, NegAvg);
    SortedBlocksAreBlocks(rows);
    PrefixSorted(sorted, NegAvg, TopBlocks);
    var r := PySliceTo(sorted, TopBlocks);
    DrawnCodesDistinct(rows, r);
    r
  }

  /** Block summaries drawn from `Blocks` without repeats have distinct codes. */
  lemma DrawnCodesDistinct(rows: seq<BlockRow>, r: seq<BlockFlow>)
    requires multiset(r) <= multiset(Blocks(rows))
    requires forall b :: b in r ==> Appears(rows, b.blockCode) && b == BlockOf(rows, b.blockCode)
    ensures forall i, j :: 0 <= i < j < |r| ==> r[i].blockCode != r[j].blockCode
  {
    BlocksDistinct(rows);
    SubBagOfDistinct(r, Blocks(rows));
    forall i, j | 0 <= i < j < |r|
      ensures r[i].blockCode != r[j].blockCode
    {
      assert r[i] in r && r[j] in r;
    }
  }

  /** The ranking is drawn from the block summaries, none twice: it follows
      from the contracts of `SortBy` and `PySliceTo`. */
  lemma RankingDrawsFromBlocks(rows: seq<BlockRow>)
    ensures multiset(CalculateBlockCapitalFlow(rows)) <= multiset(Blocks(rows))
  {
  }

  /** Different positions of `Blocks` hold different summaries: their
      codes differ. */
  lemma BlocksDistinct(rows: seq<BlockRow>)
    ensures forall i, j :: 0 <= i < j < |Blocks(rows)| ==> Blocks(rows)[i] != Blocks(rows)[j]
  {
  }

  lemma SortedBlocksAreBlocks(rows: seq<BlockRow>)
    ensures forall b :: b in SortBy(Blocks(rows), NegAvg) ==> Appears(rows, b.blockCode) && b == BlockOf(rows, b.blockCode)
  {
    var all := Blocks(rows);
    forall b | b in SortBy(all, NegAvg)
      ensures Appears(rows, b.blockCode) && b == BlockOf(rows, b.blockCode)
    {
      SortByMembers(all, NegAvg, b);
    }
  }

  /** Every block is reported, unless twenty blocks with at least its
      average are reported instead. */
  lemma NoBetterBlockLeftOut(rows: seq<BlockRow>, code: string)
    requires Appears(rows, code)
    ensures var r := CalculateBlockCapitalFlow(rows);
      BlockOf(rows, code) in r ||
      (|r| == TopBlocks && forall b :: b in r ==> BlockOf(rows, code).avgInflowRatio <= b.avgInflowRatio)
  {
    var all := Blocks(rows);
    var sorted := SortBy(all, NegAvg);
    var r := CalculateBlockCapitalFlow(rows);
    assert r == PySliceTo(sorted, TopBlocks);
    var x := BlockOf(rows, code);
    var c :| 0 <= c < |Codes(rows)| && Codes(rows)[c] == code;
    assert all[c] == x;
    SortByMembers(all, NegAvg, x);
    var k :| 0 <= k < |sorted| && sorted[k] == x;
    if k < |r| {
      assert r[k] == x;
    } else {
      PrefixDominates(sorted, NegAvg, TopBlocks, k);
    }
  }

  // ---------------------------------------------------------- stock flows

  /** One trade day of a stock. */
  datatype StockRow = StockRow(
    tradeDate: int,
    totalBuyAmount: real,
    totalSellAmount: real,
    netInflow: real,
    inflowRatio: real,
    largeNetInflow: real,
    largeInflowRatio: real,
    totalAmount: real)

  function CountPositive(s: seq<real>): (n: nat)
    ensures n <= |s|
    ensures n == |s| <==> forall i :: 0 <= i < |s| ==> 0.0 < s[i]
    ensures n == 0 <==> forall i :: 0 <= i < |s| ==> s[i] <= 0.0
  {
    if |s| == 0 then 0 else (if s[0] > 0.0 then 1 else 0) + CountPositive(s[1..])
  }

  function CountNegative(s: seq<real>): (n: nat)
    ensures n <= |s|
    ensures n == |s| <==> forall i :: 0 <= i < |s| ==> s[i] < 0.0
    ensures n == 0 <==> forall i :: 0 <= i < |s| ==> 0.0 <= s[i]
  {
    if |s| == 0 then 0 else (if s[0] < 0.0 then 1 else 0) + CountNegative(s[1..])
  }

  /** A day cannot be both an inflow and an outflow day. */
  lemma {:induction false} SignedDaysDisjoint(s: seq<real>)
    ensures CountPositive(s) + CountNegative(s) <= |s|
  {
    if |s| > 0 {
      SignedDaysDisjoint(s[1..]);
    }
  }

  datatype Continuity = Continuity(positiveDays: nat, negativeDays: nat, continuityScore: real)

  function CalculateContinuity(flows: seq<real>): (c: Continuity)
    ensures c.positiveDays == CountPositive(flows) && c.negativeDays == CountNegative(flows)
    ensures c.positiveDays + c.negativeDays <= |flows|
    ensures 0.0 <= c.continuityScore <= 1.0
    ensures |flows| == 0 ==> c.continuityScore == 0.0
    ensures 0 < |flows| ==> c.continuityScore == Share(c.positiveDays, |flows|)
  {
    SignedDaysDisjoint(flows);
    var p := CountPositive(flows);
    Continuity(p, CountNegative(flows), if |flows| == 0 then 0.0 else Share(p, |flows|))
  }

  /** `p / n` for a part `p` of a positive whole `n`. */
  function Share(p: nat, n: nat): (r: real)
    requires p <= n && 0 < n
    ensures 0.0 <= r <= 1.0 && r * n as real == p as real
  {
    QuotientBetween(p as real, n as real, 0.0, 1.0);
    p as real / n as real
  }

  /** One minus the coefficient of variation; 1 for fewer than two days or
      a zero mean. */
  function CalculateStability(flows: seq<real>, sqrt: real -> real): (r: real)
    ensures |flows| < 2 ==> r == 1.0
    ensures 2 <= |flows| && Mean(flows) == 0.0 ==> r == 1.0
    ensures 2 <= |flows| && Mean(flows) != 0.0 ==> (1.0 - r) * Abs(Mean(flows)) == Std(flows, sqrt)
    ensures IsSqrt(sqrt) ==> r <= 1.0
  {
    if |flows| < 2 then 1.0
    else
      var m := Mean(flows);
      if m != 0.0 then
        assert IsSqrt(sqrt) ==> 0.0 <= Std(flows, sqrt) / Abs(m) by {
          if IsSqrt(sqrt) {
            StdNonneg(flows, sqrt);
            QuotientNonneg(Std(flows, sqrt), Abs(m));
          }
        }
        1.0 - Std(flows, sqrt) / Abs(m)
      else 1.0
  }

  /** A stock with the same flow every day is perfectly stable. */
  lemma SteadyFlowIsStable(c: real, n: nat, sqrt: real -> real)
    requires sqrt(0.0) == 0.0
    ensures CalculateStability(Const(c, n), sqrt) == 1.0
  {
    if 2 <= n {
      MeanConst(c, n);
      SqDevZero(Const(c, n), c);
    }
  }

  datatype FlowTrend = Improving | Deteriorating | Steady

  /** The direction of a least-squares fit, with a dead band of 0.1. */
  function AnalyzeTrend(recent: seq<real>): (t: FlowTrend)
    ensures |recent| < 2 ==> t == Steady
    ensures 2 <= |recent| ==> (t == Improving <==> Slope(recent) > 0.1)
    ensures 2 <= |recent| ==> (t == Deteriorating <==> Slope(recent) < -0.1)
  {
    if |recent| < 2 then Steady
    else if Slope(recent) > 0.1 then Improving
    else if Slope(recent) < -0.1 then Deteriorating
    else Steady
  }

  lemma ConstantFlowIsSteady(c: real, n: nat)
    ensures AnalyzeTrend(Const(c, n)) == Steady
  {
    if 2 <= n {
      ConstantSeriesFlat(c, n);
    }
  }

  datatype StockAnalysis = StockAnalysis(
    stockCode: string,
    startDate: int,
    endDate: int,
    totalNetInflow: real,
    avgDailyInflow: real,
    maxInflow: real,
    minInflow: real,
    inflowContinuity: Continuity,
    inflowStability: real,
    recentTrend: FlowTrend,
    dailyDetails: seq<StockRow>)

  /** The net inflow column of the per-stock rows: the same projection as
      `NetInflows`, over `StockRow` instead of the block's `DailyFlow`. */
  function StockNetInflows(rows: seq<StockRow>): (r: seq<real>)
    ensures |r| == |rows| && forall i :: 0 <= i < |rows| ==> r[i] == rows[i].netInflow
  {
    seq(|rows|, i requires 0 <= i < |rows| => rows[i].netInflow)
  }

  /** The flow summary of one stock over its date-ordered rows; `None` is
      the empty result for a stock without rows. */
  function AnalyzeStockCapitalFlow(stockCode: string, startDate: int, endDate: int,
                                   rows: seq<StockRow>, sqrt: real -> real): (r: Option<StockAnalysis>)
    ensures r.None? <==> |rows| == 0
    ensures r.Some? ==> r.value.stockCode == stockCode && r.value.startDate == startDate && r.value.endDate == endDate
    ensures r.Some? ==> r.value.totalNetInflow == Sum(StockNetInflows(rows))
    ensures r.Some? ==> r.value.avgDailyInflow == Mean(StockNetInflows(rows))
    ensures r.Some? ==> r.value.minInflow <= r.value.avgDailyInflow <= r.value.maxInflow
    ensures r.Some? ==> forall i :: 0 <= i < |rows| ==> r.value.minInflow <= rows[i].netInflow <= r.value.maxInflow
    ensures r.Some? ==> r.value.minInflow in StockNetInflows(rows) && r.value.maxInflow in StockNetInflows(rows)
    ensures r.Some? ==> r.value.inflowContinuity == CalculateContinuity(StockNetInflows(rows))
    ensures r.Some? ==> r.value.inflowStability == CalculateStability(StockNetInflows(rows), sqrt)
    ensures r.Some? ==> r.value.recentTrend == AnalyzeTrend(LastN(StockNetInflows(rows), 5))
    ensures r.Some? ==> r.value.dailyDetails == rows
  {
    if |rows| == 0 then None
    else
      var nets := StockNetInflows(rows);
      MeanBetween(nets);
      ExtremesAttained(nets);
      Some(StockAnalysis(stockCode, startDate, endDate, Sum(nets), Mean(nets), MaxOf(nets), MinOf(nets),
                         CalculateContinuity(nets), CalculateStability(nets, sqrt),
                         AnalyzeTrend(LastN(nets, 5)), rows))
  }
}

=== FILE: cost_analysis.dfy ===
/** The holding-cost analyzer: per-day buyer and seller VWAP, cost pressure
    and volume concentration from a price distribution; multi-window
    averages; the cost trend gated on R^2; the insufficient-data guard of
    the trend report; and the post-processing of the cost clusters. */
module CostAnalysis {
  import opened Wrappers
  import opened Numeric
  import opened Sorting
  import opened Regression
  import DataProcessor

  /** The rising / falling / stable trend of the holding-cost model. */
  datatype CostTrend = Rising | Falling | Stable

  // ----------------------------------------------------------- daily cost

  /** A day's price distribution (already parsed) and its recorded totals. */
  datatype DistributionRow = DistributionRow(
    prices: seq<real>,
    buyVolumes: seq<real>,
    sellVolumes: seq<real>,
    buyAmounts: seq<real>,
    sellAmounts: seq<real>,
    totalBuyAmount: real,
    totalSellAmount: real)

  /** One side's VWAP: total amount over total volume, or 0 unless the
      total volume is positive. */
  function SideVwap(amounts: seq<real>, volumes: seq<real>): (r: real)
    ensures Sum(volumes) <= 0.0 ==> r == 0.0
    ensures 0.0 < Sum(volumes) ==> r * Sum(volumes) == Sum(amounts)
  {
    if Sum(volumes) > 0.0 then Sum(amounts) / Sum(volumes) else 0.0
  }

  /** numpy `median`, NaN (here `None`) for an empty array. */
  function MedianOpt(prices: seq<real>): (r: Option<real>)
    ensures r.None? <==> |prices| == 0
    ensures r.Some? ==> MinOf(prices) <= r.value <= MaxOf(prices)
  {
    if |prices| == 0 then None else Some(DataProcessor.Median(prices))
  }

  /** The spread as a percentage of the median price, 0 unless the median
      is a positive number (a NaN median compares false). */
  function PressureOverMedian(buyVwap: real, sellVwap: real, median: Option<real>): (r: real)
    ensures !(median.Some? && 0.0 < median.value) ==> r == 0.0
    ensures median.Some? && 0.0 < median.value ==> r * median.value == (buyVwap - sellVwap) * 100.0
  {
    if median.Some? && median.value > 0.0 then (buyVwap - sellVwap) / median.value * 100.0 else 0.0
  }

  /** `median - x`, NaN when the median is. */
  function DiffFrom(x: real, median: Option<real>): (r: Option<real>)
    ensures r.Some? <==> median.Some?
    ensures r.Some? ==> r.value + median.value == x
  {
    if median.Some? then Some(x - median.value) else None
  }

  // -------------------------------------------------------- concentration

  const PriceLevels: nat := 10
  /** `max(1, price_levels // 5)`. */
  const TopCount: nat := 2

  /** The price bin of `p`: `int((p - lo) / range * 9)`, capped at 9. */
  function Level(p: real, lo: real, range: real): (l: nat)
    requires 0.0 < range && lo <= p
    ensures l < PriceLevels
  {
    var x := (p - lo) / range * 9.0;
    assert 0.0 <= x by {
      QuotientNonneg(p - lo, range);
      ProductNonneg((p - lo) / range, 9.0);
    }
    var t := Trunc(x);
    if t < 9 then t else 9
  }

  /** Bins are ordered like the prices they hold. */
  lemma LevelMonotone(p1: real, p2: real, lo: real, range: real)
    requires 0.0 < range && lo <= p1 <= p2
    ensures Level(p1, lo, range) <= Level(p2, lo, range)
  {
    var q1, q2 := (p1 - lo) / range, (p2 - lo) / range;
    assert q1 <= q2 by {
      if q2 < q1 { MulLess(q2, q1, range); }
    }
    assert q1 * 9.0 <= q2 * 9.0;
    QuotientNonneg(p1 - lo, range);
    ProductNonneg(q1, 9.0);
  }

  /** Adds `x` to entry `l` of the bins. */
  function AddAt(b: seq<real>, l: nat, x: real): (r: seq<real>)
    requires l < |b|
    ensures |r| == |b| && r[l] == b[l] + x
    ensures forall j :: 0 <= j < |b| && j != l ==> r[j] == b[j]
  {
    b[l := b[l] + x]
  }

  lemma {:induction false} SumAddAt(b: seq<real>, l: nat, x: real)
    requires l < |b|
    ensures Sum(AddAt(b, l, x)) == Sum(b) + x
  {
    if l == 0 {
      assert AddAt(b, l, x)[1..] == b[1..];
    } else {
      assert AddAt(b, l, x)[1..] == AddAt(b[1..], l - 1, x);
      SumAddAt(b[1..], l - 1, x);
    }
  }

  /** The volume of every (price, buy, sell) triple, added to its price
      bin when the price range is positive. As Python's `zip` does, the
      walk stops at the end of the shortest array. */
  function Bins(prices: seq<real>, buy: seq<real>, sell: seq<real>, lo: real, range: real): (b: seq<real>)
    requires forall i :: 0 <= i < |prices| ==> lo <= prices[i]
    ensures |b| == PriceLevels
    ensures range <= 0.0 ==> b == Const(0.0, PriceLevels)
    decreases |prices|
  {
    if |prices| == 0 || |buy| == 0 || |sell| == 0 then Const(0.0, PriceLevels)
    else
      var rest := Bins(prices[1..], buy[1..], sell[1..], lo, range);
      if range > 0.0 then AddAt(rest, Level(prices[0], lo, range), buy[0] + sell[0]) else rest
  }

  /** With a positive range and arrays of one length, the bins account for
      the whole volume. */
  lemma {:induction false} BinsCoverVolume(prices: seq<real>, buy: seq<real>, sell: seq<real>, lo: real, range: real)
    requires forall i :: 0 <= i < |prices| ==> lo <= prices[i]
    requires |prices| == |buy| == |sell| && 0.0 < range
    ensures Sum(Bins(prices, buy, sell, lo, range)) == Sum(buy) + Sum(sell)
  {
    if |prices| == 0 {
      SumConst(0.0, PriceLevels);
    } else {
      var rest := Bins(prices[1..], buy[1..], sell[1..], lo, range);
      BinsCoverVolume(prices[1..], buy[1..], sell[1..], lo, range);
      SumAddAt(rest, Level(prices[0], lo, range), buy[0] + sell[0]);
    }
  }

  lemma {:induction false} BinsNonneg(prices: seq<real>, buy: seq<real>, sell: seq<real>, lo: real, range: real)
    requires forall i :: 0 <= i < |prices| ==> lo <= prices[i]
    requires forall i :: 0 <= i < |buy| ==> 0.0 <= buy[i]
    requires forall i :: 0 <= i < |sell| ==> 0.0 <= sell[i]
    ensures forall l :: 0 <= l < PriceLevels ==> 0.0 <= Bins(prices, buy, sell, lo, range)[l]
    decreases |prices|
  {
    if |prices| > 0 && |buy| > 0 && |sell| > 0 {
      BinsNonneg(prices[1..], buy[1..], sell[1..], lo, range);
    }
  }

  /** Index of the first largest element. */
  function ArgMax(s: seq<real>): (a: nat)
    requires |s| > 0
    ensures a < |s|
    ensures forall i :: 0 <= i < |s| ==> s[i] <= s[a]
  {
    if |s| == 1 then 0
    else
      var a := ArgMax(s[1..]) + 1;
      if s[0] >= s[a] then 0 else a
  }

  function RemoveAt(s: seq<real>, a: nat): (r: seq<real>)
    requires a < |s|
    ensures |r| == |s| - 1
    ensures forall i :: 0 <= i < a ==> r[i] == s[i]
    ensures forall i :: a < i < |s| ==> r[i - 1] == s[i]
  {
    s[..a] + s[a + 1..]
  }

  /** The total of the two largest bins (the first two entries of a
      descending argsort; ties do not change the total). */
  function TopTwo(b: seq<real>): real
    requires 2 <= |b|
  {
    var a := ArgMax(b);
    b[a] + MaxOf(RemoveAt(b, a))
  }

  /** No two distinct bins hold more than the two largest together. */
  lemma TopTwoDominates(b: seq<real>, i: nat, j: nat)
    requires 2 <= |b| && i < |b| && j < |b| && i != j
    ensures b[i] + b[j] <= TopTwo(b)
  {
    var a := ArgMax(b);
    var r := RemoveAt(b, a);
    var m := MaxOf(r);
    assert forall k :: 0 <= k < |b| && k != a ==> b[k] <= m by {
      forall k | 0 <= k < |b| && k != a
        ensures b[k] <= m
      {
        if k < a {
          assert r[k] == b[k];
        } else {
          assert r[k - 1] == b[k];
        }
      }
    }
  }

  lemma {:induction false} MaxAtMostSum(s: seq<real>)
    requires |s| > 0
    requires forall i :: 0 <= i < |s| ==> 0.0 <= s[i]
    ensures MaxOf(s) <= Sum(s)
  {
    if |s| > 1 {
      MaxAtMostSum(s[1..]);
      SumNonneg(s[1..]);
    }
  }

  lemma {:induction false} SumRemoveAt(b: seq<real>, a: nat)
    requires a < |b|
    ensures Sum(b) == b[a] + Sum(RemoveAt(b, a))
  {
    if a == 0 {
      assert RemoveAt(b, 0) == b[1..];
    } else {
      var r := RemoveAt(b, a);
      assert r[0] == b[0];
      assert r[1..] == RemoveAt(b[1..], a - 1);
      SumRemoveAt(b[1..], a - 1);
    }
  }

  /** For non-negative bins the top two hold between nothing and everything. */
  lemma TopTwoBounds(b: seq<real>)
    requires 2 <= |b|
    requires forall i :: 0 <= i < |b| ==> 0.0 <= b[i]
    ensures 0.0 <= TopTwo(b) <= Sum(b)
  {
    var a := ArgMax(b);
    var r := RemoveAt(b, a);
    SumRemoveAt(b, a);
    assert forall i :: 0 <= i < |r| ==> 0.0 <= r[i] by {
      forall i | 0 <= i < |r| ensures 0.0 <= r[i] {
        if i < a { assert r[i] == b[i]; } else { assert r[i] == b[i + 1]; }
      }
    }
    MaxAtMostSum(r);
    assert 0.0 <= r[0] <= MaxOf(r);
  }

  lemma TopTwoOfZeros()
    ensures TopTwo(Const(0.0, PriceLevels)) == 0.0
  {
    var b := Const(0.0, PriceLevels);
    var a := ArgMax(b);
    var r := RemoveAt(b, a);
    assert forall i :: 0 <= i < |r| ==> r[i] == 0.0 by {
      forall i | 0 <= i < |r| ensures r[i] == 0.0 {
        if i < a { assert r[i] == b[i]; } else { assert r[i] == b[i + 1]; }
      }
    }
    ExtremesAttained(r);
  }

  /** The top two bins of non-negative volumes on parallel arrays hold at
      most the day's volume. */
  lemma TopTwoWithinVolume(prices: seq<real>, buy: seq<real>, sell: seq<real>, lo: real, range: real)
    requires forall i :: 0 <= i < |prices| ==> lo <= prices[i]
    requires |prices| == |buy| == |sell|
    requires forall i :: 0 <= i < |buy| ==> 0.0 <= buy[i] && 0.0 <= sell[i]
    ensures 0.0 <= TopTwo(Bins(prices, buy, sell, lo, range)) <= Sum(buy) + Sum(sell)
  {
    var b := Bins(prices, buy, sell, lo, range);
    BinsNonneg(prices, buy, sell, lo, range);
    TopTwoBounds(b);
    if range > 0.0 {
      BinsCoverVolume(prices, buy, sell, lo, range);
    } else {
      SumConst(0.0, PriceLevels);
      SumNonneg(buy);
      SumNonneg(sell);
    }
  }

  datatype Concentration = Concentration(top20PriceRange: real, volumeConcentration: real, priceDispersion: real)

  /** The volume concentration of a day. A zero total volume gives zeros;
      a non-zero volume with no prices makes numpy's `min` raise, which
      the daily analysis turns into an empty result (`None`). */
  function ConcentrationOf(prices: seq<real>, buy: seq<real>, sell: seq<real>): (r: Option<Concentration>)
    ensures Sum(buy) + Sum(sell) == 0.0 ==> r == Some(Concentration(0.0, 0.0, 0.0))
    ensures r.None? <==> Sum(buy) + Sum(sell) != 0.0 && |prices| == 0
    ensures r.Some? && Sum(buy) + Sum(sell) != 0.0 ==> r.value.top20PriceRange == 0.2
  {
    var total := Sum(buy) + Sum(sell);
    if total == 0.0 then Some(Concentration(0.0, 0.0, 0.0))
    else if |prices| == 0 then None
    else
      Some(Concentration(TopCount as real / PriceLevels as real,
                         VolumeConcentration(prices, buy, sell),
                         Dispersion(prices)))
  }

  /** The share of the volume in the two fullest price bins. */
  function VolumeConcentration(prices: seq<real>, buy: seq<real>, sell: seq<real>): real
    requires |prices| > 0 && Sum(buy) + Sum(sell) != 0.0
  {
    var lo := MinOf(prices);
    TopTwo(Bins(prices, buy, sell, lo, MaxOf(prices) - lo)) / (Sum(buy) + Sum(sell))
  }

  /** The price range relative to the mean price, 0 unless the mean is positive. */
  function Dispersion(prices: seq<real>): (d: real)
    requires |prices| > 0
    ensures Mean(prices) <= 0.0 ==> d == 0.0
    ensures 0.0 < Mean(prices) ==> d * Mean(prices) == MaxOf(prices) - MinOf(prices)
  {
    var m := Mean(prices);
    if m > 0.0 then (MaxOf(prices) - MinOf(prices)) / m else 0.0
  }

  /** A day whose prices are all equal fills no bin: its concentration is 0. */
  lemma FlatPricesHaveNoConcentration(prices: seq<real>, buy: seq<real>, sell: seq<real>)
    requires |prices| > 0 && MinOf(prices) == MaxOf(prices)
    ensures var r := ConcentrationOf(prices, buy, sell);
      r.Some? && r.value.volumeConcentration == 0.0
  {
    if Sum(buy) + Sum(sell) != 0.0 {
      FlatBinsAreEmpty(prices, buy, sell);
    }
  }

  lemma FlatBinsAreEmpty(prices: seq<real>, buy: seq<real>, sell: seq<real>)
    requires |prices| > 0 && MinOf(prices) == MaxOf(prices) && Sum(buy) + Sum(sell) != 0.0
    ensures VolumeConcentration(prices, buy, sell) == 0.0
  {
    var lo := MinOf(prices);
    var total := Sum(buy) + Sum(sell);
    var t := TopTwo(Bins(prices, buy, sell, lo, MaxOf(prices) - lo));
    NoRangeNoTop(prices, buy, sell, lo, MaxOf(prices) - lo);
    assert VolumeConcentration(prices, buy, sell) == t / total;
    ZeroQuotient(t, total);
  }

  lemma NoRangeNoTop(prices: seq<real>, buy: seq<real>, sell: seq<real>, lo: real, range: real)
    requires forall i :: 0 <= i < |prices| ==> lo <= prices[i]
    requires range <= 0.0
    ensures TopTwo(Bins(prices, buy, sell, lo, range)) == 0.0
  {
    TopTwoOfZeros();
  }

  /** With non-negative volumes on parallel arrays the concentration is a
      fraction. */
  lemma ConcentrationIsFraction(prices: seq<real>, buy: seq<real>, sell: seq<real>)
    requires |prices| == |buy| == |sell|
    requires forall i :: 0 <= i < |buy| ==> 0.0 <= buy[i] && 0.0 <= sell[i]
    ensures var r := ConcentrationOf(prices, buy, sell);
      r.Some? && 0.0 <= r.value.volumeConcentration <= 1.0
  {
    var total := Sum(buy) + Sum(sell);
    if total != 0.0 && |prices| > 0 {
      var lo := MinOf(prices);
      var range := MaxOf(prices) - lo;
      var top := TopTwo(Bins(prices, buy, sell, lo, range));
      TopTwoWithinVolume(prices, buy, sell, lo, range);
      QuotientBetween(top, total, 0.0, 1.0);
      assert VolumeConcentration(prices, buy, sell) == top / total;
    }
  }

  datatype DailyCost = DailyCost(
    buyVwap: real,
    sellVwap: real,
    vwapSpread: real,
    priceMedian: Option<real>,
    buyMedianDiff: Option<real>,
    sellMedianDiff: Option<real>,
    costPressure: real,
    concentration: Concentration,
    totalBuyAmount: real,
    totalSellAmount: real)

  /** The cost indicators of one day; `None` is the empty result the source
      returns when a numpy reduction raises. */
  function AnalyzeDailyCost(row: DistributionRow): (r: Option<DailyCost>)
    ensures r.None? <==> Sum(row.buyVolumes) + Sum(row.sellVolumes) != 0.0 && |row.prices| == 0
    ensures r.Some? ==> r.value.buyVwap == SideVwap(row.buyAmounts, row.buyVolumes)
    ensures r.Some? ==> r.value.sellVwap == SideVwap(row.sellAmounts, row.sellVolumes)
    ensures r.Some? ==> r.value.vwapSpread == r.value.buyVwap - r.value.sellVwap
    ensures r.Some? ==> (r.value.priceMedian.None? <==> |row.prices| == 0)
    ensures r.Some? ==> r.value.priceMedian == MedianOpt(row.prices)
    ensures r.Some? ==> r.value.buyMedianDiff == DiffFrom(r.value.buyVwap, r.value.priceMedian)
    ensures r.Some? ==> r.value.sellMedianDiff == DiffFrom(r.value.sellVwap, r.value.priceMedian)
    ensures r.Some? ==> ConcentrationOf(row.prices, row.buyVolumes, row.sellVolumes) == Some(r.value.concentration)
    ensures r.Some? ==> r.value.costPressure == PressureOverMedian(r.value.buyVwap, r.value.sellVwap, r.value.priceMedian)
    ensures r.Some? ==> r.value.totalBuyAmount == row.totalBuyAmount && r.value.totalSellAmount == row.totalSellAmount
  {
    var c := ConcentrationOf(row.prices, row.buyVolumes, row.sellVolumes);
    if c.None? then None
    else
      var buy := SideVwap(row.buyAmounts, row.buyVolumes);
      var sell := SideVwap(row.sellAmounts, row.sellVolumes);
      var median := MedianOpt(row.prices);
      Some(DailyCost(buy, sell, buy - sell, median, DiffFrom(buy, median), DiffFrom(sell, median),
                     PressureOverMedian(buy, sell, median), c.value,
                     row.totalBuyAmount, row.totalSellAmount))
  }

  // ----------------------------------------------------------- cost trend

  /** Rising or falling only when the fit explains more than half of the
      variance and the slope exceeds 0.01 in magnitude. */
  function DetermineCostTrend(y: seq<real>): (t: CostTrend)
    ensures |y| < 2 ==> t == Stable
    ensures 2 <= |y| ==> (t == Rising <==> RSquared(y) > 0.5 && Slope(y) > 0.01)
    ensures 2 <= |y| ==> (t == Falling <==> RSquared(y) > 0.5 && Slope(y) < -0.01)
  {
    if |y| < 2 then Stable
    else if RSquared(y) > 0.5 && Slope(y) > 0.01 then Rising
    else if RSquared(y) > 0.5 && Slope(y) < -0.01 then Falling
    else Stable
  }

  /** A constant cost has R^2 = 0 and is therefore stable. */
  lemma ConstantCostIsStable(c: real, n: nat)
    ensures DetermineCostTrend(Const(c, n)) == Stable
  {
    if 2 <= n {
      ConstantSeriesFlat(c, n);
    }
  }

  /** A cost climbing by one each day is rising. */
  lemma ClimbingCostIsRising()
    ensures DetermineCostTrend([10.0, 11.0, 12.0, 13.0, 14.0]) == Rising
  {
    var y := [10.0, 11.0, 12.0, 13.0, 14.0];
    assert Sum(y) == 60.0 by {
      assert y[1..] == [11.0, 12.0, 13.0, 14.0];
      assert y[2..] == [12.0, 13.0, 14.0];
      assert y[3..] == [13.0, 14.0];
      assert y[4..] == [14.0];
    }
    assert Mean(y) == 12.0;
    assert XMean(5) == 2.0;
    assert Sxx(5, 2.0) == 10.0;
    assert Sxy(y, 2.0, 12.0) == 10.0 by {
      assert y[..4] == [10.0, 11.0, 12.0, 13.0];
      assert y[..4][..3] == [10.0, 11.0, 12.0];
      assert y[..4][..3][..2] == [10.0, 11.0];
      assert y[..4][..3][..2][..1] == [10.0];
      assert [10.0][..0] == [];
      assert Sxy([10.0], 2.0, 12.0) == 4.0;
      assert Sxy([10.0, 11.0], 2.0, 12.0) == 5.0;
      assert Sxy([10.0, 11.0, 12.0], 2.0, 12.0) == 5.0;
      assert Sxy([10.0, 11.0, 12.0, 13.0], 2.0, 12.0) == 6.0;
    }
    assert Slope(y) == 1.0;
    assert Intercept(y) == 10.0;
    assert SsReg(5, 1.0, 10.0, 12.0) == 10.0;
    assert SqDev(y, 12.0) == 10.0 by {
      assert y[1..] == [11.0, 12.0, 13.0, 14.0];
      assert y[2..] == [12.0, 13.0, 14.0];
      assert y[3..] == [13.0, 14.0];
      assert y[4..] == [14.0];
    }
    assert RSquared(y) == 1.0;
  }

  // ----------------------------------------------------- multi-day costs

  datatype WindowAverage = WindowAverage(avgBuyVwap: real, avgSellVwap: real, avgCostPressure: real, costTrend: CostTrend)

  /** The window sizes, in days. */
  const Windows: seq<nat> := [2, 5, 20, 60]

  function BuyVwaps(days: seq<DailyCost>): (r: seq<real>)
    ensures |r| == |days| && forall i :: 0 <= i < |days| ==> r[i] == days[i].buyVwap
  {
    seq(|days|, i requires 0 <= i < |days| => days[i].buyVwap)
  }

  function SellVwaps(days: seq<DailyCost>): (r: seq<real>)
    ensures |r| == |days| && forall i :: 0 <= i < |days| ==> r[i] == days[i].sellVwap
  {
    seq(|days|, i requires 0 <= i < |days| => days[i].sellVwap)
  }

  function CostPressures(days: seq<DailyCost>): (r: seq<real>)
    ensures |r| == |days| && forall i :: 0 <= i < |days| ==> r[i] == days[i].costPressure
  {
    seq(|days|, i requires 0 <= i < |days| => days[i].costPressure)
  }

  /** The averages of one window: the arithmetic means of the daily buyer
      cost, seller cost and cost pressure, each between the window's
      smallest and largest day. */
  function WindowAverageOf(days: seq<DailyCost>): (a: WindowAverage)
    requires |days| > 0
    ensures a.avgBuyVwap == Mean(BuyVwaps(days))
    ensures a.avgSellVwap == Mean(SellVwaps(days))
    ensures a.avgCostPressure == Mean(CostPressures(days))
    ensures MinOf(BuyVwaps(days)) <= a.avgBuyVwap <= MaxOf(BuyVwaps(days))
    ensures MinOf(SellVwaps(days)) <= a.avgSellVwap <= MaxOf(SellVwaps(days))
    ensures MinOf(CostPressures(days)) <= a.avgCostPressure <= MaxOf(CostPressures(days))
    ensures a.costTrend == DetermineCostTrend(BuyVwaps(days))
  {
    MeanBetween(BuyVwaps(days));
    MeanBetween(SellVwaps(days));
    MeanBetween(CostPressures(days));
    WindowAverage(Mean(BuyVwaps(days)), Mean(SellVwaps(days)), Mean(CostPressures(days)),
                  DetermineCostTrend(BuyVwaps(days)))
  }

  /** Averages over the most recent 2, 5, 20 and 60 days (the history is
      newest first), keyed by window size; a window longer than the
      history is absent. */
  function MultiDayCost(days: seq<DailyCost>): (r: map<nat, WindowAverage>)
    ensures |days| == 0 ==> r == map[]
    ensures forall w :: w in r <==> w in Windows && w <= |days|
    ensures forall w :: w in r ==> 0 < w <= |days| && r[w] == WindowAverageOf(days[..w])
  {
    if |days| == 0 then map[]
    else map w | w in Windows && w <= |days| :: WindowAverageOf(days[..w])
  }

  /** A history whose every day has the same buyer cost, seller cost and
      cost pressure averages to those values in every window, and its cost
      is stable. */
  lemma ConstantHistoryAverages(days: seq<DailyCost>, b: real, s: real, p: real)
    requires forall i :: 0 <= i < |days| ==> days[i].buyVwap == b && days[i].sellVwap == s && days[i].costPressure == p
    ensures forall w :: w in MultiDayCost(days) ==>
      MultiDayCost(days)[w].avgBuyVwap == b && MultiDayCost(days)[w].avgSellVwap == s &&
      MultiDayCost(days)[w].avgCostPressure == p && MultiDayCost(days)[w].costTrend == Stable
  {
    var r := MultiDayCost(days);
    forall w | w in r
      ensures r[w].avgBuyVwap == b && r[w].avgSellVwap == s && r[w].avgCostPressure == p && r[w].costTrend == Stable
    {
      var window := days[..w];
      assert BuyVwaps(window) == Const(b, w);
      assert SellVwaps(window) == Const(s, w);
      assert CostPressures(window) == Const(p, w);
      MeanConst(b, w);
      MeanConst(s, w);
      MeanConst(p, w);
      ConstantCostIsStable(b, w);
    }
  }

  // ---------------------------------------------------------- trend guard

  /** The trend report needs at least five days; the rest of it is computed
      by helpers outside this model, from these two series. */
  datatype TrendReport = InsufficientData | TrendInputs(buyVwaps: seq<real>, costPressures: seq<real>)

  function AnalyzeCostTrend(history: seq<DailyCost>): (r: TrendReport)
    ensures r.InsufficientData? <==> |history| < 5
    ensures r.TrendInputs? ==> r.buyVwaps == BuyVwaps(history) && r.costPressures == CostPressures(history)
  {
    if |history| < 5 then InsufficientData else TrendInputs(BuyVwaps(history), CostPressures(history))
  }

  // ---------------------------------------------------------- cost levels

  datatype LevelKind = Support | Resistance

  datatype CostLevel = CostLevel(priceLevel: real, frequencyWeight: real, volumeWeight: real,
                                 sampleCount: nat, kind: LevelKind)

  function PriceLevel(l: CostLevel): real {
    l.priceLevel
  }

  function SampleCount(l: CostLevel): real {
    l.sampleCount as real
  }

  function FrequencyWeight(l: CostLevel): real {
    l.frequencyWeight
  }

  /** The number of distinct values, `len(set(s))`. */
  function DistinctCount(s: seq<real>): nat {
    |set i | 0 <= i < |s| :: s[i]|
  }

  /** The number of clusters asked of k-means: at most 3. */
  function ClusterCount(costs: seq<real>): (k: nat)
    ensures k <= 3 && k <= DistinctCount(costs)
  {
    if DistinctCount(costs) < 3 then DistinctCount(costs) else 3
  }

  /** How many points carry label `c`. */
  function Count(labels: seq<nat>, c: nat): (n: nat)
    ensures n <= |labels|
  {
    if |labels| == 0 then 0 else (if labels[0] == c then 1 else 0) + Count(labels[1..], c)
  }

  /** The values whose label is `c`, in order. */
  function Members(xs: seq<real>, labels: seq<nat>, c: nat): (m: seq<real>)
    requires |xs| == |labels|
    ensures |m| == Count(labels, c)
  {
    if |xs| == 0 then []
    else (if labels[0] == c then [xs[0]] else []) + Members(xs[1..], labels[1..], c)
  }

  /** Index of the first smallest centre, `numpy.argmin`. */
  function ArgMin(s: seq<real>): (a: nat)
    requires |s| > 0
    ensures a < |s|
    ensures forall i :: 0 <= i < |s| ==> s[a] <= s[i]
  {
    if |s| == 1 then 0
    else
      var a := ArgMin(s[1..]) + 1;
      if s[0] <= s[a] then 0 else a
  }

  /** The level of the non-empty cluster `c`. */
  function LevelOf(costs: seq<real>, volumes: seq<real>, labels: seq<nat>, centers: seq<real>, c: nat): (l: CostLevel)
    requires |costs| == |volumes| == |labels| && 0 < |costs|
    requires c < |centers| && 0 < Count(labels, c)
    ensures l.sampleCount == Count(labels, c)
    ensures l.priceLevel == Mean(Members(costs, labels, c))
    ensures l.kind == Support <==> c == ArgMin(centers)
  {
    var n := Count(labels, c);
    var total := Sum(volumes);
    CostLevel(Mean(Members(costs, labels, c)),
              n as real / |costs| as real,
              if total > 0.0 then Sum(Members(volumes, labels, c)) / total else 0.0,
              n,
              if c == ArgMin(centers) then Support else Resistance)
  }

  /** The levels of the non-empty clusters `c .. |centers| - 1`, in cluster order. */
  function LevelsFrom(costs: seq<real>, volumes: seq<real>, labels: seq<nat>, centers: seq<real>, c: nat): (r: seq<CostLevel>)
    requires |costs| == |volumes| == |labels| && 0 < |costs|
    requires c <= |centers|
    ensures |r| <= |centers| - c
    ensures forall i :: 0 <= i < |r| ==> r[i].frequencyWeight == r[i].sampleCount as real / |costs| as real
    decreases |centers| - c
  {
    if c == |centers| then []
    else
      var rest := LevelsFrom(costs, volumes, labels, centers, c + 1);
      if Count(labels, c) > 0 then [LevelOf(costs, volumes, labels, centers, c)] + rest else rest
  }

  /** Post-processing of the k-means clustering of the buyer costs. The
      clustering itself is an input: `labels[j]` is the cluster of day `j`
      and `centers` the fitted centres, one per cluster. */
  function FindCostLevels(history: seq<DailyCost>, labels: seq<nat>, centers: seq<real>): (r: seq<CostLevel>)
    requires 3 <= |history| ==> |labels| == |history| && |centers| == ClusterCount(BuyVwaps(history))
    requires 3 <= |history| ==> forall j :: 0 <= j < |labels| ==> labels[j] < |centers|
    ensures |history| < 3 ==> r == []
    ensures |r| <= 3
    ensures 3 <= |history| ==> |r| <= DistinctCount(BuyVwaps(history))
    ensures SortedBy(r, PriceLevel)
  {
    if |history| < 3 then []
    else
      var costs := BuyVwaps(history);
      var volumes := seq(|history|, i requires 0 <= i < |history| => history[i].totalBuyAmount);
      SortBy(LevelsFrom(costs, volumes, labels, centers, 0), PriceLevel)
  }

  /** Sum over clusters `c .. k - 1` of their sizes. */
  function CountsFrom(labels: seq<nat>, c: nat, k: nat): nat
    decreases k - c
  {
    if k <= c then 0 else Count(labels, c) + CountsFrom(labels, c + 1, k)
  }

  lemma {:induction false} CountsFromCons(labels: seq<nat>, c: nat, k: nat)
    requires |labels| > 0
    ensures CountsFrom(labels, c, k) == (if c <= labels[0] < k then 1 else 0) + CountsFrom(labels[1..], c, k)
    decreases k - c
  {
    if c < k {
      CountsFromCons(labels, c + 1, k);
    }
  }

  /** When every label is below `k` the cluster sizes add up to the number
      of points. */
  lemma {:induction false} CountsCoverAll(labels: seq<nat>, k: nat)
    requires forall j :: 0 <= j < |labels| ==> labels[j] < k
    ensures CountsFrom(labels, 0, k) == |labels|
  {
    if |labels| == 0 {
      CountsFromEmpty(labels, 0, k);
    } else {
      CountsFromCons(labels, 0, k);
      CountsCoverAll(labels[1..], k);
    }
  }

  lemma {:induction false} CountsFromEmpty(labels: seq<nat>, c: nat, k: nat)
    requires |labels| == 0
    ensures CountsFrom(labels, c, k) == 0
    decreases k - c
  {
    if c < k {
      CountsFromEmpty(labels, c + 1, k);
    }
  }

  lemma {:induction false} LevelsFromCounts(costs: seq<real>, volumes: seq<real>, labels: seq<nat>, centers: seq<real>, c: nat)
    requires |costs| == |volumes| == |labels| && 0 < |costs|
    requires c <= |centers|
    ensures SumBy(LevelsFrom(costs, volumes, labels, centers, c), SampleCount) == CountsFrom(labels, c, |centers|) as real
    decreases |centers| - c
  {
    if c < |centers| {
      LevelsFromCounts(costs, volumes, labels, centers, c + 1);
      var rest := LevelsFrom(costs, volumes, labels, centers, c + 1);
      if Count(labels, c) > 0 {
        assert ([LevelOf(costs, volumes, labels, centers, c)] + rest)[1..] == rest;
      }
    }
  }

  /** The sample counts of the levels add up to the number of days. */
  lemma SampleCountsCoverHistory(history: seq<DailyCost>, labels: seq<nat>, centers: seq<real>)
    requires 3 <= |history|
    requires |labels| == |history| && |centers| == ClusterCount(BuyVwaps(history))
    requires forall j :: 0 <= j < |labels| ==> labels[j] < |centers|
    ensures SumBy(FindCostLevels(history, labels, centers), SampleCount) == |history| as real
  {
    var costs := BuyVwaps(history);
    var volumes := seq(|history|, i requires 0 <= i < |history| => history[i].totalBuyAmount);
    var levels := LevelsFrom(costs, volumes, labels, centers, 0);
    SumBySort(levels, PriceLevel, SampleCount);
    LevelsFromCounts(costs, volumes, labels, centers, 0);
    CountsCoverAll(labels, |centers|);
  }

  /** `l`'s frequency weight is its share of the `n` days. */
  predicate IsShare(l: CostLevel, n: real)
    requires 0.0 < n
  {
    l.frequencyWeight == l.sampleCount as real / n
  }

  lemma {:induction false} WeightsAreShares(s: seq<CostLevel>, n: real)
    requires 0.0 < n
    requires forall l :: l in s ==> IsShare(l, n)
    ensures SumBy(s, FrequencyWeight) * n == SumBy(s, SampleCount)
  {
    if |s| > 0 {
      var t := s[1..];
      forall l | l in t
        ensures IsShare(l, n)
      {
        assert l in s;
      }
      WeightsAreShares(t, n);
      var w, k := FrequencyWeight(s[0]), SampleCount(s[0]);
      assert IsShare(s[0], n) by { assert s[0] in s; }
      ShareTimes(w, k, n);
      MulAdd(w, k, SumBy(t, FrequencyWeight), SumBy(t, SampleCount), n);
      SumByCons(s, FrequencyWeight);
      SumByCons(s, SampleCount);
    }
  }

  lemma SharesSurviveSort(levels: seq<CostLevel>, n: real)
    requires 0.0 < n
    requires forall i :: 0 <= i < |levels| ==> IsShare(levels[i], n)
    ensures forall l :: l in SortBy(levels, PriceLevel) ==> IsShare(l, n)
  {
    forall l | l in SortBy(levels, PriceLevel)
      ensures IsShare(l, n)
    {
      SortByMembers(levels, PriceLevel, l);
    }
  }

  /** The frequency weights of the levels add up to 1. */
  lemma FrequencyWeightsSumToOne(history: seq<DailyCost>, labels: seq<nat>, centers: seq<real>)
    requires 3 <= |history|
    requires |labels| == |history| && |centers| == ClusterCount(BuyVwaps(history))
    requires forall j :: 0 <= j < |labels| ==> labels[j] < |centers|
    ensures SumBy(FindCostLevels(history, labels, centers), FrequencyWeight) == 1.0
  {
    var costs := BuyVwaps(history);
    var volumes := seq(|history|, i requires 0 <= i < |history| => history[i].totalBuyAmount);
    var levels := LevelsFrom(costs, volumes, labels, centers, 0);
    var r := FindCostLevels(history, labels, centers);
    var n := |history| as real;
    assert r == SortBy(levels, PriceLevel);
    assert forall i :: 0 <= i < |levels| ==> IsShare(levels[i], n);
    SharesSurviveSort(levels, n);
    SampleCountsCoverHistory(history, labels, centers);
    SharesSumToOne(r, n);
  }

  lemma SharesSumToOne(s: seq<CostLevel>, n: real)
    requires 0.0 < n
    requires forall l :: l in s ==> IsShare(l, n)
    requires SumBy(s, SampleCount) == n
    ensures SumBy(s, FrequencyWeight) == 1.0
  {
    WeightsAreShares(s, n);
    MulCancelOne(SumBy(s, FrequencyWeight), SumBy(s, SampleCount), n);
  }

  /** What k-means guarantees of its output: each centre of a non-empty
      cluster is the mean of its members. */
  ghost predicate CentersAreMeans(costs: seq<real>, labels: seq<nat>, centers: seq<real>)
    requires |costs| == |labels|
  {
    forall c :: 0 <= c < |centers| && 0 < Count(labels, c) ==> centers[c] == Mean(Members(costs, labels, c))
  }

  /** No lower than the lowest centre, and equal to it when a support. */
  predicate AboveSupport(l: CostLevel, centers: seq<real>)
    requires 0 < |centers|
  {
    centers[ArgMin(centers)] <= l.priceLevel &&
    (l.kind == Support ==> l.priceLevel == centers[ArgMin(centers)])
  }

  lemma LevelAboveSupport(costs: seq<real>, volumes: seq<real>, labels: seq<nat>, centers: seq<real>, c: nat)
    requires |costs| == |volumes| == |labels| && 0 < |costs|
    requires c < |centers| && 0 < Count(labels, c)
    requires CentersAreMeans(costs, labels, centers)
    ensures AboveSupport(LevelOf(costs, volumes, labels, centers, c), centers)
  {
    var l := LevelOf(costs, volumes, labels, centers, c);
    assert l.priceLevel == centers[c];
  }

  lemma {:induction false} LevelsFromAboveSupport(costs: seq<real>, volumes: seq<real>, labels: seq<nat>, centers: seq<real>, c: nat)
    requires |costs| == |volumes| == |labels| && 0 < |costs|
    requires c <= |centers| && 0 < |centers|
    requires CentersAreMeans(costs, labels, centers)
    ensures forall l :: l in LevelsFrom(costs, volumes, labels, centers, c) ==> AboveSupport(l, centers)
    decreases |centers| - c
  {
    if c < |centers| {
      LevelsFromAboveSupport(costs, volumes, labels, centers, c + 1);
      if Count(labels, c) > 0 {
        LevelAboveSupport(costs, volumes, labels, centers, c);
      }
    }
  }

  /** When the centres are the cluster means, the support level is the
      lowest of all levels. */
  lemma SupportIsLowest(history: seq<DailyCost>, labels: seq<nat>, centers: seq<real>, i: nat, j: nat)
    requires 3 <= |history|
    requires |labels| == |history| && |centers| == ClusterCount(BuyVwaps(history))
    requires forall j :: 0 <= j < |labels| ==> labels[j] < |centers|
    requires CentersAreMeans(BuyVwaps(history), labels, centers)
    requires var r := FindCostLevels(history, labels, centers);
      i < |r| && j < |r| && r[i].kind == Support
    ensures var r := FindCostLevels(history, labels, centers);
      r[i].priceLevel <= r[j].priceLevel
  {
    var costs := BuyVwaps(history);
    var volumes := seq(|history|, i requires 0 <= i < |history| => history[i].totalBuyAmount);
    var levels := LevelsFrom(costs, volumes, labels, centers, 0);
    var r := FindCostLevels(history, labels, centers);
    assert r == SortBy(levels, PriceLevel);
    LevelsFromAboveSupport(costs, volumes, labels, centers, 0);
    SortByMembers(levels, PriceLevel, r[i]);
    SortByMembers(levels, PriceLevel, r[j]);
    assert AboveSupport(r[i], centers) && AboveSupport(r[j], centers);
  }
}

=== FILE: data_processor.dfy ===
/** The series utilities of the data processor: volume-weighted average
    price, summary price metrics, the cost pressure index, normalisation,
    correlation, anomaly masks and missing-value filling. */
module DataProcessor {
  import opened Wrappers
  import opened Numeric
  import opened Sorting

  // ---------------------------------------------------------------- VWAP

  /** Sum over i of p[i] * v[i]. */
  function Dot(p: seq<real>, v: seq<real>): real
    requires |p| == |v|
  {
    if |p| == 0 then 0.0 else p[0] * v[0] + Dot(p[1..], v[1..])
  }

  /** The volume-weighted average price, 0 for an empty input or a zero
      total volume. The source multiplies the arrays element-wise, so they
      have equal lengths whenever both are non-empty. */
  function Vwap(prices: seq<real>, volumes: seq<real>): (r: real)
    requires |prices| == 0 || |volumes| == 0 || |prices| == |volumes|
    ensures |prices| == 0 || |volumes| == 0 ==> r == 0.0
    ensures 0 < |prices| && Sum(volumes) == 0.0 ==> r == 0.0
    ensures 0 < |prices| && 0 < |volumes| && Sum(volumes) != 0.0 ==>
      r * Sum(volumes) == Dot(prices, volumes)
  {
    if |prices| == 0 || |volumes| == 0 then 0.0
    else if Sum(volumes) == 0.0 then 0.0
    else Dot(prices, volumes) / Sum(volumes)
  }

  lemma {:induction false} DotBounds(p: seq<real>, v: seq<real>, lo: real, hi: real)
    requires |p| == |v|
    requires forall i :: 0 <= i < |p| ==> lo <= p[i] <= hi && 0.0 <= v[i]
    ensures lo * Sum(v) <= Dot(p, v) <= hi * Sum(v)
  {
    if |p| > 0 {
      DotBounds(p[1..], v[1..], lo, hi);
      ProductNonneg(p[0] - lo, v[0]);
      ProductNonneg(hi - p[0], v[0]);
      assert lo * Sum(v) == lo * v[0] + lo * Sum(v[1..]);
      assert hi * Sum(v) == hi * v[0] + hi * Sum(v[1..]);
    }
  }

  /** With non-negative volumes and a positive total the VWAP lies within
      any bounds the prices respect. */
  lemma VwapWithin(prices: seq<real>, volumes: seq<real>, lo: real, hi: real)
    requires 0 < |prices| == |volumes|
    requires forall i :: 0 <= i < |volumes| ==> lo <= prices[i] <= hi && 0.0 <= volumes[i]
    requires 0.0 < Sum(volumes)
    ensures lo <= Vwap(prices, volumes) <= hi
  {
    var d, n := Dot(prices, volumes), Sum(volumes);
    DotBounds(prices, volumes, lo, hi);
    QuotientBetween(d, n, lo, hi);
    VwapIsQuotient(prices, volumes);
  }

  lemma VwapIsQuotient(prices: seq<real>, volumes: seq<real>)
    requires 0 < |prices| == |volumes| && Sum(volumes) != 0.0
    ensures Vwap(prices, volumes) == Dot(prices, volumes) / Sum(volumes)
  {
  }

  /** In particular it lies between the lowest and the highest price. */
  lemma VwapBetween(prices: seq<real>, volumes: seq<real>)
    requires 0 < |prices| == |volumes|
    requires forall i :: 0 <= i < |volumes| ==> 0.0 <= volumes[i]
    requires 0.0 < Sum(volumes)
    ensures MinOf(prices) <= Vwap(prices, volumes) <= MaxOf(prices)
  {
    VwapWithin(prices, volumes, MinOf(prices), MaxOf(prices));
  }

  // -------------------------------------------------------- price metrics

  function Identity(x: real): real {
    x
  }

  /** numpy `median`: the middle element of the sorted values, or the mean
      of the two middle elements for an even count. */
  function Median(s: seq<real>): (r: real)
    requires |s| > 0
    ensures MinOf(s) <= r <= MaxOf(s)
  {
    var t := SortBy(s, Identity);
    var n := |t|;
    assert forall k :: 0 <= k < n ==> MinOf(s) <= t[k] <= MaxOf(s) by {
      forall k | 0 <= k < n
        ensures MinOf(s) <= t[k] <= MaxOf(s)
      {
        assert t[k] in multiset(t);
        assert t[k] in s;
      }
    }
    if n % 2 == 1 then t[n / 2] else (t[n / 2 - 1] + t[n / 2]) / 2.0
  }

  datatype PriceMetrics = PriceMetrics(mean: real, median: real, std: real, min: real, max: real,
                                       range: real, cv: real)

  /** The summary metrics of a price series; an empty series gives an empty
      result. */
  function PriceMetricsOf(prices: seq<real>, sqrt: real -> real): (r: Option<PriceMetrics>)
    ensures r.None? <==> |prices| == 0
    ensures r.Some? ==> r.value.min <= r.value.median <= r.value.max
    ensures r.Some? ==> r.value.min <= r.value.mean <= r.value.max
    ensures r.Some? ==> r.value.range == r.value.max - r.value.min && 0.0 <= r.value.range
    ensures r.Some? ==> (forall i :: 0 <= i < |prices| ==> r.value.min <= prices[i] <= r.value.max)
    ensures r.Some? && r.value.mean == 0.0 ==> r.value.cv == 0.0
    ensures r.Some? && r.value.mean != 0.0 ==> r.value.cv == r.value.std / r.value.mean
    ensures r.Some? ==> r.value.min in prices && r.value.max in prices
    ensures r.Some? ==> r.value.mean == Mean(prices) && r.value.median == Median(prices)
    ensures r.Some? ==> r.value.std == sqrt(Variance(prices))
    ensures r.Some? && IsSqrt(sqrt) ==> 0.0 <= r.value.std
  {
    if |prices| == 0 then None
    else
      var m := Mean(prices);
      var sd := Std(prices, sqrt);
      var lo, hi := MinOf(prices), MaxOf(prices);
      MeanBetween(prices);
      ExtremesAttained(prices);
      Some(PriceMetrics(m, Median(prices), sd, lo, hi, hi - lo, if m != 0.0 then sd / m else 0.0))
  }

  /** A constant series of `c` has mean, median, minimum and maximum `c`,
      range 0 and the square root of 0 as its deviation. */
  lemma ConstantPriceMetrics(c: real, n: nat, sqrt: real -> real)
    requires 0 < n
    ensures var r := PriceMetricsOf(Const(c, n), sqrt);
      r.Some? && r.value.mean == c && r.value.median == c && r.value.min == c && r.value.max == c &&
      r.value.range == 0.0 && r.value.std == sqrt(0.0)
  {
    var s := Const(c, n);
    MeanConst(c, n);
    ExtremesAttained(s);
    SqDevZero(s, c);
    assert Variance(s) == 0.0;
  }

  // -------------------------------------------------------- cost pressure

  /** `(buy - sell) / price * 100`, or 0 for a zero price. */
  function CostPressure(buyVwap: real, sellVwap: real, price: real): (r: real)
    ensures price == 0.0 ==> r == 0.0
    ensures price != 0.0 ==> r * price == (buyVwap - sellVwap) * 100.0
  {
    if price == 0.0 then 0.0 else (buyVwap - sellVwap) / price * 100.0
  }

  /** Exchanging the buyer and the seller cost negates the pressure. */
  lemma CostPressureAntisymmetric(buyVwap: real, sellVwap: real, price: real)
    ensures CostPressure(sellVwap, buyVwap, price) == -CostPressure(buyVwap, sellVwap, price)
  {
    if price != 0.0 {
      assert (sellVwap - buyVwap) / price == -((buyVwap - sellVwap) / price);
    }
  }

  // -------------------------------------------------------- normalisation

  /** `(x - lo) / (hi - lo)` for a series whose extremes differ. */
  function MinMaxScale(x: real, lo: real, hi: real): (r: real)
    requires lo < hi && lo <= x <= hi
    ensures 0.0 <= r <= 1.0
    ensures lo + r * (hi - lo) == x
    ensures x == lo ==> r == 0.0
    ensures x == hi ==> r == 1.0
  {
    var r := (x - lo) / (hi - lo);
    QuotientBetween(x - lo, hi - lo, 0.0, 1.0);
    assert r * (hi - lo) == x - lo;
    assert x == hi ==> r == 1.0 by {
      if x == hi { DivSelf(hi - lo); }
    }
    r
  }

  /** Min-max scaling of every element with the given extremes. */
  function ScaleAll(data: seq<real>, lo: real, hi: real): (r: seq<real>)
    requires lo < hi
    requires forall i :: 0 <= i < |data| ==> lo <= data[i] <= hi
    ensures |r| == |data|
    ensures forall i :: 0 <= i < |r| ==> 0.0 <= r[i] <= 1.0 && lo + r[i] * (hi - lo) == data[i]
    ensures forall i :: 0 <= i < |r| ==> (data[i] == lo ==> r[i] == 0.0) && (data[i] == hi ==> r[i] == 1.0)
  {
    seq(|data|, i requires 0 <= i < |data| => MinMaxScale(data[i], lo, hi))
  }

  function MinMax(data: seq<real>): (r: seq<real>)
    requires |data| > 0
    ensures |r| == |data|
    ensures MinOf(data) == MaxOf(data) ==> r == Const(0.5, |data|)
    ensures MinOf(data) < MaxOf(data) ==> forall i :: 0 <= i < |r| ==> 0.0 <= r[i] <= 1.0
    ensures MinOf(data) < MaxOf(data) ==> forall i :: 0 <= i < |r| ==>
      (data[i] == MinOf(data) ==> r[i] == 0.0) && (data[i] == MaxOf(data) ==> r[i] == 1.0)
  {
    var lo, hi := MinOf(data), MaxOf(data);
    if hi == lo then Const(0.5, |data|) else ScaleAll(data, lo, hi)
  }

  function ZScore(data: seq<real>, sqrt: real -> real): (r: seq<real>)
    requires |data| > 0
    ensures |r| == |data|
    ensures Std(data, sqrt) == 0.0 ==> r == Const(0.0, |data|)
    ensures Std(data, sqrt) != 0.0 ==> forall i :: 0 <= i < |r| ==>
      Mean(data) + r[i] * Std(data, sqrt) == data[i]
  {
    var m, sd := Mean(data), Std(data, sqrt);
    if sd == 0.0 then Const(0.0, |data|)
    else seq(|data|, i requires 0 <= i < |data| => (data[i] - m) / sd)
  }

  /** `normalize_data`: "minmax", "zscore", or the input unchanged for any
      other method name. */
  function Normalize(data: seq<real>, how: string, sqrt: real -> real): (r: seq<real>)
    ensures |r| == |data|
    ensures |data| == 0 ==> r == []
    ensures how != "minmax" && how != "zscore" ==> r == data
    ensures 0 < |data| && how == "minmax" ==> r == MinMax(data)
    ensures 0 < |data| && how == "zscore" ==> r == ZScore(data, sqrt)
  {
    if |data| == 0 then []
    else if how == "minmax" then MinMax(data)
    else if how == "zscore" then ZScore(data, sqrt)
    else data
  }

  // ---------------------------------------------------------- correlation

  /** Sum over i of (x[i] - mx) * (y[i] - my). */
  function CoDev(x: seq<real>, y: seq<real>, mx: real, my: real): real
    requires |x| == |y|
  {
    if |x| == 0 then 0.0 else (x[0] - mx) * (y[0] - my) + CoDev(x[1..], y[1..], mx, my)
  }

  lemma {:induction false} CoDevSymmetric(x: seq<real>, y: seq<real>, mx: real, my: real)
    requires |x| == |y|
    ensures CoDev(x, y, mx, my) == CoDev(y, x, my, mx)
  {
    if |x| > 0 {
      CoDevSymmetric(x[1..], y[1..], mx, my);
    }
  }

  /** The Pearson coefficient `corrcoef(x, y)[0, 1]`, clipped to [-1, 1] as
      numpy does, with NaN (a constant series) read as 0. Series of
      different lengths or shorter than 2 give 0. */
  function Correlation(x: seq<real>, y: seq<real>, sqrt: real -> real): (r: real)
    ensures -1.0 <= r <= 1.0
    ensures |x| != |y| || |x| < 2 ==> r == 0.0
    ensures |x| == |y| && 2 <= |x| && (SqDev(x, Mean(x)) == 0.0 || SqDev(y, Mean(y)) == 0.0) ==> r == 0.0
  {
    if |x| != |y| || |x| < 2 then 0.0
    else
      var vx, vy := SqDev(x, Mean(x)), SqDev(y, Mean(y));
      var den := sqrt(vx) * sqrt(vy);
      if vx == 0.0 || vy == 0.0 || den == 0.0 then 0.0
      else Clamp(CoDev(x, y, Mean(x), Mean(y)) / den, -1.0, 1.0)
  }

  /** Correlation does not depend on the order of its arguments. */
  lemma CorrelationSymmetric(x: seq<real>, y: seq<real>, sqrt: real -> real)
    ensures Correlation(x, y, sqrt) == Correlation(y, x, sqrt)
  {
    if |x| == |y| && 2 <= |x| {
      CoDevSymmetric(x, y, Mean(x), Mean(y));
    }
  }

  // ------------------------------------------------------------ anomalies

  /** The anomaly mask: |z-score| above the threshold. Fewer than 3 points
      or a zero standard deviation flag nothing. */
  function DetectAnomalies(data: seq<real>, threshold: real, sqrt: real -> real): (r: seq<bool>)
    ensures |r| == |data|
    ensures |data| < 3 ==> forall i :: 0 <= i < |r| ==> !r[i]
    ensures 3 <= |data| && Std(data, sqrt) == 0.0 ==> forall i :: 0 <= i < |r| ==> !r[i]
    ensures 3 <= |data| && Std(data, sqrt) != 0.0 ==> forall i :: 0 <= i < |r| ==>
      (r[i] <==> threshold < Abs((data[i] - Mean(data)) / Std(data, sqrt)))
  {
    if |data| < 3 then seq(|data|, _ => false)
    else
      var m, sd := Mean(data), Std(data, sqrt);
      if sd == 0.0 then seq(|data|, _ => false)
      else seq(|data|, i requires 0 <= i < |data| => threshold < Abs((data[i] - m) / sd))
  }

  /** A constant series has no anomaly for any non-negative threshold,
      whatever square root is used. */
  lemma ConstantHasNoAnomalies(c: real, n: nat, threshold: real, sqrt: real -> real)
    requires 0.0 <= threshold
    ensures forall i :: 0 <= i < n ==> !DetectAnomalies(Const(c, n), threshold, sqrt)[i]
  {
    if 3 <= n {
      MeanConst(c, n);
    }
  }

  // ------------------------------------------------------ missing values

  /** The values that are present, in order. */
  function Present(data: seq<Option<real>>): (r: seq<real>)
    ensures |r| <= |data|
    ensures |r| == 0 <==> forall i :: 0 <= i < |data| ==> data[i].None?
  {
    if |data| == 0 then []
    else (if data[0].Some? then [data[0].value] else []) + Present(data[1..])
  }

  /** The last present position before `i`. */
  function PrevPresent(data: seq<Option<real>>, i: nat): (r: Option<nat>)
    requires i <= |data|
    ensures r.Some? ==> r.value < i && data[r.value].Some?
    ensures r.Some? ==> forall j :: r.value < j < i ==> data[j].None?
    ensures r.None? ==> forall j :: 0 <= j < i ==> data[j].None?
  {
    if i == 0 then None
    else if data[i - 1].Some? then Some(i - 1)
    else PrevPresent(data, i - 1)
  }

  /** The first present position after `i`. */
  function NextPresent(data: seq<Option<real>>, i: nat): (r: Option<nat>)
    requires i < |data|
    ensures r.Some? ==> i < r.value < |data| && data[r.value].Some?
    ensures r.Some? ==> forall j :: i < j < r.value ==> data[j].None?
    ensures r.None? ==> forall j :: i < j < |data| ==> data[j].None?
    decreases |data| - i
  {
    if i + 1 == |data| then None
    else if data[i + 1].Some? then Some(i + 1)
    else NextPresent(data, i + 1)
  }

  /** The point a fraction `num / den` of the way from `a` to `b`. */
  function Lerp(a: real, b: real, num: real, den: real): (r: real)
    requires 0.0 < num < den
    ensures Min2(a, b) <= r <= Max2(a, b)
  {
    var t := num / den;
    QuotientBetween(num, den, 0.0, 1.0);
    assert a + (b - a) * t == t * b + (1.0 - t) * a;
    Convex(t, b, a, Min2(a, b), Max2(a, b));
    a + (b - a) * t
  }

  /** `numpy.interp` at position `i` over the present positions: linear
      between the neighbouring present values, and the nearest present
      value beyond either end. */
  function Interpolate(data: seq<Option<real>>, i: nat): (r: real)
    requires i < |data| && |Present(data)| > 0
    ensures PrevPresent(data, i).Some? && NextPresent(data, i).Some? ==>
      var a, b := data[PrevPresent(data, i).value].value, data[NextPresent(data, i).value].value;
      Min2(a, b) <= r <= Max2(a, b)
  {
    var p, q := PrevPresent(data, i), NextPresent(data, i);
    if p.None? && q.None? then
      assert data[i].Some?;
      data[i].value
    else if p.None? then data[q.value].value
    else if q.None? then data[p.value].value
    else Lerp(data[p.value].value, data[q.value].value, (i - p.value) as real, (q.value - p.value) as real)
  }

  /** `fill_missing_values` as written. The forward and backward methods
      call into a library the source never imports, and linear
      interpolation with no present value has no sample points; both fail.
      The mean of no present values is NaN, which then fills every gap. */
  function FillMissingAsWritten(data: seq<Option<real>>, how: string): (r: Result<seq<Option<real>>>)
    ensures |data| == 0 ==> r == Success([])
    ensures (forall i :: 0 <= i < |data| ==> data[i].Some?) ==> r == Success(data)
    ensures r.Success? ==> |r.value| == |data|
    ensures r.Success? && (how == "linear" || how == "mean") ==>
      forall i :: 0 <= i < |data| && data[i].Some? ==> r.value[i] == data[i]
    ensures (exists i :: 0 <= i < |data| && data[i].None?) ==>
      (r.Failure? <==> how == "forward" || how == "backward" || (how == "linear" && |Present(data)| == 0))
    ensures r.Success? && how == "linear" ==>
      forall i :: 0 <= i < |data| && data[i].None? ==> r.value[i] == Some(Interpolate(data, i))
    ensures r.Success? && how == "mean" ==>
      forall i :: 0 <= i < |data| && data[i].None? ==> r.value[i] == MeanOpt(Present(data))
    ensures r.Success? && how != "linear" && how != "mean" ==> r.value == data
  {
    if |data| == 0 then Success([])
    else if forall i :: 0 <= i < |data| ==> data[i].Some? then Success(data)
    else if how == "linear" then
      if |Present(data)| == 0 then Failure(EmptySamplePoints)
      else Success(seq(|data|, i requires 0 <= i < |data| =>
        if data[i].Some? then data[i] else Some(Interpolate(data, i))))
    else if how == "forward" || how == "backward" then Failure(UndefinedName)
    else if how == "mean" then
      var m := MeanOpt(Present(data));
      Success(seq(|data|, i requires 0 <= i < |data| => if data[i].Some? then data[i] else m))
    else Success(data)
  }

  /** pandas `ffill`: each gap takes the value before it; a leading gap stays. */
  function FillForward(data: seq<Option<real>>): (r: seq<Option<real>>)
    ensures |r| == |data|
    ensures forall i :: 0 <= i < |data| && data[i].Some? ==> r[i] == data[i]
    ensures 0 < |data| ==> r[0] == data[0]
    ensures forall i :: 0 < i < |data| && data[i].None? ==> r[i] == r[i - 1]
  {
    if |data| == 0 then []
    else
      var n := |data|;
      var p := FillForward(data[..n - 1]);
      p + [if data[n - 1].Some? || n == 1 then data[n - 1] else p[n - 2]]
  }

  /** pandas `bfill`: each gap takes the value after it; a trailing gap stays. */
  function FillBackward(data: seq<Option<real>>): (r: seq<Option<real>>)
    ensures |r| == |data|
    ensures forall i :: 0 <= i < |data| && data[i].Some? ==> r[i] == data[i]
    ensures 0 < |data| ==> r[|data| - 1] == data[|data| - 1]
    ensures forall i :: 0 <= i < |data| - 1 && data[i].None? ==> r[i] == r[i + 1]
  {
    if |data| == 0 then []
    else
      var t := FillBackward(data[1..]);
      [if data[0].Some? || |data| == 1 then data[0] else t[0]] + t
  }

  /** A forward-filled gap holds the nearest present value before it, and
      stays a gap when there is none. */
  lemma {:induction false} ForwardFillTakesPrevious(data: seq<Option<real>>, i: nat)
    requires i < |data| && data[i].None?
    ensures var p := PrevPresent(data, i);
      FillForward(data)[i] == if p.Some? then data[p.value] else None
  {
    var r := FillForward(data);
    if 0 < i {
      if data[i - 1].None? {
        ForwardFillTakesPrevious(data, i - 1);
      }
    }
  }

  /** A backward-filled gap holds the nearest present value after it, and
      stays a gap when there is none. */
  lemma {:induction false} BackwardFillTakesNext(data: seq<Option<real>>, i: nat)
    requires i < |data| && data[i].None?
    ensures var q := NextPresent(data, i);
      FillBackward(data)[i] == if q.Some? then data[q.value] else None
    decreases |data| - i
  {
    var r := FillBackward(data);
    if i + 1 < |data| {
      if data[i + 1].None? {
        BackwardFillTakesNext(data, i + 1);
      }
    }
  }

  /** `fill_missing_values` with the forward and backward methods working
      as the source intends; only interpolation with no sample points
      still fails. */
  function FillMissing(data: seq<Option<real>>, how: string): (r: Result<seq<Option<real>>>)
    ensures r.Failure? <==> how == "linear" && |Present(data)| == 0 && exists i :: 0 <= i < |data| && data[i].None?
    ensures r.Success? ==> |r.value| == |data|
    ensures r.Success? ==> forall i :: 0 <= i < |data| && data[i].Some? ==> r.value[i] == data[i]
    ensures how == "forward" ==> r == Success(FillForward(data))
    ensures how == "backward" ==> r == Success(FillBackward(data))
    ensures how != "forward" && how != "backward" ==> r == FillMissingAsWritten(data, how)
  {
    if how == "forward" then Success(FillForward(data))
    else if how == "backward" then Success(FillBackward(data))
    else FillMissingAsWritten(data, how)
  }

  /** On a series with a gap the written forward fill fails where the
      corrected one carries the last value forward. */
  lemma ForwardFillFinding()
    ensures FillMissingAsWritten([Some(1.0), None], "forward") == Failure(UndefinedName)
    ensures FillMissing([Some(1.0), None], "forward") == Success([Some(1.0), Some(1.0)])
  {
    var d := [Some(1.0), None];
    var r := FillForward(d);
    assert d[1].None? && r[0] == Some(1.0) && r[1] == r[0];
    assert r == [Some(1.0), Some(1.0)];
  }

  /** Mean filling leaves no gap once at least one value is present. */
  lemma MeanFillCompletes(data: seq<Option<real>>)
    requires |Present(data)| > 0
    ensures var r := FillMissing(data, "mean");
      r.Success? && forall i :: 0 <= i < |data| ==> r.value[i].Some?
  {
  }
}

=== FILE: indicators.dfy ===
/** The technical indicator series: moving average, exponential moving
    average, RSI, MACD, Bollinger bands, ATR and the volume indicators.
    An undefined entry (numpy NaN) is `None`. */
module Indicators {
  import opened Wrappers
  import opened Numeric

  /** `[nan] * n`. */
  function Undefined(n: nat): (r: seq<Option<real>>)
    ensures |r| == n
    ensures forall i :: 0 <= i < n ==> r[i].None?
  {
    seq(n, _ => None)
  }

  /** A series of plain numbers viewed as a series that may hold NaN. */
  function Defined(s: seq<real>): (r: seq<Option<real>>)
    ensures |r| == |s|
    ensures forall i :: 0 <= i < |s| ==> r[i] == Some(s[i])
  {
    seq(|s|, i requires 0 <= i < |s| => Some(s[i]))
  }

  /** Python's `prices[i - period + 1 : i + 1]`: the window ending at `i`.
      It is empty when `period` is 0. */
  function Window(s: seq<real>, period: nat, i: nat): (w: seq<real>)
    requires i < |s| && period <= i + 1
    ensures |w| == period
  {
    s[i + 1 - period..i + 1]
  }

  // ------------------------------------------------------- moving average

  function MaAt(prices: seq<real>, period: nat, i: nat): Option<real>
    requires i < |prices|
  {
    if |prices| < period || i + 1 < period then None
    else MeanOpt(Window(prices, period, i))
  }

  /** The simple moving average. A window of length 0 has a NaN mean, so
      a period of 0 leaves every entry undefined. */
  function MovingAverage(prices: seq<real>, period: nat): (r: seq<Option<real>>)
    ensures |r| == |prices|
    ensures |prices| < period ==> forall i :: 0 <= i < |r| ==> r[i].None?
    ensures period == 0 ==> forall i :: 0 <= i < |r| ==> r[i].None?
    ensures forall i :: 0 <= i < |r| && i + 1 < period ==> r[i].None?
    ensures forall i :: 0 <= i < |r| && 1 <= period <= i + 1 ==>
      r[i] == Some(Mean(Window(prices, period, i)))
  {
    seq(|prices|, i requires 0 <= i < |prices| => MaAt(prices, period, i))
  }

  /** Every defined average lies between the extremes of its window. */
  lemma MovingAverageInWindow(prices: seq<real>, period: nat, i: nat)
    requires 1 <= period <= i + 1 && i < |prices|
    ensures var w := Window(prices, period, i);
      MovingAverage(prices, period)[i].Some? &&
      MinOf(w) <= MovingAverage(prices, period)[i].value <= MaxOf(w)
  {
    MeanBetween(Window(prices, period, i));
  }

  /** The moving average of a constant series is that constant wherever it
      is defined. */
  lemma MovingAverageOfConstant(c: real, n: nat, period: nat, i: nat)
    requires 1 <= period <= i + 1 && i < n
    ensures MovingAverage(Const(c, n), period)[i] == Some(c)
  {
    var w := Window(Const(c, n), period, i);
    assert w == Const(c, period);
    MeanConst(c, period);
  }

  // ---------------------------------------- exponential moving average

  /** The smoothing factor 2 / (period + 1). */
  function Alpha(period: nat): (a: real)
    ensures 1 <= period ==> 0.0 < a <= 1.0
  {
    var d := period as real + 1.0;
    assert 1 <= period ==> 2.0 / d <= 1.0 by {
      if 1 <= period {
        assert 2.0 <= d;
        QuotientBetween(2.0, d, 0.0, 1.0);
      }
    }
    2.0 / d
  }

  /** One EMA step; NaN in either operand makes the result NaN. */
  function EmaStep(alpha: real, price: Option<real>, prev: Option<real>): (r: Option<real>)
    ensures r.Some? <==> price.Some? && prev.Some?
  {
    if price.Some? && prev.Some? then Some(alpha * price.value + (1.0 - alpha) * prev.value)
    else None
  }

  function EmaPrefix(prices: seq<Option<real>>, alpha: real, n: nat): (r: seq<Option<real>>)
    requires 1 <= n <= |prices|
    ensures |r| == n
    ensures r[0] == prices[0]
    ensures forall i :: 1 <= i < n ==> r[i] == EmaStep(alpha, prices[i], r[i - 1])
  {
    if n == 1 then [prices[0]]
    else
      var prev := EmaPrefix(prices, alpha, n - 1);
      prev + [EmaStep(alpha, prices[n - 1], prev[n - 2])]
  }

  /** The exponential moving average, seeded with the first price. The
      source indexes `prices[0]`, so an empty series with period 0 is
      outside its domain. */
  function Ema(prices: seq<Option<real>>, period: nat): (r: seq<Option<real>>)
    requires 0 < |prices| || 0 < period
    ensures |r| == |prices|
    ensures |prices| < period ==> forall i :: 0 <= i < |r| ==> r[i].None?
    ensures period <= |prices| ==> r[0] == prices[0]
    ensures period <= |prices| ==>
      forall i :: 1 <= i < |r| ==> r[i] == EmaStep(Alpha(period), prices[i], r[i - 1])
  {
    if |prices| < period then Undefined(|prices|)
    else EmaPrefix(prices, Alpha(period), |prices|)
  }

  /** Once an undefined value enters the EMA every later value is undefined. */
  lemma {:induction false} EmaUndefinedSticks(prices: seq<Option<real>>, period: nat, k: nat, i: nat)
    requires 0 < |prices| || 0 < period
    requires k <= i < |prices| && prices[k].None?
    ensures Ema(prices, period)[i].None?
  {
    var r := Ema(prices, period);
    if period <= |prices| && k < i {
      EmaUndefinedSticks(prices, period, k, i - 1);
      assert r[i] == EmaStep(Alpha(period), prices[i], r[i - 1]);
    } else if period <= |prices| && 0 < i {
      assert r[i] == EmaStep(Alpha(period), prices[i], r[i - 1]);
    }
  }

  /** With a period of at least 1 every EMA value of a fully defined series
      lies within any bounds the prices respect. */
  lemma {:induction false} EmaWithin(prices: seq<Option<real>>, period: nat, lo: real, hi: real, i: nat)
    requires 1 <= period <= |prices| && i < |prices|
    requires forall j :: 0 <= j < |prices| ==> prices[j].Some? && lo <= prices[j].value <= hi
    ensures var r := Ema(prices, period); r[i].Some? && lo <= r[i].value <= hi
  {
    var r := Ema(prices, period);
    if 0 < i {
      EmaWithin(prices, period, lo, hi, i - 1);
      assert r[i] == EmaStep(Alpha(period), prices[i], r[i - 1]);
      Convex(Alpha(period), prices[i].value, r[i - 1].value, lo, hi);
    }
  }

  // ---------------------------------------------------------------- RSI

  /** The first differences `numpy.diff(prices)`. */
  function Diffs(prices: seq<real>): (d: seq<real>)
    ensures |d| == if |prices| == 0 then 0 else |prices| - 1
    ensures forall j :: 0 <= j < |d| ==> d[j] == prices[j + 1] - prices[j]
  {
    if |prices| == 0 then []
    else seq(|prices| - 1, j requires 0 <= j < |prices| - 1 => prices[j + 1] - prices[j])
  }

  function Gain(d: real): (r: real)
    ensures 0.0 <= r && (0.0 < d ==> r == d) && (d <= 0.0 ==> r == 0.0)
  {
    if d > 0.0 then d else 0.0
  }

  function Loss(d: real): (r: real)
    ensures 0.0 <= r && (d < 0.0 ==> r == -d) && (0.0 <= d ==> r == 0.0)
  {
    if d < 0.0 then -d else 0.0
  }

  /** Sum of the non-negative differences. */
  function Gains(d: seq<real>): (r: real)
    ensures 0.0 <= r
  {
    if |d| == 0 then 0.0 else Gain(d[0]) + Gains(d[1..])
  }

  /** Sum of the magnitudes of the negative differences. */
  function Losses(d: seq<real>): (r: real)
    ensures 0.0 <= r
  {
    if |d| == 0 then 0.0 else Loss(d[0]) + Losses(d[1..])
  }

  lemma {:induction false} LossesOfRising(d: seq<real>)
    requires forall j :: 0 <= j < |d| ==> 0.0 <= d[j]
    ensures Losses(d) == 0.0
  {
    if |d| > 0 {
      LossesOfRising(d[1..]);
    }
  }

  lemma {:induction false} GainsOfFalling(d: seq<real>)
    requires forall j :: 0 <= j < |d| ==> d[j] <= 0.0
    ensures Gains(d) == 0.0
  {
    if |d| > 0 {
      GainsOfFalling(d[1..]);
    }
  }

  /** Wilder smoothing: `(avg * (period - 1) + x) / period`. */
  function Smooth(avg: real, x: real, period: nat): (r: real)
    requires 1 <= period
    ensures 0.0 <= avg && 0.0 <= x ==> 0.0 <= r
    ensures avg == 0.0 && x == 0.0 ==> r == 0.0
  {
    var n := period as real;
    assert 0.0 <= avg && 0.0 <= x ==> 0.0 <= (avg * (n - 1.0) + x) / n by {
      if 0.0 <= avg && 0.0 <= x {
        ProductNonneg(avg, n - 1.0);
      }
    }
    (avg * (n - 1.0) + x) / n
  }

  datatype Averages = Averages(up: real, down: real)

  /** The seed window of the source: the first `period + 1` differences
      (or all of them when there are fewer). */
  function Seed(prices: seq<real>, period: nat): (s: seq<real>)
    requires period + 1 <= |prices|
    ensures |s| == if period + 1 <= |prices| - 1 then period + 1 else |prices| - 1
    ensures forall j :: 0 <= j < |s| ==> s[j] == prices[j + 1] - prices[j]
  {
    var d := Diffs(prices);
    if period + 1 <= |d| then d[..period + 1] else d
  }

  /** The seed averages: gains and losses of the seed window over `period`. */
  function SeedAverages(prices: seq<real>, period: nat): (a: Averages)
    requires 1 <= period && period + 1 <= |prices|
    ensures 0.0 <= a.up && 0.0 <= a.down
  {
    var s := Seed(prices, period);
    var n := period as real;
    QuotientNonneg(Gains(s), n);
    QuotientNonneg(Losses(s), n);
    Averages(Gains(s) / n, Losses(s) / n)
  }

  /** `x / n` is `x` in units of `n`. */
  lemma QuotientRatio(x: real, n: real)
    requires 0.0 < n
    ensures IsRatio(x / n, n, x)
  {
    ShareTimes(x / n, x, n);
  }

  /** The seed averages are the seed window's gains and losses divided by
      the period (not by the window's length). */
  lemma SeedAveragesOverPeriod(prices: seq<real>, period: nat)
    requires 1 <= period && period + 1 <= |prices|
    ensures IsRatio(SeedAverages(prices, period).up, period as real, Gains(Seed(prices, period)))
    ensures IsRatio(SeedAverages(prices, period).down, period as real, Losses(Seed(prices, period)))
  {
    QuotientRatio(Gains(Seed(prices, period)), period as real);
    QuotientRatio(Losses(Seed(prices, period)), period as real);
  }

  /** One smoothing step on the gain and the loss of difference `d`. */
  function SmoothAverages(prev: Averages, d: real, period: nat): (a: Averages)
    requires 1 <= period && 0.0 <= prev.up && 0.0 <= prev.down
    ensures 0.0 <= a.up && 0.0 <= a.down
  {
    Averages(Smooth(prev.up, Gain(d), period), Smooth(prev.down, Loss(d), period))
  }

  /** The average gain and loss in force at position `i` (from `period - 1`
      on): the seed averages, then one smoothing step per later price. */
  function AveragesAt(prices: seq<real>, period: nat, i: nat): (a: Averages)
    requires 1 <= period && period + 1 <= |prices| && period - 1 <= i < |prices|
    ensures 0.0 <= a.up && 0.0 <= a.down
    decreases i
  {
    if i < period then SeedAverages(prices, period)
    else SmoothAverages(AveragesAt(prices, period, i - 1), prices[i] - prices[i - 1], period)
  }

  /** `100 - 100 / (1 + rs)`, with rs = 0 when the average loss is 0. */
  function RsiValue(a: Averages): (r: real)
    requires 0.0 <= a.up && 0.0 <= a.down
    ensures 0.0 <= r < 100.0
    ensures a.down == 0.0 ==> r == 0.0
    ensures a.up == 0.0 ==> r == 0.0
    ensures 0.0 < a.up && 0.0 < a.down ==> 0.0 < r
  {
    var rs := if a.down == 0.0 then 0.0 else a.up / a.down;
    assert 0.0 <= rs by {
      if a.down != 0.0 { QuotientBetween(a.up, a.down, 0.0, a.up / a.down); }
    }
    assert 0.0 < a.up && 0.0 < a.down ==> 0.0 < rs by {
      if 0.0 < a.up && 0.0 < a.down {
        assert rs * a.down == a.up;
      }
    }
    var q := 100.0 / (1.0 + rs);
    assert 0.0 < q <= 100.0 by {
      QuotientBetween(100.0, 1.0 + rs, 0.0, 100.0);
      assert q * (1.0 + rs) == 100.0;
    }
    assert 0.0 < rs ==> q < 100.0 by {
      if 0.0 < rs {
        assert q * (1.0 + rs) == 100.0;
        assert q + q * rs == 100.0;
        ProductNonneg(q, rs);
        assert q * rs != 0.0;
      }
    }
    100.0 - q
  }

  /** The RSI at position `i`; positions before `period` share the seed. */
  function RsiAt(prices: seq<real>, period: nat, i: nat): (r: real)
    requires 1 <= period && period + 1 <= |prices| && i < |prices|
    ensures 0.0 <= r < 100.0
  {
    RsiValue(AveragesAt(prices, period, if i < period then period - 1 else i))
  }

  /** The relative strength index. It is undefined everywhere for fewer
      than `period + 1` prices; otherwise the first `period` entries all
      carry the seed value. */
  function Rsi(prices: seq<real>, period: nat): (r: seq<Option<real>>)
    requires 1 <= period
    ensures |r| == |prices|
    ensures |prices| < period + 1 ==> forall i :: 0 <= i < |r| ==> r[i].None?
    ensures period + 1 <= |prices| ==>
      forall i :: 0 <= i < |r| ==> r[i].Some? && 0.0 <= r[i].value < 100.0
    ensures period + 1 <= |prices| ==> forall i :: 0 <= i < period ==> r[i] == r[period - 1]
  {
    if |prices| < period + 1 then Undefined(|prices|)
    else seq(|prices|, i requires 0 <= i < |prices| => Some(RsiAt(prices, period, i)))
  }

  lemma {:induction false} NoLossesStayZero(prices: seq<real>, period: nat, i: nat)
    requires 1 <= period && period + 1 <= |prices| && period - 1 <= i < |prices|
    requires forall j :: 0 <= j < |prices| - 1 ==> prices[j] <= prices[j + 1]
    ensures AveragesAt(prices, period, i).down == 0.0
  {
    if i < period {
      SeedOfRisingHasNoLoss(prices, period);
    } else {
      NoLossesStayZero(prices, period, i - 1);
      var d := prices[i] - prices[i - 1];
      assert Loss(d) == 0.0;
      assert AveragesAt(prices, period, i) == SmoothAverages(AveragesAt(prices, period, i - 1), d, period);
    }
  }

  lemma SeedOfRisingHasNoLoss(prices: seq<real>, period: nat)
    requires 1 <= period && period + 1 <= |prices|
    requires forall j :: 0 <= j < |prices| - 1 ==> prices[j] <= prices[j + 1]
    ensures SeedAverages(prices, period).down == 0.0
  {
    var s := Seed(prices, period);
    assert forall j :: 0 <= j < |s| ==> 0.0 <= s[j];
    LossesOfRising(s);
    ZeroQuotient(Losses(s), period as real);
  }

  lemma {:induction false} NoGainsStayZero(prices: seq<real>, period: nat, i: nat)
    requires 1 <= period && period + 1 <= |prices| && period - 1 <= i < |prices|
    requires forall j :: 0 <= j < |prices| - 1 ==> prices[j + 1] <= prices[j]
    ensures AveragesAt(prices, period, i).up == 0.0
  {
    if i < period {
      SeedOfFallingHasNoGain(prices, period);
    } else {
      NoGainsStayZero(prices, period, i - 1);
      var d := prices[i] - prices[i - 1];
      assert Gain(d) == 0.0;
      assert AveragesAt(prices, period, i) == SmoothAverages(AveragesAt(prices, period, i - 1), d, period);
    }
  }

  lemma SeedOfFallingHasNoGain(prices: seq<real>, period: nat)
    requires 1 <= period && period + 1 <= |prices|
    requires forall j :: 0 <= j < |prices| - 1 ==> prices[j + 1] <= prices[j]
    ensures SeedAverages(prices, period).up == 0.0
  {
    var s := Seed(prices, period);
    assert forall j :: 0 <= j < |s| ==> s[j] <= 0.0;
    GainsOfFalling(s);
    ZeroQuotient(Gains(s), period as real);
  }

  /** Because rs is taken as 0 when there are no losses, a series that
      never falls has an RSI of 0 throughout, not 100. */
  lemma RsiOfNonFallingSeries(prices: seq<real>, period: nat, i: nat)
    requires 1 <= period && period + 1 <= |prices| && i < |prices|
    requires forall j :: 0 <= j < |prices| - 1 ==> prices[j] <= prices[j + 1]
    ensures Rsi(prices, period)[i] == Some(0.0)
  {
    NoLossesStayZero(prices, period, if i < period then period - 1 else i);
    assert Rsi(prices, period)[i] == Some(RsiAt(prices, period, i));
  }

  /** A series that never rises has an RSI of 0 throughout as well. */
  lemma RsiOfNonRisingSeries(prices: seq<real>, period: nat, i: nat)
    requires 1 <= period && period + 1 <= |prices| && i < |prices|
    requires forall j :: 0 <= j < |prices| - 1 ==> prices[j + 1] <= prices[j]
    ensures Rsi(prices, period)[i] == Some(0.0)
  {
    NoGainsStayZero(prices, period, if i < period then period - 1 else i);
    assert Rsi(prices, period)[i] == Some(RsiAt(prices, period, i));
  }

  // --------------------------------------------------------------- MACD

  /** Difference of two possibly undefined values. */
  function OptSub(a: Option<real>, b: Option<real>): (r: Option<real>)
    ensures r.Some? <==> a.Some? && b.Some?
    ensures r.Some? ==> r.value + b.value == a.value
  {
    if a.Some? && b.Some? then Some(a.value - b.value) else None
  }

  function ZipSub(a: seq<Option<real>>, b: seq<Option<real>>): (r: seq<Option<real>>)
    requires |a| == |b|
    ensures |r| == |a|
    ensures forall i :: 0 <= i < |r| ==> r[i] == OptSub(a[i], b[i])
  {
    seq(|a|, i requires 0 <= i < |a| => OptSub(a[i], b[i]))
  }

  datatype Macd = Macd(line: seq<Option<real>>, signal: seq<Option<real>>, histogram: seq<Option<real>>)

  function MacdOf(prices: seq<real>, fast: nat, slow: nat, signalPeriod: nat): (m: Macd)
    requires 0 < |prices| || (0 < fast && 0 < slow && 0 < signalPeriod)
    ensures |m.line| == |prices| && |m.signal| == |prices| && |m.histogram| == |prices|
    ensures forall i :: 0 <= i < |prices| ==>
      m.line[i] == OptSub(Ema(Defined(prices), fast)[i], Ema(Defined(prices), slow)[i])
    ensures m.signal == Ema(m.line, signalPeriod)
    ensures forall i :: 0 <= i < |prices| ==> m.histogram[i] == OptSub(m.line[i], m.signal[i])
  {
    var p := Defined(prices);
    var line := ZipSub(Ema(p, fast), Ema(p, slow));
    var signal := Ema(line, signalPeriod);
    Macd(line, signal, ZipSub(line, signal))
  }

  lemma {:induction false} EmaDefined(prices: seq<Option<real>>, period: nat, i: nat)
    requires period <= |prices| && i < |prices|
    requires forall j :: 0 <= j < |prices| ==> prices[j].Some?
    ensures Ema(prices, period)[i].Some?
  {
    var r := Ema(prices, period);
    if 0 < i {
      EmaDefined(prices, period, i - 1);
      assert r[i] == EmaStep(Alpha(period), prices[i], r[i - 1]);
    }
  }

  /** The MACD line is defined exactly when the series is at least as long
      as both periods, and the histogram exactly when it is also at least
      as long as the signal period. */
  lemma MacdDefinedness(prices: seq<real>, fast: nat, slow: nat, signalPeriod: nat, i: nat)
    requires 0 < |prices| || (0 < fast && 0 < slow && 0 < signalPeriod)
    requires i < |prices|
    ensures var m := MacdOf(prices, fast, slow, signalPeriod);
      m.line[i].Some? <==> fast <= |prices| && slow <= |prices|
    ensures var m := MacdOf(prices, fast, slow, signalPeriod);
      m.histogram[i].Some? <==> fast <= |prices| && slow <= |prices| && signalPeriod <= |prices|
  {
    var m := MacdOf(prices, fast, slow, signalPeriod);
    var p := Defined(prices);
    if fast <= |prices| && slow <= |prices| {
      forall j | 0 <= j < |prices| ensures m.line[j].Some? {
        EmaDefined(p, fast, j);
        EmaDefined(p, slow, j);
      }
      if signalPeriod <= |prices| {
        EmaDefined(m.line, signalPeriod, i);
      }
    } else {
      assert m.line[0].None?;
      EmaUndefinedSticks(m.line, signalPeriod, 0, i);
    }
  }

  // ---------------------------------------------------------- Bollinger

  /** `mid + k * std`, undefined when either operand is. */
  function Offset(mid: Option<real>, k: real, std: Option<real>): (r: Option<real>)
    ensures r.Some? <==> mid.Some? && std.Some?
  {
    if mid.Some? && std.Some? then Some(mid.value + k * std.value) else None
  }

  function WindowStd(prices: seq<real>, period: nat, i: nat, sqrt: real -> real): Option<real>
    requires i < |prices|
  {
    if i + 1 < period then None else StdOpt(Window(prices, period, i), sqrt)
  }

  datatype Bollinger = Bollinger(middle: seq<Option<real>>, upper: seq<Option<real>>, lower: seq<Option<real>>)

  /** Bollinger bands: the moving average plus and minus `numStd` population
      standard deviations of the same window. */
  function BollingerBands(prices: seq<real>, period: nat, numStd: real, sqrt: real -> real): (b: Bollinger)
    ensures b.middle == MovingAverage(prices, period)
    ensures |b.upper| == |prices| && |b.lower| == |prices|
    ensures forall i :: 0 <= i < |prices| && i + 1 < period ==> b.upper[i].None? && b.lower[i].None?
    ensures forall i :: 0 <= i < |prices| ==>
      (b.upper[i].Some? <==> b.middle[i].Some?) && (b.lower[i].Some? <==> b.middle[i].Some?)
    ensures forall i :: 0 <= i < |prices| && b.middle[i].Some? ==>
      b.upper[i].value - b.middle[i].value == b.middle[i].value - b.lower[i].value
    ensures forall i :: 0 <= i < |prices| && b.middle[i].Some? ==>
      1 <= period <= i + 1 &&
      b.upper[i].value == b.middle[i].value + numStd * sqrt(Variance(Window(prices, period, i))) &&
      b.lower[i].value == b.middle[i].value - numStd * sqrt(Variance(Window(prices, period, i)))
  {
    var ma := MovingAverage(prices, period);
    var upper := seq(|prices|, i requires 0 <= i < |prices| =>
      Offset(ma[i], numStd, WindowStd(prices, period, i, sqrt)));
    var lower := seq(|prices|, i requires 0 <= i < |prices| =>
      Offset(ma[i], -numStd, WindowStd(prices, period, i, sqrt)));
    Bollinger(ma, upper, lower)
  }

  /** With a proper square root and a non-negative width the upper band is
      never below the middle band, nor the lower band above it. */
  lemma BollingerOrdered(prices: seq<real>, period: nat, numStd: real, sqrt: real -> real, i: nat)
    requires IsSqrt(sqrt) && 0.0 <= numStd && i < |prices|
    ensures var b := BollingerBands(prices, period, numStd, sqrt);
      b.middle[i].Some? ==> b.lower[i].value <= b.middle[i].value <= b.upper[i].value
  {
    var b := BollingerBands(prices, period, numStd, sqrt);
    if b.middle[i].Some? {
      var s := WindowStd(prices, period, i, sqrt);
      assert 0.0 <= s.value;
      ProductNonneg(numStd, s.value);
    }
  }

  // ---------------------------------------------------------------- ATR

  /** The true range of a bar: the largest of high - low and the distances
      of the high and the low from the previous close. */
  function TrueRange(high: real, low: real, prevClose: real): (r: real)
    ensures high - low <= r && 0.0 <= r
    ensures r == high - low || r == Abs(high - prevClose) || r == Abs(low - prevClose)
  {
    Max2(Max2(high - low, Abs(high - prevClose)), Abs(low - prevClose))
  }

  /** True ranges from the second bar on; a single bar reads nothing else. */
  function TrueRanges(highs: seq<real>, lows: seq<real>, closes: seq<real>): (tr: seq<real>)
    requires 2 <= |highs| ==> |highs| <= |lows| && |highs| <= |closes| + 1
    ensures |tr| == if |highs| == 0 then 0 else |highs| - 1
    ensures forall j :: 0 <= j < |tr| ==> tr[j] == TrueRange(highs[j + 1], lows[j + 1], closes[j])
  {
    if |highs| <= 1 then []
    else seq(|highs| - 1, j requires 0 <= j < |highs| - 1 => TrueRange(highs[j + 1], lows[j + 1], closes[j]))
  }

  /** The smoothed ATR after true range `k` (from `period - 1` on). */
  function AtrAt(tr: seq<real>, period: nat, k: nat): (a: real)
    requires 1 <= period <= |tr| && period - 1 <= k < |tr|
    decreases k
  {
    if k < period then Mean(tr[..period])
    else Smooth(AtrAt(tr, period, k - 1), tr[k], period)
  }

  /** The defined part of the ATR series: one value per true range from
      index `period - 1` on. */
  function AtrTail(tr: seq<real>, period: nat): (r: seq<Option<real>>)
    requires 1 <= period <= |tr|
    ensures |r| == |tr| - period + 1
    ensures forall j :: 0 <= j < |r| ==> r[j] == Some(AtrAt(tr, period, period - 1 + j))
    ensures r[0] == Some(Mean(tr[..period]))
    ensures forall j :: 0 < j < |r| ==> r[j].Some? && r[j] == Some(Smooth(r[j - 1].value, tr[period - 1 + j], period))
  {
    seq(|tr| - period + 1, j requires 0 <= j < |tr| - period + 1 => Some(AtrAt(tr, period, period - 1 + j)))
  }

  /** The average true range. A series shorter than the period is all
      undefined before any other input is read, and a single bar reads no
      other input either; otherwise the source reads `lows[i]` and
      `closes[i-1]` for every bar after the first, which is what the
      length requirement says. A period below 1 divides by zero in the
      source. */
  function Atr(highs: seq<real>, lows: seq<real>, closes: seq<real>, period: nat): (r: seq<Option<real>>)
    requires 1 <= period
    requires period <= |highs| && 2 <= |highs| ==> |highs| <= |lows| && |highs| <= |closes| + 1
    ensures |highs| < period ==> r == Undefined(|highs|)
    ensures period <= |highs| ==> |r| == if period + 1 <= |highs| then |highs| else period + 1
    ensures period <= |highs| ==> forall i :: 0 <= i < period ==> r[i].None?
    ensures period + 1 <= |highs| ==> forall i :: period <= i < |r| ==> r[i].Some?
    ensures period + 1 <= |highs| ==> r[period] == Some(Mean(TrueRanges(highs, lows, closes)[..period]))
  {
    if |highs| < period then Undefined(|highs|)
    else
      var tr := TrueRanges(highs, lows, closes);
      if |tr| < period then Undefined(period) + [MeanOpt(tr)]
      else Undefined(period) + AtrTail(tr, period)
  }

  /** A single bar with period 1 gives two NaN values, whatever the lows
      and closes are: the mean of no true ranges is NaN. */
  lemma AtrOfOneBar(high: real, lows: seq<real>, closes: seq<real>)
    ensures Atr([high], lows, closes, 1) == [None, None]
  {
    assert TrueRanges([high], lows, closes) == [];
  }

  /** After the first defined value each ATR is the previous one smoothed
      with the next true range. */
  lemma AtrRecurrence(highs: seq<real>, lows: seq<real>, closes: seq<real>, period: nat, i: nat)
    requires 1 <= period && period + 1 <= |highs|
    requires |highs| <= |lows| && |highs| <= |closes| + 1
    requires period < i < |highs|
    ensures var r := Atr(highs, lows, closes, period);
      r[i].Some? && r[i - 1].Some? &&
      r[i].value == Smooth(r[i - 1].value, TrueRanges(highs, lows, closes)[i - 1], period)
  {
    var tr := TrueRanges(highs, lows, closes);
    var r := Atr(highs, lows, closes, period);
    assert r[i] == AtrTail(tr, period)[i - period];
    assert r[i - 1] == AtrTail(tr, period)[i - 1 - period];
  }

  lemma {:induction false} AtrAtNonneg(tr: seq<real>, period: nat, k: nat)
    requires 1 <= period <= |tr| && period - 1 <= k < |tr|
    requires forall j :: 0 <= j < |tr| ==> 0.0 <= tr[j]
    ensures 0.0 <= AtrAt(tr, period, k)
  {
    if k < period {
      MeanWithin(tr[..period], 0.0, MaxOf(tr[..period]));
    } else {
      AtrAtNonneg(tr, period, k - 1);
    }
  }

  /** Every defined ATR value is non-negative. */
  lemma AtrNonneg(highs: seq<real>, lows: seq<real>, closes: seq<real>, period: nat, i: nat)
    requires 1 <= period
    requires period <= |highs| && 2 <= |highs| ==> |highs| <= |lows| && |highs| <= |closes| + 1
    requires i < |Atr(highs, lows, closes, period)|
    ensures var r := Atr(highs, lows, closes, period); r[i].Some? ==> 0.0 <= r[i].value
  {
    if period <= |highs| && 2 <= |highs| {
      AtrNonnegLong(highs, lows, closes, period, i);
    } else if period <= |highs| {
      assert highs == [highs[0]];
      AtrOfOneBar(highs[0], lows, closes);
    }
  }

  /** The same for a series of at least one period and two bars. */
  lemma AtrNonnegLong(highs: seq<real>, lows: seq<real>, closes: seq<real>, period: nat, i: nat)
    requires 1 <= period <= |highs| && 2 <= |highs|
    requires |highs| <= |lows| && |highs| <= |closes| + 1
    requires i < |Atr(highs, lows, closes, period)|
    ensures var r := Atr(highs, lows, closes, period); r[i].Some? ==> 0.0 <= r[i].value
  {
    var r := Atr(highs, lows, closes, period);
    if r[i].Some? {
      var tr := TrueRanges(highs, lows, closes);
      TrueRangesNonneg(highs, lows, closes);
      AtrValueAt(highs, lows, closes, period, i);
      if |tr| < period {
        MeanWithin(tr, 0.0, MaxOf(tr));
      } else {
        AtrAtNonneg(tr, period, i - 1);
      }
    }
  }

  /** Which value a defined ATR entry holds: the mean of the few true
      ranges there are, or the smoothed value after true range `i - 1`. */
  lemma AtrValueAt(highs: seq<real>, lows: seq<real>, closes: seq<real>, period: nat, i: nat)
    requires 1 <= period <= |highs|
    requires 2 <= |highs| ==> |highs| <= |lows| && |highs| <= |closes| + 1
    requires i < |Atr(highs, lows, closes, period)| && Atr(highs, lows, closes, period)[i].Some?
    ensures var tr := TrueRanges(highs, lows, closes);
      (0 < |tr| < period && Atr(highs, lows, closes, period)[i] == Some(Mean(tr))) ||
      (period <= |tr| && period <= i && Atr(highs, lows, closes, period)[i] == Some(AtrAt(tr, period, i - 1)))
  {
    var tr := TrueRanges(highs, lows, closes);
    if period <= |tr| {
      assert Atr(highs, lows, closes, period)[i] == AtrTail(tr, period)[i - period];
    }
  }

  lemma TrueRangesNonneg(highs: seq<real>, lows: seq<real>, closes: seq<real>)
    requires 2 <= |highs| ==> |highs| <= |lows| && |highs| <= |closes| + 1
    ensures forall j :: 0 <= j < |TrueRanges(highs, lows, closes)| ==> 0.0 <= TrueRanges(highs, lows, closes)[j]
  {
  }

  // --------------------------------------------------- volume indicators

  /** `ratio` is `x` measured in units of `base`. */
  predicate IsRatio(ratio: real, base: real, x: real) {
    ratio * base == x
  }

  /** The volume's ratio to its moving average; undefined before the first
      full window or where the average is undefined or zero. */
  function VolumeRatioAt(volume: int, vma: Option<real>, period: nat, i: nat): (r: Option<real>)
    ensures r.Some? ==> period <= i + 1 && vma.Some? && IsRatio(r.value, vma.value, volume as real)
  {
    if i + 1 < period || vma.None? || vma.value == 0.0 then None
    else Some(volume as real / vma.value)
  }

  /** On-balance volume as the source simplifies it: a running total of
      every volume after the first, starting from 0. */
  function Obv(volumes: seq<int>): (r: seq<int>)
    ensures |r| == if |volumes| == 0 then 1 else |volumes|
    ensures r[0] == 0
    ensures forall i :: 1 <= i < |volumes| ==> r[i] == r[i - 1] + volumes[i]
  {
    if |volumes| <= 1 then [0]
    else
      var prev := Obv(volumes[..|volumes| - 1]);
      assert forall i :: 1 <= i < |volumes| - 1 ==> volumes[..|volumes| - 1][i] == volumes[i];
      prev + [prev[|volumes| - 2] + volumes[|volumes| - 1]]
  }

  /** With non-negative volumes OBV never decreases. */
  lemma {:induction false} ObvNondecreasing(volumes: seq<int>, i: nat, j: nat)
    requires forall k :: 0 <= k < |volumes| ==> 0 <= volumes[k]
    requires i <= j < |Obv(volumes)|
    ensures Obv(volumes)[i] <= Obv(volumes)[j]
  {
    if i < j {
      ObvNondecreasing(volumes, i, j - 1);
    }
  }

  function Reals(s: seq<int>): (r: seq<real>)
    ensures |r| == |s|
    ensures forall i :: 0 <= i < |s| ==> r[i] == s[i] as real
  {
    seq(|s|, i requires 0 <= i < |s| => s[i] as real)
  }

  function VolumeRatios(volumes: seq<int>, vma: seq<Option<real>>, period: nat): (r: seq<Option<real>>)
    requires |vma| == |volumes|
    ensures |r| == |volumes|
    ensures forall i :: 0 <= i < |volumes| && i + 1 < period ==> r[i].None?
    ensures forall i :: 0 <= i < |volumes| && r[i].Some? ==>
      vma[i].Some? && IsRatio(r[i].value, vma[i].value, volumes[i] as real)
    ensures forall i :: 0 <= i < |volumes| ==>
      (r[i].Some? <==> period <= i + 1 && vma[i].Some? && vma[i].value != 0.0)
  {
    seq(|volumes|, i requires 0 <= i < |volumes| => VolumeRatioAt(volumes[i], vma[i], period, i))
  }

  datatype VolumeIndicators = VolumeIndicators(vma: seq<Option<real>>, volumeRatio: seq<Option<real>>, obv: seq<int>)

  /** The volume indicators of one series: the moving average of the
      volumes, each volume's ratio to that average (defined exactly where
      the average is defined and non-zero) and the running OBV total. */
  function VolumeIndicatorsOf(volumes: seq<int>, period: nat): (v: VolumeIndicators)
    ensures v.vma == MovingAverage(Reals(volumes), period)
    ensures v.volumeRatio == VolumeRatios(volumes, v.vma, period)
    ensures v.obv == Obv(volumes)
    ensures |v.vma| == |volumes| && |v.volumeRatio| == |volumes|
    ensures |v.obv| == if |volumes| == 0 then 1 else |volumes|
    ensures forall i :: 0 <= i < |volumes| && 1 <= period <= i + 1 ==>
      v.vma[i] == Some(Mean(Window(Reals(volumes), period, i)))
    ensures forall i :: 0 <= i < |volumes| && v.volumeRatio[i].Some? ==>
      v.vma[i].Some? && IsRatio(v.volumeRatio[i].value, v.vma[i].value, volumes[i] as real)
    ensures forall i :: 0 <= i < |volumes| ==>
      (v.volumeRatio[i].Some? <==> period <= i + 1 && v.vma[i].Some? && v.vma[i].value != 0.0)
    ensures v.obv[0] == 0 && forall i :: 1 <= i < |volumes| ==> v.obv[i] == v.obv[i - 1] + volumes[i]
  {
    var vma := MovingAverage(Reals(volumes), period);
    var ratio := VolumeRatios(volumes, vma, period);
    VolumeIndicators(vma, ratio, Obv(volumes))
  }
}

=== FILE: numeric.dfy ===
/** Scalar helpers and sequence statistics shared by every component:
    Python's `min`/`max` on two numbers, the `min(max(x, 0), 100)` clamp,
    Python truthiness of a nullable number, `int()` truncation, and the
    numpy reductions `sum`, `mean`, `min`, `max`, `var` and `std`. */
module Numeric {
  import opened Wrappers

  function Min2(a: real, b: real): (r: real)
    ensures r <= a && r <= b
    ensures r == a || r == b
  {
    if a <= b then a else b
  }

  function Max2(a: real, b: real): (r: real)
    ensures a <= r && b <= r
    ensures r == a || r == b
  {
    if a >= b then a else b
  }

  function Abs(x: real): (r: real)
    ensures 0.0 <= r && (r == x || r == -x)
  {
    if x < 0.0 then -x else x
  }

  /** `min(max(x, lo), hi)`: the clamp every score applies before it is returned. */
  function Clamp(x: real, lo: real, hi: real): (r: real)
    requires lo <= hi
    ensures lo <= r <= hi
    ensures lo <= x <= hi ==> r == x
    ensures x < lo ==> r == lo
    ensures hi < x ==> r == hi
  {
    Min2(Max2(x, lo), hi)
  }

  lemma ClampMonotone(x: real, y: real, lo: real, hi: real)
    requires lo <= hi && x <= y
    ensures Clamp(x, lo, hi) <= Clamp(y, lo, hi)
  {
  }

  /** Python truthiness of a nullable number: NULL and 0 are both false. */
  predicate Truthy(o: Option<real>) {
    o.Some? && o.value != 0.0
  }

  predicate TruthyInt(o: Option<int>) {
    o.Some? && o.value != 0
  }

  /** Python `int(x)` on a float: truncation toward zero. */
  function Trunc(x: real): (r: int)
    ensures 0.0 <= x ==> 0 <= r && r as real <= x < r as real + 1.0
    ensures x < 0.0 ==> r <= 0 && x <= r as real < x + 1.0
  {
    if 0.0 <= x then x.Floor else -((-x).Floor)
  }

  /** The sequence `[c] * n`. */
  function Const(c: real, n: nat): (s: seq<real>)
    ensures |s| == n
    ensures forall i :: 0 <= i < n ==> s[i] == c
  {
    seq(n, _ => c)
  }

  function Sum(s: seq<real>): real {
    if |s| == 0 then 0.0 else s[0] + Sum(s[1..])
  }

  lemma {:induction false} SumAppend(a: seq<real>, b: seq<real>)
    ensures Sum(a + b) == Sum(a) + Sum(b)
  {
    if |a| == 0 {
      assert a + b == b;
    } else {
      assert (a + b)[1..] == a[1..] + b;
      SumAppend(a[1..], b);
    }
  }

  /** Summing from the back gives the same total as summing from the front. */
  lemma SumSnoc(s: seq<real>, x: real)
    ensures Sum(s + [x]) == Sum(s) + x
  {
    SumAppend(s, [x]);
    assert Sum([x]) == x + Sum([]);
  }

  lemma {:induction false} SumNonneg(s: seq<real>)
    requires forall i :: 0 <= i < |s| ==> 0.0 <= s[i]
    ensures 0.0 <= Sum(s)
  {
    if |s| > 0 {
      SumNonneg(s[1..]);
    }
  }

  lemma {:induction false} SumConst(c: real, n: nat)
    ensures Sum(Const(c, n)) == n as real * c
  {
    if n > 0 {
      assert Const(c, n)[1..] == Const(c, n - 1);
      SumConst(c, n - 1);
    }
  }

  /** numpy `mean` of a non-empty sequence. */
  function Mean(s: seq<real>): real
    requires |s| > 0
  {
    Sum(s) / |s| as real
  }

  /** numpy `mean`, which is NaN (here `None`) on an empty sequence. */
  function MeanOpt(s: seq<real>): (r: Option<real>)
    ensures r.None? <==> |s| == 0
    ensures |s| > 0 ==> r.value * |s| as real == Sum(s)
  {
    if |s| == 0 then None else Some(Mean(s))
  }

  lemma MeanConst(c: real, n: nat)
    requires n > 0
    ensures Mean(Const(c, n)) == c
  {
    SumConst(c, n);
  }

  /** numpy `min` of a non-empty sequence. */
  function MinOf(s: seq<real>): (r: real)
    requires |s| > 0
    ensures forall i :: 0 <= i < |s| ==> r <= s[i]
  {
    if |s| == 1 then s[0] else Min2(s[0], MinOf(s[1..]))
  }

  /** numpy `max` of a non-empty sequence. */
  function MaxOf(s: seq<real>): (r: real)
    requires |s| > 0
    ensures forall i :: 0 <= i < |s| ==> s[i] <= r
  {
    if |s| == 1 then s[0] else Max2(s[0], MaxOf(s[1..]))
  }

  /** The extremes are elements of the sequence. */
  lemma {:induction false} ExtremesAttained(s: seq<real>)
    requires |s| > 0
    ensures MinOf(s) in s && MaxOf(s) in s
  {
    if |s| > 1 {
      ExtremesAttained(s[1..]);
      assert s == [s[0]] + s[1..];
    }
  }

  lemma ProductNonneg(x: real, w: real)
    requires 0.0 <= x && 0.0 <= w
    ensures 0.0 <= x * w
  {
  }

  /** A weighted average with weight in [0, 1] stays between the bounds of
      its operands. */
  lemma Convex(a: real, x: real, y: real, lo: real, hi: real)
    requires 0.0 <= a <= 1.0 && lo <= x <= hi && lo <= y <= hi
    ensures lo <= a * x + (1.0 - a) * y <= hi
  {
    ProductNonneg(a, x - lo);
    ProductNonneg(1.0 - a, y - lo);
    ProductNonneg(a, hi - x);
    ProductNonneg(1.0 - a, hi - y);
  }

  lemma {:induction false} SumBounds(s: seq<real>, lo: real, hi: real)
    requires forall i :: 0 <= i < |s| ==> lo <= s[i] <= hi
    ensures |s| as real * lo <= Sum(s) <= |s| as real * hi
  {
    if |s| > 0 {
      SumBounds(s[1..], lo, hi);
      assert Sum(s) == s[0] + Sum(s[1..]);
      assert |s| as real * lo == lo + (|s| - 1) as real * lo;
      assert |s| as real * hi == hi + (|s| - 1) as real * hi;
    }
  }

  lemma MulLess(a: real, b: real, n: real)
    requires a < b && 0.0 < n
    ensures a * n < b * n
  {
    assert (b - a) * n > 0.0;
  }

  lemma MulCancel(a: real, b: real, n: real)
    requires 0.0 < n && a * n == b * n
    ensures a == b
  {
    if a < b {
      MulLess(a, b, n);
    } else if b < a {
      MulLess(b, a, n);
    }
  }

  /** A part that times `n` gives a whole equal to `n` is one. */
  lemma MulCancelOne(a: real, p: real, n: real)
    requires 0.0 < n && a * n == p && p == n
    ensures a == 1.0
  {
    MulCancel(a, 1.0, n);
  }

  /** A share of `n` times `n` gives back the part. */
  lemma ShareTimes(w: real, k: real, n: real)
    requires 0.0 < n && w == k / n
    ensures w * n == k
  {
  }

  /** Scaling by `n` carries over to sums. */
  lemma MulAdd(a: real, p: real, b: real, q: real, n: real)
    requires a * n == p && b * n == q
    ensures (a + b) * n == p + q
  {
  }

  lemma ZeroQuotient(t: real, n: real)
    requires t == 0.0 && n != 0.0
    ensures t / n == 0.0
  {
  }

  lemma DivSelf(n: real)
    requires n != 0.0
    ensures n / n == 1.0
  {
  }

  lemma QuotientNonneg(a: real, n: real)
    requires 0.0 <= a && 0.0 < n
    ensures 0.0 <= a / n
  {
    assert (a / n) * n == a;
  }

  lemma QuotientBetween(sum: real, n: real, lo: real, hi: real)
    requires 0.0 < n && n * lo <= sum <= n * hi
    ensures lo <= sum / n <= hi
  {
    var q := sum / n;
    assert q * n == sum;
    if q < lo {
      MulLess(q, lo, n);
    }
    if hi < q {
      MulLess(hi, q, n);
    }
  }

  /** A mean lies within any bounds that hold for every element. */
  lemma MeanWithin(s: seq<real>, lo: real, hi: real)
    requires |s| > 0
    requires forall i :: 0 <= i < |s| ==> lo <= s[i] <= hi
    ensures lo <= Mean(s) <= hi
  {
    SumBounds(s, lo, hi);
    QuotientBetween(Sum(s), |s| as real, lo, hi);
  }

  /** A mean lies between the smallest and the largest element. */
  lemma MeanBetween(s: seq<real>)
    requires |s| > 0
    ensures MinOf(s) <= Mean(s) <= MaxOf(s)
  {
    MeanWithin(s, MinOf(s), MaxOf(s));
  }

  lemma SquareNonneg(d: real)
    ensures 0.0 <= d * d
  {
    if d < 0.0 {
      assert d * d == (-d) * (-d);
    }
  }

  /** Sum of squared deviations from `m`. */
  function SqDev(s: seq<real>, m: real): (r: real)
    ensures 0.0 <= r
  {
    if |s| == 0 then 0.0
    else
      var d := s[0] - m;
      assert 0.0 <= d * d by { SquareNonneg(d); }
      d * d + SqDev(s[1..], m)
  }

  lemma {:induction false} SqDevZero(s: seq<real>, m: real)
    requires forall i :: 0 <= i < |s| ==> s[i] == m
    ensures SqDev(s, m) == 0.0
  {
    if |s| > 0 {
      SqDevZero(s[1..], m);
    }
  }

  /** Population variance (numpy `var`, ddof = 0). */
  function Variance(s: seq<real>): (r: real)
    requires |s| > 0
    ensures 0.0 <= r
  {
    SqDev(s, Mean(s)) / |s| as real
  }

  /** What the model assumes of the square root it is given: it is
      non-negative on non-negative arguments. */
  ghost predicate IsSqrt(sqrt: real -> real) {
    forall x :: 0.0 <= x ==> 0.0 <= sqrt(x)
  }

  /** numpy `std` (population standard deviation) of a non-empty sequence. */
  function Std(s: seq<real>, sqrt: real -> real): real
    requires |s| > 0
  {
    sqrt(Variance(s))
  }

  lemma StdNonneg(s: seq<real>, sqrt: real -> real)
    requires |s| > 0 && IsSqrt(sqrt)
    ensures 0.0 <= Std(s, sqrt)
  {
  }

  /** numpy `std`, NaN (here `None`) on an empty sequence. */
  function StdOpt(s: seq<real>, sqrt: real -> real): (r: Option<real>)
    ensures r.None? <==> |s| == 0
  {
    if |s| == 0 then None else Some(Std(s, sqrt))
  }

  /** The last `k` elements, as Python's `s[-k:]` for k >= 1. */
  function LastN(s: seq<real>, k: nat): (r: seq<real>)
    ensures |r| == if |s| < k then |s| else k
    ensures forall i :: 0 <= i < |r| ==> r[i] == s[|s| - |r| + i]
  {
    if |s| <= k then s else s[|s| - k..]
  }
}

=== FILE: regression.dfy ===
/** Closed-form least squares for `numpy.polyfit(arange(n), y, 1)` and the
    goodness of fit `ssreg / sstot` computed from it. The abscissae are
    always the positions 0, 1, ..., n-1. */
module Regression {
  import opened Numeric

  /** Mean of the abscissae 0 .. n-1. */
  function XMean(n: nat): real {
    (n as real - 1.0) / 2.0
  }

  /** Sum over i < n of (i - m)^2. */
  function Sxx(n: nat, m: real): (r: real)
    ensures 0.0 <= r
  {
    if n == 0 then 0.0
    else
      var d := (n - 1) as real - m;
      SquareNonneg(d);
      Sxx(n - 1, m) + d * d
  }

  /** Sum over positions i of (i - mx) * (y[i] - my). */
  function Sxy(y: seq<real>, mx: real, my: real): real {
    if |y| == 0 then 0.0
    else Sxy(y[..|y| - 1], mx, my) + ((|y| - 1) as real - mx) * (y[|y| - 1] - my)
  }

  lemma {:induction false} SxxAtLeastFirst(n: nat, m: real)
    requires 1 <= n
    ensures m * m <= Sxx(n, m)
  {
    if n > 1 {
      SxxAtLeastFirst(n - 1, m);
      var d := (n - 1) as real - m;
      SquareNonneg(d);
      assert Sxx(n, m) == Sxx(n - 1, m) + d * d;
    } else {
      assert Sxx(1, m) == Sxx(0, m) + (0.0 - m) * (0.0 - m);
    }
  }

  /** With at least two distinct abscissae the normal equations are solvable. */
  lemma SxxPositive(n: nat)
    requires 2 <= n
    ensures 0.0 < Sxx(n, XMean(n))
  {
    var m := XMean(n);
    SxxAtLeastFirst(n, m);
    assert 0.5 <= m;
    assert 0.25 <= m * m;
  }

  /** The fitted slope. */
  function Slope(y: seq<real>): real
    requires 2 <= |y|
  {
    SxxPositive(|y|);
    Sxy(y, XMean(|y|), Mean(y)) / Sxx(|y|, XMean(|y|))
  }

  function Intercept(y: seq<real>): real
    requires 2 <= |y|
  {
    Mean(y) - Slope(y) * XMean(|y|)
  }

  /** Sum over i < n of (b*i + a - my)^2: the regression sum of squares. */
  function SsReg(n: nat, b: real, a: real, my: real): (r: real)
    ensures 0.0 <= r
  {
    if n == 0 then 0.0
    else
      var d := b * (n - 1) as real + a - my;
      SquareNonneg(d);
      SsReg(n - 1, b, a, my) + d * d
  }

  /** `ssreg / sstot`, defined as 0 when the total sum of squares is 0. */
  function RSquared(y: seq<real>): (r: real)
    requires 2 <= |y|
    ensures 0.0 <= r
    ensures SqDev(y, Mean(y)) == 0.0 ==> r == 0.0
  {
    var sstot := SqDev(y, Mean(y));
    if sstot != 0.0 then SsReg(|y|, Slope(y), Intercept(y), Mean(y)) / sstot else 0.0
  }

  lemma {:induction false} SxyConstant(y: seq<real>, mx: real, c: real)
    requires forall i :: 0 <= i < |y| ==> y[i] == c
    ensures Sxy(y, mx, c) == 0.0
  {
    if |y| > 0 {
      SxyConstant(y[..|y| - 1], mx, c);
    }
  }

  /** A constant series has no trend: its slope and its R^2 are both 0. */
  lemma ConstantSeriesFlat(c: real, n: nat)
    requires 2 <= n
    ensures Slope(Const(c, n)) == 0.0
    ensures RSquared(Const(c, n)) == 0.0
  {
    var y := Const(c, n);
    MeanConst(c, n);
    SxyConstant(y, XMean(n), c);
    SqDevZero(y, c);
  }
}

=== FILE: scoring_model.dfy ===
/** The scoring weight configuration and its dictionary form. */
module ScoringModel {

  datatype ScoringWeights = ScoringWeights(capital: real, technical: real, fundamental: real, risk: real)

  const DefaultCapital: real := 0.40
  const DefaultTechnical: real := 0.30
  const DefaultFundamental: real := 0.20
  const DefaultRisk: real := 0.10

  /** The weights a scoring run uses when none are given. */
  function Default(): (w: ScoringWeights)
    ensures w.capital + w.technical + w.fundamental + w.risk == 1.0
  {
    ScoringWeights(DefaultCapital, DefaultTechnical, DefaultFundamental, DefaultRisk)
  }

  /** The configuration contract the callers are responsible for: the
      weights are non-negative and sum to 1. It is not checked at run time. */
  ghost predicate Normalized(w: ScoringWeights) {
    && 0.0 <= w.capital && 0.0 <= w.technical && 0.0 <= w.fundamental && 0.0 <= w.risk
    && w.capital + w.technical + w.fundamental + w.risk == 1.0
  }

  lemma DefaultNormalized()
    ensures Normalized(Default())
  {
  }

  function ToDict(w: ScoringWeights): (d: map<string, real>)
    ensures d.Keys == {"capital", "technical", "fundamental", "risk"}
    ensures d["capital"] == w.capital && d["technical"] == w.technical
    ensures d["fundamental"] == w.fundamental && d["risk"] == w.risk
  {
    map["capital" := w.capital, "technical" := w.technical,
        "fundamental" := w.fundamental, "risk" := w.risk]
  }

  /** Python's `dict.get(key, default)`. */
  function Get(d: map<string, real>, key: string, default: real): (r: real)
    ensures key in d ==> r == d[key]
    ensures key !in d ==> r == default
  {
    if key in d then d[key] else default
  }

  /** Builds weights from a dictionary; every missing key takes its default. */
  function FromDict(d: map<string, real>): (w: ScoringWeights)
    ensures w.capital == (if "capital" in d then d["capital"] else DefaultCapital)
    ensures w.technical == (if "technical" in d then d["technical"] else DefaultTechnical)
    ensures w.fundamental == (if "fundamental" in d then d["fundamental"] else DefaultFundamental)
    ensures w.risk == (if "risk" in d then d["risk"] else DefaultRisk)
  {
    ScoringWeights(
      Get(d, "capital", DefaultCapital),
      Get(d, "technical", DefaultTechnical),
      Get(d, "fundamental", DefaultFundamental),
      Get(d, "risk", DefaultRisk))
  }

  /** Serialising and reading back gives the same weights. */
  lemma RoundTrip(w: ScoringWeights)
    ensures FromDict(ToDict(w)) == w
  {
  }

  /** An empty dictionary yields the default weights. */
  lemma FromEmptyIsDefault()
    ensures FromDict(map[]) == Default()
  {
  }

  /** Keys other than the four weight names are ignored. */
  lemma FromDictIgnoresExtraKeys(d: map<string, real>, k: string, v: real)
    requires k !in {"capital", "technical", "fundamental", "risk"}
    ensures FromDict(d[k := v]) == FromDict(d)
  {
  }
}

=== FILE: scoring_service.dfy ===
/** The composite scoring model: four sub-scores computed from one fetched
    row each, their weighted total, the banded buy/sell signal and the
    canned strengths and weaknesses. A missing row (`None`) is the case in
    which the query returned nothing. `log10` is the logarithm the source
    takes from numpy; the model assumes nothing about it. */
module Scoring {
  import opened Wrappers
  import opened Numeric
  import opened ScoringModel

  // ---------------------------------------------------------------- capital

  /** The row behind the capital sub-score; `positiveDays` counts the
      days of the trailing window with positive net inflow. */
  datatype CapitalRow = CapitalRow(
    netInflow: real,
    inflowRatio: real,
    largeNetInflow: real,
    largeInflowRatio: real,
    totalAmount: real,
    positiveDays: nat)

  /** Up to 25 points for an inflow, counted only when money flows in. */
  function InflowTerm(inflow: real, ratio: real): (r: real)
    ensures r <= 25.0
    ensures inflow <= 0.0 ==> r == 0.0
    ensures 0.0 < inflow && ratio * 2.0 <= 25.0 ==> r == ratio * 2.0
  {
    if inflow > 0.0 then Min2(ratio * 2.0, 25.0) else 0.0
  }

  /** Four points per positive day, capped at 20. */
  function ContinuityTerm(days: nat): (r: real)
    ensures 0.0 <= r <= 20.0
    ensures days <= 5 ==> r == 4.0 * days as real
    ensures 5 <= days ==> r == 20.0
  {
    Min2(days as real * 4.0, 20.0)
  }

  /** `min(log10(max(amount, 1)) - 6, 10)`: never more than 10, possibly negative. */
  function AmountAdjust(amount: real, log10: real -> real): (r: real)
    ensures r <= 10.0
  {
    Min2(log10(Max2(amount, 1.0)) - 6.0, 10.0)
  }

  function CapitalRaw(row: CapitalRow, log10: real -> real): real {
    50.0
    + InflowTerm(row.netInflow, row.inflowRatio)
    + InflowTerm(row.largeNetInflow, row.largeInflowRatio)
    + ContinuityTerm(row.positiveDays)
    + AmountAdjust(row.totalAmount, log10)
  }

  function CapitalScore(row: Option<CapitalRow>, log10: real -> real): (r: real)
    ensures 0.0 <= r <= 100.0
    ensures row.None? ==> r == 50.0
  {
    match row
    case None => 50.0
    case Some(x) => Clamp(CapitalRaw(x, log10), 0.0, 100.0)
  }

  /** More positive-inflow days never lower the capital score. */
  lemma CapitalMonotoneInDays(row: CapitalRow, d1: nat, d2: nat, log10: real -> real)
    requires d1 <= d2
    ensures CapitalScore(Some(row.(positiveDays := d1)), log10)
         <= CapitalScore(Some(row.(positiveDays := d2)), log10)
  {
    ClampMonotone(CapitalRaw(row.(positiveDays := d1), log10),
                  CapitalRaw(row.(positiveDays := d2), log10), 0.0, 100.0);
  }

  // -------------------------------------------------------------- technical

  /** The row behind the technical sub-score. Moving averages and volumes
      are nullable; close price and change percentage are compared
      without a guard, so they are always present. */
  datatype TechnicalRow = TechnicalRow(
    closePrice: real,
    ma5: Option<real>,
    ma20: Option<real>,
    ma60: Option<real>,
    volume: Option<real>,
    vma5: Option<real>,
    changePct: real)

  /** Moving-average alignment: 30, 20, 10 or 0, and only when all three averages are truthy. */
  function MaTerm(row: TechnicalRow): (r: real)
    ensures r == 0.0 || r == 10.0 || r == 20.0 || r == 30.0
    ensures r != 0.0 ==> Truthy(row.ma5) && Truthy(row.ma20) && Truthy(row.ma60)
    ensures r == 30.0 <==> (Truthy(row.ma5) && Truthy(row.ma20) && Truthy(row.ma60)
                           && row.ma5.value > row.ma20.value > row.ma60.value)
  {
    if Truthy(row.ma5) && Truthy(row.ma20) && Truthy(row.ma60) then
      var m5, m20, m60 := row.ma5.value, row.ma20.value, row.ma60.value;
      if m5 > m20 > m60 then 30.0
      else if m5 > m20 then 20.0
      else if row.closePrice > m5 then 10.0
      else 0.0
    else 0.0
  }

  /** Volume-price coordination: 20 for a rise on volume ratio above 1.2, 10 above 1.0. */
  function VolumeTerm(row: TechnicalRow): (r: real)
    ensures r == 0.0 || r == 10.0 || r == 20.0
    ensures r != 0.0 ==> 0.0 < row.changePct && Truthy(row.volume) && Truthy(row.vma5)
  {
    if Truthy(row.volume) && Truthy(row.vma5) then
      var ratio := if row.vma5.value > 0.0 then row.volume.value / row.vma5.value else 1.0;
      if row.changePct > 0.0 && ratio > 1.2 then 20.0
      else if row.changePct > 0.0 && ratio > 1.0 then 10.0
      else 0.0
    else 0.0
  }

  /** Trend strength |ma5 - ma20| / ma20 * 100, capped at 15. */
  function TrendTerm(row: TechnicalRow): (r: real)
    ensures 0.0 <= r <= 15.0
    ensures !(Truthy(row.ma5) && Truthy(row.ma20)) ==> r == 0.0
  {
    if Truthy(row.ma5) && Truthy(row.ma20) then
      Min2(Abs((row.ma5.value - row.ma20.value) / row.ma20.value * 100.0), 15.0)
    else 0.0
  }

  /** Near-limit moves: -10 above +9 %, +5 below -9 %. */
  function ChangeTerm(changePct: real): (r: real)
    ensures r == -10.0 <==> changePct > 9.0
    ensures r == 5.0 <==> changePct < -9.0
    ensures -9.0 <= changePct <= 9.0 <==> r == 0.0
  {
    if changePct != 0.0 then
      if changePct > 9.0 then -10.0
      else if changePct < -9.0 then 5.0
      else 0.0
    else 0.0
  }

  function TechnicalScore(row: Option<TechnicalRow>): (r: real)
    ensures 0.0 <= r <= 100.0
    ensures row.None? ==> r == 50.0
  {
    match row
    case None => 50.0
    case Some(x) =>
      Clamp(50.0 + MaTerm(x) + VolumeTerm(x) + TrendTerm(x) + ChangeTerm(x.changePct), 0.0, 100.0)
  }

  /** With the other columns fixed, a larger volume never lowers the
      technical score: the volume only enters through its ratio to the
      5-day volume average. */
  lemma TechnicalNonDecreasingInVolume(row: TechnicalRow, v1: real, v2: real)
    requires v1 <= v2
    ensures TechnicalScore(Some(row.(volume := Some(v1)))) <= TechnicalScore(Some(row.(volume := Some(v2))))
  {
    var r1, r2 := row.(volume := Some(v1)), row.(volume := Some(v2));
    if Truthy(row.vma5) && row.vma5.value > 0.0 && v1 != 0.0 {
      var m := row.vma5.value;
      assert v1 / m <= v2 / m by {
        if v2 / m < v1 / m {
          MulLess(v2 / m, v1 / m, m);
        }
      }
    }
    assert VolumeTerm(r1) <= VolumeTerm(r2);
    ClampMonotone(50.0 + MaTerm(r1) + VolumeTerm(r1) + TrendTerm(r1) + ChangeTerm(r1.changePct),
                  50.0 + MaTerm(r2) + VolumeTerm(r2) + TrendTerm(r2) + ChangeTerm(r2.changePct), 0.0, 100.0);
  }

  // ------------------------------------------------------------ fundamental

  /** The block row behind the fundamental sub-score; the block's flow
      columns come from an outer join and may be NULL. */
  datatype FundamentalRow = FundamentalRow(
    blockType: string,
    inflowRatio: Option<real>,
    ranking: Option<int>,
    continuityDays: Option<int>)

  function BlockInflowTerm(ratio: Option<real>): (r: real)
    ensures r <= 25.0
    ensures !Truthy(ratio) ==> r == 0.0
  {
    if Truthy(ratio) then Min2(ratio.value * 5.0, 25.0) else 0.0
  }

  /** `max(0, 20 - ranking / 5)`: better (smaller) ranks earn more, never below 0. */
  function RankTerm(ranking: Option<int>): (r: real)
    ensures 0.0 <= r
    ensures !TruthyInt(ranking) ==> r == 0.0
    ensures TruthyInt(ranking) && 0 <= ranking.value ==> r <= 20.0
    ensures TruthyInt(ranking) && 100 <= ranking.value ==> r == 0.0
  {
    if TruthyInt(ranking) then Max2(0.0, 20.0 - ranking.value as real / 5.0) else 0.0
  }

  function BlockContinuityTerm(days: Option<int>): (r: real)
    ensures r <= 15.0
    ensures !TruthyInt(days) ==> r == 0.0
  {
    if TruthyInt(days) then Min2(days.value as real * 3.0, 15.0) else 0.0
  }

  function BlockTypeTerm(blockType: string): (r: real)
    ensures r == 0.0 || r == 5.0 || r == 10.0
    ensures r == 5.0 <==> blockType == "concept"
    ensures r == 10.0 <==> blockType == "industry"
  {
    if blockType == "concept" then 5.0
    else if blockType == "industry" then 10.0
    else 0.0
  }

  function FundamentalScore(row: Option<FundamentalRow>): (r: real)
    ensures 0.0 <= r <= 100.0
    ensures row.None? ==> r == 50.0
  {
    match row
    case None => 50.0
    case Some(x) =>
      Clamp(50.0 + BlockInflowTerm(x.inflowRatio) + RankTerm(x.ranking)
            + BlockContinuityTerm(x.continuityDays) + BlockTypeTerm(x.blockType), 0.0, 100.0)
  }

  /** A larger block inflow ratio never lowers the fundamental score; a
      ratio of 0 is falsy but earns the same 0 as `min(0 * 5, 25)`. */
  lemma FundamentalNonDecreasingInInflow(row: FundamentalRow, r1: real, r2: real)
    requires r1 <= r2
    ensures FundamentalScore(Some(row.(inflowRatio := Some(r1)))) <= FundamentalScore(Some(row.(inflowRatio := Some(r2))))
  {
    assert BlockInflowTerm(Some(r1)) <= BlockInflowTerm(Some(r2));
  }

  /** A worse (larger) non-zero block rank never raises the fundamental
      score; rank 0 is falsy and earns nothing. */
  lemma FundamentalNonIncreasingInRank(row: FundamentalRow, k1: int, k2: int)
    requires k1 <= k2 && k1 != 0
    ensures FundamentalScore(Some(row.(ranking := Some(k2)))) <= FundamentalScore(Some(row.(ranking := Some(k1))))
  {
    assert RankTerm(Some(k2)) <= RankTerm(Some(k1));
  }

  /** A longer inflow run of the block never lowers the fundamental score. */
  lemma FundamentalNonDecreasingInContinuity(row: FundamentalRow, d1: int, d2: int)
    requires d1 <= d2
    ensures FundamentalScore(Some(row.(continuityDays := Some(d1)))) <= FundamentalScore(Some(row.(continuityDays := Some(d2))))
  {
    assert BlockContinuityTerm(Some(d1)) <= BlockContinuityTerm(Some(d2));
  }

  /** Rank 0 is falsy: it earns nothing, while rank 1 earns 19.8, so the
      rank lemma above needs its non-zero requirement. */
  lemma RankZeroEarnsNothing()
    ensures RankTerm(Some(0)) == 0.0 && RankTerm(Some(1)) == 19.8
  {
  }

  // ------------------------------------------------------------------- risk

  /** The row behind the risk sub-score; every column is nullable. */
  datatype RiskRow = RiskRow(
    amplitude: Option<real>,
    turnoverRate: Option<real>,
    totalAmount: Option<real>,
    volatility20d: Option<real>)

  function AmplitudeDeduction(a: Option<real>): (r: real)
    ensures r == 0.0 || r == 10.0 || r == 20.0 || r == 30.0
  {
    if Truthy(a) then
      if a.value > 10.0 then 30.0
      else if a.value > 7.0 then 20.0
      else if a.value > 5.0 then 10.0
      else 0.0
    else 0.0
  }

  function TurnoverDeduction(t: Option<real>): (r: real)
    ensures r == 0.0 || r == 5.0 || r == 15.0 || r == 25.0
  {
    if Truthy(t) then
      if t.value > 20.0 then 25.0
      else if t.value > 10.0 then 15.0
      else if t.value > 5.0 then 5.0
      else 0.0
    else 0.0
  }

  /** Liquidity: -20 below 10 million, -10 below 50 million; an amount of 0 is falsy and costs nothing. */
  function LiquidityDeduction(amount: Option<real>): (r: real)
    ensures r == 0.0 || r == 10.0 || r == 20.0
    ensures !Truthy(amount) ==> r == 0.0
  {
    if Truthy(amount) then
      if amount.value < 10000000.0 then 20.0
      else if amount.value < 50000000.0 then 10.0
      else 0.0
    else 0.0
  }

  function VolatilityDeduction(v: Option<real>): (r: real)
    ensures r == 0.0 || r == 10.0 || r == 15.0
  {
    if Truthy(v) then
      if v.value > 3.0 then 15.0
      else if v.value > 2.0 then 10.0
      else 0.0
    else 0.0
  }

  function RiskRaw(row: RiskRow): real {
    100.0
    - AmplitudeDeduction(row.amplitude)
    - TurnoverDeduction(row.turnoverRate)
    - LiquidityDeduction(row.totalAmount)
    - VolatilityDeduction(row.volatility20d)
  }

  /** Risk is scored by deduction from 100, yet a missing row scores 50. */
  function RiskScore(row: Option<RiskRow>): (r: real)
    ensures 0.0 <= r <= 100.0
    ensures row.None? ==> r == 50.0
    ensures row.Some? ==> 10.0 <= r
  {
    match row
    case None => 50.0
    case Some(x) => Clamp(RiskRaw(x), 0.0, 100.0)
  }

  /** A row whose every column is NULL scores 100, unlike a missing row's 50. */
  lemma AllNullRiskRowIsPerfect()
    ensures RiskScore(Some(RiskRow(None, None, None, None))) == 100.0
    ensures RiskScore(None) == 50.0
  {
  }

  lemma RiskNonIncreasingInAmplitude(row: RiskRow, a1: real, a2: real)
    requires a1 <= a2
    ensures RiskScore(Some(row.(amplitude := Some(a2)))) <= RiskScore(Some(row.(amplitude := Some(a1))))
  {
    assert AmplitudeDeduction(Some(a1)) <= AmplitudeDeduction(Some(a2));
  }

  lemma RiskNonIncreasingInTurnover(row: RiskRow, t1: real, t2: real)
    requires t1 <= t2
    ensures RiskScore(Some(row.(turnoverRate := Some(t2)))) <= RiskScore(Some(row.(turnoverRate := Some(t1))))
  {
    assert TurnoverDeduction(Some(t1)) <= TurnoverDeduction(Some(t2));
  }

  lemma RiskNonIncreasingInVolatility(row: RiskRow, v1: real, v2: real)
    requires v1 <= v2
    ensures RiskScore(Some(row.(volatility20d := Some(v2)))) <= RiskScore(Some(row.(volatility20d := Some(v1))))
  {
    assert VolatilityDeduction(Some(v1)) <= VolatilityDeduction(Some(v2));
  }

  /** A larger non-zero traded amount never raises the risk deduction. */
  lemma RiskNonDecreasingInAmount(row: RiskRow, m1: real, m2: real)
    requires m1 <= m2 && m1 != 0.0
    ensures RiskScore(Some(row.(totalAmount := Some(m1)))) <= RiskScore(Some(row.(totalAmount := Some(m2))))
  {
    assert LiquidityDeduction(Some(m2)) <= LiquidityDeduction(Some(m1));
  }

  /** The falsy zero amount escapes the liquidity deduction that a tiny positive amount takes. */
  lemma ZeroAmountTakesNoDeduction(row: RiskRow)
    ensures RiskScore(Some(row.(totalAmount := Some(1.0)))) < RiskScore(Some(row.(totalAmount := Some(0.0))))
  {
    assert LiquidityDeduction(Some(0.0)) == 0.0;
    assert LiquidityDeduction(Some(1.0)) == 20.0;
  }

  // ------------------------------------------------------------------ total

  /** Each of four sub-scores lies in [0, 100]. */
  predicate AllPercent(capital: real, technical: real, fundamental: real, risk: real) {
    0.0 <= capital <= 100.0 && 0.0 <= technical <= 100.0 && 0.0 <= fundamental <= 100.0 && 0.0 <= risk <= 100.0
  }

  /** The weighted sum of the four sub-scores: under normalised weights it
      stays in [0, 100], and equal sub-scores give that score back. */
  function TotalScore(w: ScoringWeights, capital: real, technical: real, fundamental: real, risk: real): (total: real)
    ensures Normalized(w) && AllPercent(capital, technical, fundamental, risk) ==> 0.0 <= total <= 100.0
    ensures Normalized(w) && capital == technical == fundamental == risk ==> total == capital
  {
    var total := capital * w.capital + technical * w.technical + fundamental * w.fundamental + risk * w.risk;
    assert Normalized(w) && AllPercent(capital, technical, fundamental, risk) ==> 0.0 <= total <= 100.0 by {
      if Normalized(w) && AllPercent(capital, technical, fundamental, risk) {
        var p1 := WeightedTerm(capital, w.capital);
        var p2 := WeightedTerm(technical, w.technical);
        var p3 := WeightedTerm(fundamental, w.fundamental);
        var p4 := WeightedTerm(risk, w.risk);
        BoundedSum(p1, p2, p3, p4, w.capital, w.technical, w.fundamental, w.risk);
      }
    }
    assert Normalized(w) && capital == technical == fundamental == risk ==> total == capital by {
      if Normalized(w) && capital == technical == fundamental == risk {
        assert total == capital * (w.capital + w.technical + w.fundamental + w.risk);
      }
    }
    total
  }

  /** Neutral scores everywhere give 50 times the weight sum. */
  lemma NeutralTotal(w: ScoringWeights)
    ensures TotalScore(w, 50.0, 50.0, 50.0, 50.0) == 50.0 * (w.capital + w.technical + w.fundamental + w.risk)
  {
  }

  /** One weighted term, with the bounds a score in [0, 100] gives it. */
  lemma WeightedTerm(x: real, w: real) returns (p: real)
    requires 0.0 <= x <= 100.0 && 0.0 <= w
    ensures p == x * w
    ensures 0.0 <= p && p <= 100.0 * w
  {
    p := x * w;
    ProductNonneg(x, w);
    ProductNonneg(100.0 - x, w);
    assert (100.0 - x) * w == 100.0 * w - x * w;
  }

  lemma BoundedSum(p1: real, p2: real, p3: real, p4: real, w1: real, w2: real, w3: real, w4: real)
    requires 0.0 <= p1 <= 100.0 * w1 && 0.0 <= p2 <= 100.0 * w2
    requires 0.0 <= p3 <= 100.0 * w3 && 0.0 <= p4 <= 100.0 * w4
    requires w1 + w2 + w3 + w4 == 1.0
    ensures 0.0 <= p1 + p2 + p3 + p4 <= 100.0
  {
  }

  // ----------------------------------------------------------------- signal

  datatype SignalType = StrongBuy | Buy | Watch | Hold | Reduce | Sell | StrongSell

  /** A half-open score interval [low, high) mapped to a signal type. */
  datatype Band = Band(kind: SignalType, low: real, high: real)

  /** The bands in the order the source scans them. */
  const Bands: seq<Band> := [
    Band(StrongBuy, 80.0, 100.0),
    Band(Buy, 70.0, 80.0),
    Band(Watch, 60.0, 70.0),
    Band(Hold, 50.0, 60.0),
    Band(Reduce, 40.0, 50.0),
    Band(Sell, 30.0, 40.0),
    Band(StrongSell, 0.0, 30.0)
  ]

  predicate InBand(b: Band, total: real) {
    b.low <= total < b.high
  }

  /** The first band at position `i` or later containing `total`, or `Hold`
      when none does: the source's loop with its early `break`. */
  function ScanBands(bands: seq<Band>, i: nat, total: real): (k: SignalType)
    requires i <= |bands|
    decreases |bands| - i
    ensures (forall j :: i <= j < |bands| ==> !InBand(bands[j], total)) ==> k == Hold
    ensures forall j :: i <= j < |bands| && InBand(bands[j], total)
                        && (forall l :: i <= l < j ==> !InBand(bands[l], total))
                        ==> k == bands[j].kind
  {
    if i == |bands| then Hold
    else if InBand(bands[i], total) then bands[i].kind
    else ScanBands(bands, i + 1, total)
  }

  function SignalTypeOf(total: real): SignalType {
    ScanBands(Bands, 0, total)
  }

  /** The band mapping written out interval by interval. */
  function BandOf(total: real): SignalType {
    if 80.0 <= total < 100.0 then StrongBuy
    else if 70.0 <= total < 80.0 then Buy
    else if 60.0 <= total < 70.0 then Watch
    else if 50.0 <= total < 60.0 then Hold
    else if 40.0 <= total < 50.0 then Reduce
    else if 30.0 <= total < 40.0 then Sell
    else if 0.0 <= total < 30.0 then StrongSell
    else Hold
  }

  /** Scanning the band table agrees with the interval-by-interval mapping,
      so totals below 0 and totals of 100 or more (exactly 100 included)
      keep the default `Hold`. */
  lemma SignalTypeIsBand(total: real)
    ensures SignalTypeOf(total) == BandOf(total)
    ensures total < 0.0 || 100.0 <= total ==> SignalTypeOf(total) == Hold
  {
    var b := Bands;
    assert ScanBands(b, 7, total) == Hold;
    assert ScanBands(b, 6, total) == if 0.0 <= total < 30.0 then StrongSell else ScanBands(b, 7, total);
    assert ScanBands(b, 5, total) == if 30.0 <= total < 40.0 then Sell else ScanBands(b, 6, total);
    assert ScanBands(b, 4, total) == if 40.0 <= total < 50.0 then Reduce else ScanBands(b, 5, total);
    assert ScanBands(b, 3, total) == if 50.0 <= total < 60.0 then Hold else ScanBands(b, 4, total);
    assert ScanBands(b, 2, total) == if 60.0 <= total < 70.0 then Watch else ScanBands(b, 3, total);
    assert ScanBands(b, 1, total) == if 70.0 <= total < 80.0 then Buy else ScanBands(b, 2, total);
    assert ScanBands(b, 0, total) == if 80.0 <= total < 100.0 then StrongBuy else ScanBands(b, 1, total);
  }

  function BaseStrength(k: SignalType): (s: int)
    ensures 0 <= s <= 3
  {
    match k
    case StrongBuy | StrongSell => 3
    case Buy | Sell => 2
    case Watch | Reduce => 1
    case Hold => 0
  }

  /** Capital and technical scores disagree when they lie more than 30 points apart. */
  predicate Discordant(capital: real, technical: real) {
    Abs(capital - technical) / 100.0 > 0.3
  }

  datatype Signal = Signal(kind: SignalType, strength: int, confidence: real)

  function GenerateSignal(total: real, capital: real, technical: real): (s: Signal)
    ensures s.kind == BandOf(total)
    ensures 0 <= s.strength <= 3
    ensures !Discordant(capital, technical) ==> s.strength == BaseStrength(s.kind)
    ensures Discordant(capital, technical) ==> s.strength == if BaseStrength(s.kind) == 0 then 0 else BaseStrength(s.kind) - 1
    ensures s.confidence == Min2(100.0, total) && s.confidence <= 100.0
  {
    var kind := SignalTypeOf(total);
    SignalTypeIsBand(total);
    var base := BaseStrength(kind);
    var strength := if Discordant(capital, technical) then (if base - 1 < 0 then 0 else base - 1) else base;
    Signal(kind, strength, Min2(100.0, total))
  }

  /** Two signal examples: a concordant 85 is a strength-3
      strong buy; a 55 with capital 90 and technical 20 is a hold of strength 0. */
  lemma SignalExamples()
    ensures GenerateSignal(85.0, 80.0, 80.0) == Signal(StrongBuy, 3, 85.0)
    ensures GenerateSignal(55.0, 90.0, 20.0) == Signal(Hold, 0, 55.0)
    ensures GenerateSignal(100.0, 100.0, 100.0).kind == Hold
  {
  }

  // --------------------------------------------------------------- analysis

  /** The canned statements of the analysis summary. */
  datatype Statement =
    | CapitalStrong | CapitalGood | TechnicalStrong | TechnicalSteady | BlockHot | RiskLow
    | CapitalWeak | TechnicalWeak | RiskHigh

  predicate IsWeakness(x: Statement) {
    x.CapitalWeak? || x.TechnicalWeak? || x.RiskHigh?
  }

  /** The score band in which the source issues each statement. */
  predicate Issued(x: Statement, c: real, t: real, f: real, r: real) {
    match x
    case CapitalStrong => c >= 70.0
    case CapitalGood => 60.0 <= c < 70.0
    case TechnicalStrong => t >= 70.0
    case TechnicalSteady => 60.0 <= t < 70.0
    case BlockHot => f >= 70.0
    case RiskLow => r >= 80.0
    case CapitalWeak => c <= 40.0
    case TechnicalWeak => t <= 40.0
    case RiskHigh => r <= 40.0
  }

  datatype Factor = CapitalFactor | TechnicalFactor | FundamentalFactor | RiskFactor

  function FactorOf(x: Statement): Factor {
    match x
    case CapitalStrong | CapitalGood | CapitalWeak => CapitalFactor
    case TechnicalStrong | TechnicalSteady | TechnicalWeak => TechnicalFactor
    case BlockHot => FundamentalFactor
    case RiskLow | RiskHigh => RiskFactor
  }

  /** Position of a factor in the order the source examines them. */
  function FactorRank(f: Factor): nat {
    match f
    case CapitalFactor => 0
    case TechnicalFactor => 1
    case FundamentalFactor => 2
    case RiskFactor => 3
  }

  /** Statements in strictly increasing factor order: one per factor at most. */
  ghost predicate FactorOrdered(s: seq<Statement>) {
    forall i, j :: 0 <= i < j < |s| ==> FactorRank(FactorOf(s[i])) < FactorRank(FactorOf(s[j]))
  }

  lemma OrderedAppend(a: seq<Statement>, b: seq<Statement>, k: nat)
    requires FactorOrdered(a) && FactorOrdered(b)
    requires forall i :: 0 <= i < |a| ==> FactorRank(FactorOf(a[i])) < k
    requires forall i :: 0 <= i < |b| ==> k <= FactorRank(FactorOf(b[i]))
    ensures FactorOrdered(a + b)
  {
    var s := a + b;
    forall i, j | 0 <= i < j < |s|
      ensures FactorRank(FactorOf(s[i])) < FactorRank(FactorOf(s[j]))
    {
      if j < |a| {
        assert s[i] == a[i] && s[j] == a[j];
      } else if i >= |a| {
        assert s[i] == b[i - |a|] && s[j] == b[j - |a|];
      } else {
        assert s[i] == a[i] && s[j] == b[j - |a|];
      }
    }
  }

  /** The statement `x` alone when `b` holds, nothing otherwise. */
  function When(b: bool, x: Statement): seq<Statement> {
    if b then [x] else []
  }

  /** The strengths, examined factor by factor in the order capital,
      technical, block, risk. */
  function Strengths(c: real, t: real, f: real, r: real): (s: seq<Statement>)
    ensures |s| <= 4
    ensures forall x :: !IsWeakness(x) ==> (x in s <==> Issued(x, c, t, f, r))
    ensures forall x :: x in s ==> !IsWeakness(x)
  {
    CapitalStrength(c) + TechnicalStrength(t) + When(f >= 70.0, BlockHot) + When(r >= 80.0, RiskLow)
  }

  function CapitalStrength(c: real): seq<Statement> {
    if c >= 70.0 then [CapitalStrong] else When(c >= 60.0, CapitalGood)
  }

  function TechnicalStrength(t: real): seq<Statement> {
    if t >= 70.0 then [TechnicalStrong] else When(t >= 60.0, TechnicalSteady)
  }

  lemma StrengthsOrdered(c: real, t: real, f: real, r: real)
    ensures FactorOrdered(Strengths(c, t, f, r))
  {
    var s1, s2 := CapitalStrength(c), TechnicalStrength(t);
    var s3, s4 := When(f >= 70.0, BlockHot), When(r >= 80.0, RiskLow);
    OrderedAppend(s1, s2, 1);
    OrderedAppend(s1 + s2, s3, 2);
    OrderedAppend(s1 + s2 + s3, s4, 3);
  }

  /** The weaknesses, examined in the order capital, technical, risk. */
  function Weaknesses(c: real, t: real, r: real): (s: seq<Statement>)
    ensures |s| <= 3
    ensures forall x :: IsWeakness(x) ==> (x in s <==> Issued(x, c, t, 0.0, r))
    ensures forall x :: x in s ==> IsWeakness(x)
  {
    When(c <= 40.0, CapitalWeak) + When(t <= 40.0, TechnicalWeak) + When(r <= 40.0, RiskHigh)
  }

  lemma WeaknessesOrdered(c: real, t: real, r: real)
    ensures FactorOrdered(Weaknesses(c, t, r))
  {
    var w1, w2, w3 := When(c <= 40.0, CapitalWeak), When(t <= 40.0, TechnicalWeak), When(r <= 40.0, RiskHigh);
    OrderedAppend(w1, w2, 1);
    OrderedAppend(w1 + w2, w3, 2);
  }

  datatype Analysis = Analysis(strengths: seq<Statement>, weaknesses: seq<Statement>)

  /** The strengths are exactly the non-weakness statements the scores
      issue, the weaknesses exactly the weakness statements (the block
      score plays no part in them). */
  function GenerateAnalysis(c: real, t: real, f: real, r: real): (a: Analysis)
    ensures forall x :: x in a.strengths <==> !IsWeakness(x) && Issued(x, c, t, f, r)
    ensures forall x :: x in a.weaknesses <==> IsWeakness(x) && Issued(x, c, t, 0.0, r)
    ensures |a.strengths| <= 4 && |a.weaknesses| <= 3
  {
    Analysis(Strengths(c, t, f, r), Weaknesses(c, t, r))
  }

  /** No factor is named both a strength and a weakness, and each factor
      contributes at most one strength. */
  lemma AnalysisConsistent(c: real, t: real, f: real, r: real)
    ensures var a := GenerateAnalysis(c, t, f, r);
      forall i, j :: 0 <= i < |a.strengths| && 0 <= j < |a.weaknesses| ==>
        FactorOf(a.strengths[i]) != FactorOf(a.weaknesses[j])
    ensures var a := GenerateAnalysis(c, t, f, r);
      forall i, j :: 0 <= i < j < |a.strengths| ==> FactorOf(a.strengths[i]) != FactorOf(a.strengths[j])
  {
    var a := GenerateAnalysis(c, t, f, r);
    forall i, j | 0 <= i < |a.strengths| && 0 <= j < |a.weaknesses|
      ensures FactorOf(a.strengths[i]) != FactorOf(a.weaknesses[j])
    {
      var x, y := a.strengths[i], a.weaknesses[j];
      assert x in a.strengths && y in a.weaknesses;
      NoFactorBothWays(x, y, c, t, f, r);
    }
    StrengthsOrdered(c, t, f, r);
  }

  /** A strength and a weakness issued for the same scores concern
      different factors: their score bands are disjoint. */
  lemma NoFactorBothWays(x: Statement, y: Statement, c: real, t: real, f: real, r: real)
    requires !IsWeakness(x) && IsWeakness(y)
    requires Issued(x, c, t, f, r) && Issued(y, c, t, 0.0, r)
    ensures FactorOf(x) != FactorOf(y)
  {
  }

  // ----------------------------------------------------------------- report

  /** The rows each sub-score query would have fetched for one stock and day. */
  datatype ScoringInputs = ScoringInputs(
    capital: Option<CapitalRow>,
    technical: Option<TechnicalRow>,
    fundamental: Option<FundamentalRow>,
    risk: Option<RiskRow>)

  datatype ScoreReport = ScoreReport(
    stockCode: string,
    tradeDate: string,
    capital: real,
    technical: real,
    fundamental: real,
    risk: real,
    total: real,
    weights: ScoringWeights,
    signal: Signal,
    analysis: Analysis)

  function ScoreStock(stockCode: string, tradeDate: string, inputs: ScoringInputs,
                      w: ScoringWeights, log10: real -> real): (rep: ScoreReport)
    ensures rep.stockCode == stockCode && rep.tradeDate == tradeDate && rep.weights == w
    ensures 0.0 <= rep.capital <= 100.0 && 0.0 <= rep.technical <= 100.0
    ensures 0.0 <= rep.fundamental <= 100.0 && 0.0 <= rep.risk <= 100.0
    ensures rep.total == TotalScore(w, rep.capital, rep.technical, rep.fundamental, rep.risk)
    ensures Normalized(w) ==> 0.0 <= rep.total <= 100.0 && rep.signal.confidence == rep.total
    ensures rep.signal.kind == BandOf(rep.total)
    ensures inputs == ScoringInputs(None, None, None, None) ==> rep.total == 50.0 * (w.capital + w.technical + w.fundamental + w.risk)
  {
    var c := CapitalScore(inputs.capital, log10);
    var t := TechnicalScore(inputs.technical);
    var f := FundamentalScore(inputs.fundamental);
    var r := RiskScore(inputs.risk);
    var total := TotalScore(w, c, t, f, r);
    assert AllPercent(c, t, f, r);
    assert inputs == ScoringInputs(None, None, None, None) ==>
      total == 50.0 * (w.capital + w.technical + w.fundamental + w.risk) by {
      if inputs == ScoringInputs(None, None, None, None) { NeutralTotal(w); }
    }
    ScoreReport(stockCode, tradeDate, c, t, f, r, total, w,
                GenerateSignal(total, c, t), GenerateAnalysis(c, t, f, r))
  }
}

=== FILE: sorting.dfy ===
/** Python's `sorted(xs, key=k)`: a stable sort by a real-valued key.
    Python's `sort(key=k, reverse=True)` is the same stable sort by the
    negated key, which is how the callers obtain descending orders. */
module Sorting {

  ghost predicate SortedBy<T>(s: seq<T>, key: T -> real) {
    forall i, j :: 0 <= i < j < |s| ==> key(s[i]) <= key(s[j])
  }

  /** Inserts `x` after every element whose key is at most its own. */
  function InsertBy<T(==)>(x: T, s: seq<T>, key: T -> real): (r: seq<T>)
    ensures multiset(r) == multiset{x} + multiset(s)
    ensures |r| == |s| + 1
  {
    if |s| == 0 then [x]
    else if key(x) < key(s[0]) then [x] + s
    else
      assert s == [s[0]] + s[1..];
      [s[0]] + InsertBy(x, s[1..], key)
  }

  lemma {:induction false} InsertBySorted<T>(x: T, s: seq<T>, key: T -> real)
    requires SortedBy(s, key)
    ensures SortedBy(InsertBy(x, s, key), key)
  {
    if |s| > 0 && key(s[0]) <= key(x) {
      var t := InsertBy(x, s[1..], key);
      InsertBySorted(x, s[1..], key);
      forall k | 0 <= k < |t|
        ensures key(s[0]) <= key(t[k])
      {
        assert t[k] in multiset(t);
        if t[k] != x {
          var j :| 0 <= j < |s[1..]| && s[1..][j] == t[k];
          assert s[1..][j] == s[j + 1];
        }
      }
      assert InsertBy(x, s, key) == [s[0]] + t;
    }
  }

  function SortBy<T(==)>(s: seq<T>, key: T -> real): (r: seq<T>)
    ensures multiset(r) == multiset(s)
    ensures |r| == |s|
    ensures SortedBy(r, key)
  {
    if |s| == 0 then []
    else
      assert s == s[..|s| - 1] + [s[|s| - 1]];
      InsertBySorted(s[|s| - 1], SortBy(s[..|s| - 1], key), key);
      InsertBy(s[|s| - 1], SortBy(s[..|s| - 1], key), key)
  }

  /** Sorting keeps exactly the elements it was given. */
  lemma SortByMembers<T>(s: seq<T>, key: T -> real, x: T)
    ensures x in SortBy(s, key) <==> x in s
  {
    var r := SortBy(s, key);
    assert x in r <==> x in multiset(r);
    assert x in s <==> x in multiset(s);
  }

  /** Sum of `f` over the elements. */
  function SumBy<T>(s: seq<T>, f: T -> real): real {
    if |s| == 0 then 0.0 else f(s[0]) + SumBy(s[1..], f)
  }

  lemma SumByCons<T>(s: seq<T>, f: T -> real)
    requires |s| > 0
    ensures SumBy(s, f) == f(s[0]) + SumBy(s[1..], f)
  {
  }

  lemma {:induction false} SumBySnoc<T>(s: seq<T>, x: T, f: T -> real)
    ensures SumBy(s + [x], f) == SumBy(s, f) + f(x)
  {
    if |s| == 0 {
      assert s + [x] == [x];
    } else {
      assert (s + [x])[1..] == s[1..] + [x];
      SumBySnoc(s[1..], x, f);
    }
  }

  lemma {:induction false} SumByInsert<T>(x: T, s: seq<T>, key: T -> real, f: T -> real)
    ensures SumBy(InsertBy(x, s, key), f) == f(x) + SumBy(s, f)
  {
    if |s| == 0 {
    } else if key(x) < key(s[0]) {
      assert ([x] + s)[1..] == s;
    } else {
      var t := InsertBy(x, s[1..], key);
      SumByInsert(x, s[1..], key, f);
      assert ([s[0]] + t)[1..] == t;
    }
  }

  /** Sorting does not change the sum of any function of the elements. */
  lemma {:induction false} SumBySort<T>(s: seq<T>, key: T -> real, f: T -> real)
    ensures SumBy(SortBy(s, key), f) == SumBy(s, f)
  {
    if |s| > 0 {
      SumBySort(s[..|s| - 1], key, f);
      SumBySortStep(s, key, f);
    }
  }

  lemma SumBySortStep<T>(s: seq<T>, key: T -> real, f: T -> real)
    requires |s| > 0
    requires SumBy(SortBy(s[..|s| - 1], key), f) == SumBy(s[..|s| - 1], f)
    ensures SumBy(SortBy(s, key), f) == SumBy(s, f)
  {
    var init, last := s[..|s| - 1], s[|s| - 1];
    assert SortBy(s, key) == InsertBy(last, SortBy(init, key), key);
    SumByInsert(last, SortBy(init, key), key, f);
    SumByLast(s, f);
  }

  lemma SumByLast<T>(s: seq<T>, f: T -> real)
    requires |s| > 0
    ensures SumBy(s, f) == SumBy(s[..|s| - 1], f) + f(s[|s| - 1])
  {
    assert s == s[..|s| - 1] + [s[|s| - 1]];
    SumBySnoc(s[..|s| - 1], s[|s| - 1], f);
  }

  /** Python's `s[:m]`, including its meaning for a negative `m`
      (drop the last `-m` elements). */
  function PySliceTo<T>(s: seq<T>, m: int): (r: seq<T>)
    ensures 0 <= m ==> |r| == if m < |s| then m else |s|
    ensures m < 0 ==> |r| == if |s| + m < 0 then 0 else |s| + m
    ensures forall i :: 0 <= i < |r| ==> r[i] == s[i]
    ensures multiset(r) <= multiset(s)
  {
    var n := if 0 <= m then (if m < |s| then m else |s|) else if |s| + m < 0 then 0 else |s| + m;
    assert s == s[..n] + s[n..];
    if 0 <= m then (if m < |s| then s[..m] else s)
    else if |s| + m < 0 then []
    else s[..|s| + m]
  }

  /** A prefix of a sorted sequence is sorted. */
  lemma PrefixSorted<T>(s: seq<T>, key: T -> real, m: int)
    requires SortedBy(s, key)
    ensures SortedBy(PySliceTo(s, m), key)
  {
    var r := PySliceTo(s, m);
    forall i, j | 0 <= i < j < |r|
      ensures key(r[i]) <= key(r[j])
    {
      assert r[i] == s[i] && r[j] == s[j];
    }
  }

  /** Everything kept by `s[:m]` sorts no later than what it drops. */
  lemma PrefixDominates<T>(s: seq<T>, key: T -> real, m: nat, k: nat)
    requires SortedBy(s, key) && m <= k < |s|
    ensures forall x :: x in PySliceTo(s, m) ==> key(x) <= key(s[k])
  {
    var r := PySliceTo(s, m);
    forall x | x in r
      ensures key(x) <= key(s[k])
    {
      var i :| 0 <= i < |r| && r[i] == x;
      assert s[i] == x;
    }
  }

  /** An element at two positions is counted at least twice. */
  lemma RepeatCountsTwice<T>(s: seq<T>, i: int, j: int)
    requires 0 <= i < j < |s| && s[i] == s[j]
    ensures multiset(s)[s[i]] >= 2
  {
    assert s == s[..j] + s[j..];
    assert s[..j][i] == s[i] && s[j..][0] == s[i];
  }

  /** An element of a sequence without repeats is counted at most once. */
  lemma {:induction false} DistinctCountsOnce<T>(s: seq<T>, x: T)
    requires forall i, j :: 0 <= i < j < |s| ==> s[i] != s[j]
    ensures multiset(s)[x] <= 1
  {
    if s != [] {
      var t := s[1..];
      assert s == [s[0]] + t;
      assert forall i, j :: 0 <= i < j < |t| ==> t[i] != t[j] by {
        forall i, j | 0 <= i < j < |t| ensures t[i] != t[j] {
          assert t[i] == s[i + 1] && t[j] == s[j + 1];
        }
      }
      DistinctCountsOnce(t, x);
      if x == s[0] {
        assert x !in t by {
          forall k | 0 <= k < |t| ensures t[k] != x {
            assert t[k] == s[k + 1];
          }
        }
      }
    }
  }

  /** What is drawn without repeats from a sequence without repeats has none. */
  lemma SubBagOfDistinct<T>(a: seq<T>, b: seq<T>)
    requires multiset(a) <= multiset(b)
    requires forall i, j :: 0 <= i < j < |b| ==> b[i] != b[j]
    ensures forall i, j :: 0 <= i < j < |a| ==> a[i] != a[j]
  {
    forall i, j | 0 <= i < j < |a|
      ensures a[i] != a[j]
    {
      if a[i] == a[j] {
        RepeatCountsTwice(a, i, j);
        DistinctCountsOnce(b, a[i]);
        assert false;
      }
    }
  }
}

=== FILE: strategy.dfy ===
/** The post-processing of the strategy endpoints: the top-scoring list,
    the per-row fields of the capital-flow and breakout strategies, and the
    screener with its score. The queries that select the rows are outside
    the model; their result rows are inputs. */
module Strategy {
  import opened Wrappers
  import opened Numeric
  import opened Sorting
  import opened Scoring

  /** `float(x) if x else 0` for a nullable column. */
  function OrZero(o: Option<real>): (r: real)
    ensures Truthy(o) ==> r == o.value
    ensures !Truthy(o) ==> r == 0.0
  {
    if o.Some? then o.value else 0.0
  }

  // ---------------------------------------------------------- top scoring

  function NegTotal(rep: ScoreReport): real {
    -rep.total
  }

  /** The reports whose total reaches `minScore`, in order. */
  function AtLeast(reports: seq<ScoreReport>, minScore: real): (r: seq<ScoreReport>)
    ensures |r| <= |reports|
    ensures forall x :: x in r <==> x in reports && minScore <= x.total
    ensures multiset(r) <= multiset(reports)
  {
    if |reports| == 0 then []
    else
      assert reports == [reports[0]] + reports[1..];
      (if minScore <= reports[0].total then [reports[0]] else []) + AtLeast(reports[1..], minScore)
  }

  /** The top-scoring list: the reports reaching `minScore`, best first
      (ties in input order), cut to `maxCount` as Python's `[:max_count]`
      does. The reports are those of the stocks whose scoring succeeded. */
  function TopScoring(reports: seq<ScoreReport>, minScore: real, maxCount: int): (r: seq<ScoreReport>)
    ensures forall x :: x in r ==> x in reports && minScore <= x.total
    ensures forall i, j :: 0 <= i < j < |r| ==> r[j].total <= r[i].total
    ensures |r| <= |reports|
    ensures 0 <= maxCount ==> |r| <= maxCount
    ensures multiset(r) <= multiset(reports)
  {
    var sorted := SortBy(AtLeast(reports, minScore), NegTotal);
    assert forall x :: x in sorted ==> x in reports && minScore <= x.total by {
      forall x | x in sorted ensures x in reports && minScore <= x.total {
        SortByMembers(AtLeast(reports, minScore), NegTotal, x);
      }
    }
    PrefixSorted(sorted, NegTotal, maxCount);
    PySliceTo(sorted, maxCount)
  }

  /** A qualifying report is listed, unless the list is full of reports
      scoring at least as much. */
  lemma NoBetterReportLeftOut(reports: seq<ScoreReport>, minScore: real, maxCount: nat, x: ScoreReport)
    requires x in reports && minScore <= x.total
    ensures var r := TopScoring(reports, minScore, maxCount);
      x in r || (|r| == maxCount && forall y :: y in r ==> x.total <= y.total)
  {
    var sorted := SortBy(AtLeast(reports, minScore), NegTotal);
    assert TopScoring(reports, minScore, maxCount) == PySliceTo(sorted, maxCount);
    SortByMembers(AtLeast(reports, minScore), NegTotal, x);
    var k :| 0 <= k < |sorted| && sorted[k] == x;
    if k < maxCount {
      assert PySliceTo(sorted, maxCount)[k] == x;
    } else {
      PrefixDominates(sorted, NegTotal, maxCount, k);
    }
  }

  // ---------------------------------------------------- capital-flow picks

  datatype FlowTrendLabel = Improving | Stable

  /** "improving" when yesterday's ratio is known, non-zero and beaten. */
  function FlowTrendOf(inflowRatio: real, prevInflowRatio: Option<real>): (t: FlowTrendLabel)
    ensures t == Improving <==> Truthy(prevInflowRatio) && inflowRatio > prevInflowRatio.value
  {
    if Truthy(prevInflowRatio) && inflowRatio > prevInflowRatio.value then Improving else Stable
  }

  /** A row selected by the capital-flow query; its inflow ratio passed a
      strict lower bound, so it is not NULL. */
  datatype FlowPickRow = FlowPickRow(stockCode: string, stockName: string, closePrice: Option<real>,
                                     changePct: Option<real>, inflowRatio: real, netInflow: Option<real>,
                                     positiveDays: nat, prevInflowRatio: Option<real>)

  datatype FlowPick = FlowPick(stockCode: string, stockName: string, closePrice: real, changePct: real,
                               inflowRatio: real, netInflow: real, continuityDays: nat, trend: FlowTrendLabel)

  function FlowPickOf(row: FlowPickRow): (p: FlowPick)
    ensures p.stockCode == row.stockCode && p.stockName == row.stockName
    ensures p.closePrice == OrZero(row.closePrice) && p.changePct == OrZero(row.changePct)
    ensures p.netInflow == OrZero(row.netInflow) && p.continuityDays == row.positiveDays
    ensures row.inflowRatio != 0.0 ==> p.inflowRatio == row.inflowRatio
    ensures row.inflowRatio == 0.0 ==> p.inflowRatio == 0.0
    ensures p.trend == FlowTrendOf(row.inflowRatio, row.prevInflowRatio)
  {
    FlowPick(row.stockCode, row.stockName, OrZero(row.closePrice), OrZero(row.changePct),
             row.inflowRatio, OrZero(row.netInflow), row.positiveDays,
             FlowTrendOf(row.inflowRatio, row.prevInflowRatio))
  }

  // ------------------------------------------------------------- breakout

  /** Volume over its moving average, 0 unless the average is positive. */
  function VolumeRatioValue(volume: real, vma: Option<real>): (r: real)
    ensures !(vma.Some? && 0.0 < vma.value) ==> r == 0.0
    ensures vma.Some? && 0.0 < vma.value ==> r * vma.value == volume
    ensures 0.0 <= volume ==> 0.0 <= r
  {
    if vma.Some? && vma.value > 0.0 then
      assert 0.0 <= volume ==> 0.0 <= volume / vma.value by {
        if 0.0 <= volume { QuotientNonneg(volume, vma.value); }
      }
      volume / vma.value
    else 0.0
  }

  /** How far the close is above the moving average, in percent; 0 unless
      the average is positive. */
  function BreakRatio(close: real, ma: Option<real>): (r: real)
    ensures !(ma.Some? && 0.0 < ma.value) ==> r == 0.0
    ensures ma.Some? && 0.0 < ma.value ==> r * ma.value == (close - ma.value) * 100.0
    ensures ma.Some? && 0.0 < ma.value ==> (0.0 < r <==> ma.value < close)
  {
    if ma.Some? && ma.value > 0.0 then
      var q := (close - ma.value) / ma.value;
      assert 0.0 < q <==> ma.value < close by {
        assert q * ma.value == close - ma.value;
        if 0.0 < q { ProductNonneg(q, ma.value); }
        if ma.value < close { QuotientNonneg(close - ma.value, ma.value); }
      }
      q * 100.0
    else 0.0
  }

  /** `min(10, int(|break| * 2 + volumeRatio))`. */
  function SignalStrength(breakRatio: real, volumeRatio: real): (s: int)
    ensures s <= 10
    ensures 0.0 <= volumeRatio ==> 0 <= s
    ensures s < 10 && 0.0 <= volumeRatio ==> s as real <= Abs(breakRatio) * 2.0 + volumeRatio < s as real + 1.0
    ensures 10.0 <= Abs(breakRatio) * 2.0 + volumeRatio ==> s == 10
  {
    var t := Trunc(Abs(breakRatio) * 2.0 + volumeRatio);
    if t < 10 then t else 10
  }

  /** A row selected by the breakout query for moving-average period N. */
  datatype BreakoutRow = BreakoutRow(stockCode: string, stockName: string, closePrice: real, volume: real,
                                     vma: Option<real>, ma: Option<real>, changePct: Option<real>)

  datatype BreakoutPick = BreakoutPick(stockCode: string, stockName: string, closePrice: real,
                                       breakRatio: real, volumeRatio: real, changePct: real, signalStrength: int)

  function BreakoutPickOf(row: BreakoutRow): (p: BreakoutPick)
    ensures p.stockCode == row.stockCode && p.stockName == row.stockName
    ensures p.closePrice == row.closePrice && p.changePct == OrZero(row.changePct)
    ensures p.breakRatio == BreakRatio(row.closePrice, row.ma)
    ensures p.volumeRatio == VolumeRatioValue(row.volume, row.vma)
    ensures p.signalStrength == SignalStrength(p.breakRatio, p.volumeRatio)
    ensures p.signalStrength <= 10
  {
    var br := BreakRatio(row.closePrice, row.ma);
    var vr := VolumeRatioValue(row.volume, row.vma);
    BreakoutPick(row.stockCode, row.stockName, row.closePrice, br, vr, OrZero(row.changePct),
                 SignalStrength(br, vr))
  }

  /** The query keeps rows closing above a positive average, so their break
      ratio is positive; with a non-negative volume the strength is too. */
  lemma BreakoutOfSelectedRow(row: BreakoutRow)
    requires row.ma.Some? && 0.0 < row.ma.value < row.closePrice && 0.0 <= row.volume
    ensures 0.0 < BreakoutPickOf(row).breakRatio
    ensures 0 <= BreakoutPickOf(row).signalStrength <= 10
  {
  }

  // ------------------------------------------------------------- screener

  /** A row of the screener query; every column after the code may be NULL. */
  datatype ScreenerRow = ScreenerRow(
    stockCode: string,
    stockName: string,
    closePrice: Option<real>,
    changePct: Option<real>,
    amount: Option<real>,
    turnoverRate: Option<real>,
    inflowRatio: Option<real>,
    netInflow: Option<real>,
    ma5: Option<real>,
    ma20: Option<real>)

  datatype MaTrend = Up | Down

  function MaTrendOf(ma5: Option<real>, ma20: Option<real>): (t: MaTrend)
    ensures t == Up <==> Truthy(ma5) && Truthy(ma20) && ma5.value > ma20.value
  {
    if Truthy(ma5) && Truthy(ma20) && ma5.value > ma20.value then Up else Down
  }

  /** Ten points per unit of inflow ratio, at most 20, when the ratio is truthy. */
  function ScreenerInflowBonus(ratio: Option<real>): (b: real)
    ensures b <= 20.0
    ensures !Truthy(ratio) ==> b == 0.0
    ensures Truthy(ratio) && ratio.value <= 2.0 ==> b == ratio.value * 10.0
    ensures Truthy(ratio) && 2.0 <= ratio.value ==> b == 20.0
  {
    if Truthy(ratio) then Min2(ratio.value * 10.0, 20.0) else 0.0
  }

  function ScreenerAmountBonus(amount: Option<real>, log10: real -> real): (b: real)
    ensures b <= 10.0
    ensures !Truthy(amount) ==> b == 0.0
    ensures Truthy(amount) ==> b == AmountAdjust(amount.value, log10)
  {
    if Truthy(amount) then AmountAdjust(amount.value, log10) else 0.0
  }

  /** Five points for a turnover rate between 2 and 10 percent. */
  function TurnoverBonus(turnover: Option<real>): (b: real)
    ensures b == 5.0 <==> Truthy(turnover) && 2.0 <= turnover.value <= 10.0
    ensures b == 0.0 <==> !(Truthy(turnover) && 2.0 <= turnover.value <= 10.0)
  {
    if Truthy(turnover) && 2.0 <= turnover.value <= 10.0 then 5.0 else 0.0
  }

  /** Ten points for a rising moving-average alignment. */
  function TrendBonus(ma5: Option<real>, ma20: Option<real>): (b: real)
    ensures b == 10.0 <==> MaTrendOf(ma5, ma20) == Up
    ensures b == 0.0 <==> MaTrendOf(ma5, ma20) == Down
  {
    if MaTrendOf(ma5, ma20) == Up then 10.0 else 0.0
  }

  function ScreenerRaw(row: ScreenerRow, log10: real -> real): (s: real)
    ensures s <= 95.0
  {
    50.0 + ScreenerInflowBonus(row.inflowRatio) + ScreenerAmountBonus(row.amount, log10)
    + TurnoverBonus(row.turnoverRate) + TrendBonus(row.ma5, row.ma20)
  }

  /** The screener score: 50 plus the four bonuses, clamped to [0, 100].
      The bonuses add at most 45, so the upper clamp is never reached. */
  function ScreenerScore(row: ScreenerRow, log10: real -> real): (s: real)
    ensures 0.0 <= s <= 95.0
    ensures 0.0 <= ScreenerRaw(row, log10) ==> s == ScreenerRaw(row, log10)
    ensures ScreenerRaw(row, log10) < 0.0 ==> s == 0.0
  {
    Clamp(ScreenerRaw(row, log10), 0.0, 100.0)
  }

  /** A row with nothing but NULLs scores the neutral 50. */
  lemma EmptyRowScoresFifty(code: string, name: string, log10: real -> real)
    ensures ScreenerScore(ScreenerRow(code, name, None, None, None, None, None, None, None, None), log10) == 50.0
  {
  }

  /** An up-trend is worth ten points to an otherwise identical row whose
      score is not clamped. */
  lemma UpTrendAddsTen(row: ScreenerRow, log10: real -> real)
    requires MaTrendOf(row.ma5, row.ma20) == Up
    requires 0.0 <= ScreenerRaw(row.(ma5 := None), log10)
    ensures ScreenerScore(row, log10) == ScreenerScore(row.(ma5 := None), log10) + 10.0
  {
  }

  datatype ScreenerStock = ScreenerStock(
    stockCode: string,
    stockName: string,
    closePrice: real,
    changePct: real,
    amount: real,
    turnoverRate: real,
    inflowRatio: real,
    netInflow: real,
    maTrend: MaTrend,
    score: real)

  function ScreenerStockOf(row: ScreenerRow, log10: real -> real): (s: ScreenerStock)
    ensures s.stockCode == row.stockCode && s.stockName == row.stockName
    ensures s.closePrice == OrZero(row.closePrice) && s.changePct == OrZero(row.changePct)
    ensures s.amount == OrZero(row.amount) && s.turnoverRate == OrZero(row.turnoverRate)
    ensures s.inflowRatio == OrZero(row.inflowRatio) && s.netInflow == OrZero(row.netInflow)
    ensures s.maTrend == MaTrendOf(row.ma5, row.ma20)
    ensures s.score == ScreenerScore(row, log10) && 0.0 <= s.score <= 95.0
  {
    ScreenerStock(row.stockCode, row.stockName, OrZero(row.closePrice), OrZero(row.changePct),
                  OrZero(row.amount), OrZero(row.turnoverRate), OrZero(row.inflowRatio),
                  OrZero(row.netInflow), MaTrendOf(row.ma5, row.ma20), ScreenerScore(row, log10))
  }

  /** The screener as written: the score is requested through `self`, a
      name the module-level handler does not have, so the first row raises
      and the handler answers with an error; only an empty selection gets
      through. */
  function ScreenerAsWritten(rows: seq<ScreenerRow>): (r: Result<seq<ScreenerStock>>)
    ensures r.Success? <==> |rows| == 0
    ensures r.Success? ==> r.value == []
    ensures r.Failure? ==> r.error == UndefinedName
  {
    if |rows| == 0 then Success([]) else Failure(UndefinedName)
  }

  /** Any selected row makes the handler fail. */
  lemma ScreenerAsWrittenFailsOnAnyRow(row: ScreenerRow)
    ensures ScreenerAsWritten([row]) == Failure(UndefinedName)
  {
  }

  function ScreenerStocks(rows: seq<ScreenerRow>, log10: real -> real): (r: seq<ScreenerStock>)
    ensures |r| == |rows|
    ensures forall i :: 0 <= i < |rows| ==> r[i] == ScreenerStockOf(rows[i], log10)
  {
    seq(|rows|, i requires 0 <= i < |rows| => ScreenerStockOf(rows[i], log10))
  }

  function NegScore(s: ScreenerStock): real {
    -s.score
  }

  /** The screener as intended: every selected row scored and the list
      sorted by score, best first, ties in query order. */
  function Screener(rows: seq<ScreenerRow>, log10: real -> real): (r: seq<ScreenerStock>)
    ensures |r| == |rows|
    ensures multiset(r) == multiset(ScreenerStocks(rows, log10))
    ensures forall i, j :: 0 <= i < j < |r| ==> r[j].score <= r[i].score
    ensures forall i :: 0 <= i < |r| ==> 0.0 <= r[i].score <= 95.0
  {
    var r := SortBy(ScreenerStocks(rows, log10), NegScore);
    assert forall i :: 0 <= i < |r| ==> 0.0 <= r[i].score <= 95.0 by {
      forall i | 0 <= i < |r| ensures 0.0 <= r[i].score <= 95.0 {
        SortByMembers(ScreenerStocks(rows, log10), NegScore, r[i]);
      }
    }
    r
  }

  /** Every selected row is in the intended screener's answer, with its score. */
  lemma ScreenerKeepsEveryRow(rows: seq<ScreenerRow>, log10: real -> real, i: nat)
    requires i < |rows|
    ensures ScreenerStockOf(rows[i], log10) in Screener(rows, log10)
  {
    var all := ScreenerStocks(rows, log10);
    assert all[i] == ScreenerStockOf(rows[i], log10);
    SortByMembers(all, NegScore, all[i]);
  }
}

=== FILE: wrappers.dfy ===
/** Nullable values and error outcomes.

    `Option<real>` stands for a numeric column that may be SQL NULL or a
    float that may be NaN; `Result` stands for a computation that the
    source lets raise. */
module Wrappers {

  datatype Option<+T> = None | Some(value: T) {

    /** The value, or `default` when absent. */
    function GetOr(default: T): T {
      match this
      case Some(v) => v
      case None => default
    }
  }

  /** The reason a computation in the source raises instead of returning. */
  datatype Error =
    | EmptySamplePoints   // numpy.interp with no known sample points
    | UndefinedName       // a name the source never binds (NameError)

  datatype Result<+T> = Success(value: T) | Failure(error: Error)
}
